=== FILE: README.md ===
# PatEval evaluation-summary core, modelled in Dafny

PatEval is a physical-therapy evaluation application. This project models its
pure logic and proves properties of it. The largest part is the historical
findings engine of the evaluation summary. It works in four steps:

1. It merges the fetched history with the evaluation on screen.
2. It picks the date columns.
3. It extracts the significant range-of-motion (ROM), special-test and
   strength findings, each with its per-date history.
4. It groups the findings into table rows and formats the cells.

Around it sit the other parts of the core:

- the narrative report builders;
- the string helpers (phone formatting, age, class names);
- the row mappers and reducers of the data-access layer;
- the pure parts of the local IndexedDB store (search, newest-first listing,
  save-time normalisation);
- the permission-level rule and the patient-list filter;
- the error-to-message mapping.

Every operation is a pure function over immutable values:

- A JavaScript value is `Values.Val`: `Absent`, `Bool`, `Num` (integers only)
  or `Str`. It comes with a `Truthy` predicate and a `Display` rendering.
- A JavaScript object is `JsObject.Obj<V>`, its entries in insertion order.
  `Put` overwrites a key in place or appends it, because first-seen order is
  visible in the tables.
- Dates are ISO `YYYY-MM-DD` strings, ordered lexicographically by
  `Ordering.LexLess`.
- `Array.prototype.sort` is a stable insertion sort on a string key
  (`Ordering.SortBy`).
- The humaniser `s.replace(/([A-Z])/g, ' $1').toLowerCase()` is
  `Strings.Humanize`, on ASCII letters.
- Values the source fetches, reads from the clock or generates at random are
  parameters:
  - the history rows, the permission rows and the profile;
  - "today" for `calculateAge`;
  - new ids for `saveFormData`.

Modules, one per file:

| module | models |
|---|---|
| `Values`, `JsObject`, `Strings`, `Seqs`, `Ordering`, `Wrappers` | JavaScript values, objects, strings, filters and sorting |
| `Evaluation`, `Catalogue` | evaluation records, and the `jointROM` and special-test catalogues (the entries the core reads) |
| `HistoryMerge` | the post-fetch transform of `loadHistoricalData` |
| `Candidates`, `DateColumns` | the candidate dates of a category, and `getSmartDateColumns` |
| `HistoryValues`, `Walk`, `Extract` | the three `getHistorical*` extractors |
| `Fold`, `Grouping`, `Cells` | the three grouping reducers and the cell helpers |
| `Summary` | section auto-inclusion and the summary's name helpers |
| `Narrative` | the narrative builders of `FullNarrativeSummary` |
| `Utils` | `src/lib/utils.ts` |
| `DataAccess` | the mappers and reducers of `src/lib/dataAccess.ts` |
| `LocalDb` | the pure parts of `src/lib/db.ts` |
| `Errors` | `src/lib/errors.ts` and the store's abort translation |
| `Permissions`, `PatientList` | `getPatientsWithPermissions`, `canManagePatientPermissions` and the patient list's `filteredPatients` |

## Model

| member | source | states |
|---|---|---|
| `HistoryMerge.CurrentDate` | src/components/EvaluationSummary.tsx:179 | The evaluation's own date when it is set, otherwise the form's date when there is a form; nothing when neither date is known. |
| `HistoryMerge.Normalise` | src/components/EvaluationSummary.tsx:182-188 | A fetched record keeps its id and date; each missing section becomes `{}`. |
| `HistoryMerge.KeepUpTo` | src/components/EvaluationSummary.tsx:180-188 | The kept records are exactly the normalised fetched ones dated on or before the current date. |
| `HistoryMerge.KeepUpToFilterMap` | src/components/EvaluationSummary.tsx:180-188 | The kept list equals filtering by date and then normalising each evaluation, so fetch order and duplicates are kept. |
| `HistoryMerge.MergeHistory` | src/components/EvaluationSummary.tsx:190-205 | When the current date is missing from the history, a `'current'` record is added and the result is that permutation sorted ascending by date, with records of equal date in the order they had before sorting. Otherwise the kept records come back in fetch order, unsorted. |
| `HistoryMerge.MergeKeepsFetchOrder` | src/components/EvaluationSummary.tsx:180-205 | When nothing is appended, the merge is the date filter followed by normalisation, in fetch order. |
| `HistoryMerge.MergedUpToCurrent` | src/components/EvaluationSummary.tsx:180-181 | No merged record is dated after the current date. |
| `HistoryMerge.MergedHasCurrentDate` | src/components/EvaluationSummary.tsx:191-201 | With a form and a current date, the merged history always contains a record of that date. |
| `HistoryMerge.MergeWithoutDate` | src/components/EvaluationSummary.tsx:179-181 | Without any current date, every comparison fails and the history is empty. |
| `Candidates.SectionDates` | src/components/EvaluationSummary.tsx:462-466 | The dates of exactly those history records whose whole section is non-empty, whatever the body part. |
| `Candidates.CandidateDates` | src/components/EvaluationSummary.tsx:453-466 | The `Set` of candidates: distinct, the current date first when set, otherwise exactly the non-empty-section dates. |
| `DateColumns.SmartDateColumns` | src/components/EvaluationSummary.tsx:420-448 | Up to `maxColumns` dates come back unchanged, including `[]` and unsorted input. Every result is an input date, and the result is non-empty for non-empty input. |
| `DateColumns.SmartDateColumnsSpread` | src/components/EvaluationSummary.tsx:425-447 | For n distinct dates with n > maxColumns >= 2: exactly maxColumns columns, strictly ascending, from the earliest to the latest. |
| `DateColumns.SmartDateColumnsEnds` | src/components/EvaluationSummary.tsx:425-447 | With maxColumns < 2 and at least two distinct dates, the result is still `[earliest, latest]`. |
| `DateColumns.ThinShape` | src/components/EvaluationSummary.tsx:426-444 | When the last stride stops short of the latest date, the first maxColumns - 1 columns are the sorted dates at multiples of the stride, and the last column is the latest date. |
| `DateColumns.SampleFull` | src/components/EvaluationSummary.tsx:430-440 | The strided walk fills every column it is asked for while the stride stays inside the interior. |
| `HistoryValues.Seed` | src/components/EvaluationSummary.tsx:483-488 | The map starts with the current value under the current date and holds nothing else. |
| `HistoryValues.LastTruthy` | src/components/EvaluationSummary.tsx:492-509 | The reference reading of a date: the last truthy slot of a record of that date, or none when all are falsy. |
| `HistoryValues.OverlayGet` | src/components/EvaluationSummary.tsx:492-509 | After the history pass, each date holds its last truthy history value, else what it held before. Falsy slots are never copied. |
| `HistoryValues.OverlayValues` | src/components/EvaluationSummary.tsx:492-509 | Every value in `historicalValues` is the seeded current value or a truthy history value of that date. |
| `HistoryValues.OverlayUntouched` | src/components/EvaluationSummary.tsx:492-509 | A date no history record carries keeps its seeded value. |
| `HistoryValues.HistoricalValues` | src/components/EvaluationSummary.tsx:483-509 | The current value stays under the current date unless a history record of that date has a truthy slot. |
| `HistoryValues.ColumnOf` | src/components/EvaluationSummary.tsx:493 | One pair per history record, in history order, carrying that record's evaluation date. |
| `Walk.WalkSection` | src/components/EvaluationSummary.tsx:471-475 | The findings of a section are exactly those of its motions, over every body part. |
| `Walk.WalkEntriesOrder` | src/components/EvaluationSummary.tsx:475-536 | The walk of one body part is its keys' results one after the other, in key order, each exactly once. |
| `Walk.WalkSectionOrder` | src/components/EvaluationSummary.tsx:471-538 | The walk of a section is its body parts' walks one after the other, in body-part order. |
| `Walk.Pick` | src/components/EvaluationSummary.tsx:524-534 | A slot contributes exactly when it passes the significance test, and only its own finding. |
| `Extract.ContextFor` | src/components/EvaluationSummary.tsx:468 | The shared date columns are drawn from the category's candidate dates. |
| `Extract.RomEntryFindings` | src/components/EvaluationSummary.tsx:472-482 | A ROM slot yields a finding iff its body part and motion have a non-zero catalogue maximum and its value is truthy and > 0. |
| `Extract.RomFindings` | src/components/EvaluationSummary.tsx:450-543 | The ROM findings are exactly those of the motions of the current section. |
| `Extract.RomFindingSource` | src/components/EvaluationSummary.tsx:471-536 | Every ROM finding comes from a significant slot of the current section. |
| `Extract.RomFindingsOrder` | src/components/EvaluationSummary.tsx:471-538 | The ROM findings are listed body part by body part and motion by motion, in the section's order, each motion's findings exactly as it yields them. |
| `Extract.YieldingMotion` | src/components/EvaluationSummary.tsx:477-478 | A yielding motion has a non-zero maximum, so it is never elbow or knee extension, even after humanising. |
| `Extract.HumanExtension` | src/components/EvaluationSummary.tsx:513-514 | Any key whose humanised form is elbow or knee extension has a maximum of 0. |
| `Extract.ExtensionNeverSurfaces` | src/components/EvaluationSummary.tsx:477-478 | No ROM finding has a zero normal maximum, and none is elbow or knee extension. |
| `Extract.SpecialEntryFindings` | src/components/EvaluationSummary.tsx:570-575 | A special-test side yields a finding iff the test is in the catalogue and its result equals `'positive'`. |
| `Extract.SpecialTestFindings` | src/components/EvaluationSummary.tsx:545-615 | The special-test findings are exactly those of the tests of the current section. |
| `Extract.SpecialFindingSource` | src/components/EvaluationSummary.tsx:565-605 | Every special-test finding comes from a catalogued test with a side whose result is `'positive'`. |
| `Extract.SpecialTestFindingsOrder` | src/components/EvaluationSummary.tsx:565-607 | The special-test findings are listed body part by body part and test by test, in the section's order. |
| `Extract.StrengthEntryFindings` | src/components/EvaluationSummary.tsx:645-647 | A strength slot yields a finding iff its value is truthy and > 0. |
| `Extract.StrengthFindings` | src/components/EvaluationSummary.tsx:617-688 | The strength findings are exactly those of the movements of the current section. |
| `Extract.StrengthFindingSource` | src/components/EvaluationSummary.tsx:638-678 | Every strength finding comes from a side whose value is truthy and > 0. |
| `Extract.StrengthFindingsOrder` | src/components/EvaluationSummary.tsx:638-680 | The strength findings are listed body part by body part and movement by movement, in the section's order. |
| `Extract.TestTypeOr` | src/components/EvaluationSummary.tsx:672 | The finding's test type is the entry's, or `'manual'` when empty; it is never empty. |
| `Extract.TablesShareDates` | src/components/EvaluationSummary.tsx:468-670 | In each of the ROM, special-test and strength tables, every finding carries that table's date columns. |
| `Extract.CurrentDateColumn` | src/components/EvaluationSummary.tsx:453-468 | With no later history, the current date is the first column of an unsorted short list and the last column of a thinned one. |
| `Catalogue.ZeroMaxMotions` | src/lib/constants/jointROM.ts:28-51 | The motions with a maximum of 0 are exactly elbow and knee extension. |
| `Fold.GroupKeys` | src/components/EvaluationSummary.tsx:1369-1401 | One row per distinct `bodyPart-key`, in first-seen order. |
| `Fold.GroupRow` | src/components/EvaluationSummary.tsx:1369-1401 | A row is opened by its key's first finding and then fed its key's findings in order. |
| `Fold.LastMatch` | src/components/EvaluationSummary.tsx:1380-1398 | An accepted element of the list, or none exactly when no element is accepted. |
| `Fold.LastMatchIsLast` | src/components/EvaluationSummary.tsx:1380-1398 | The element found is the last accepted one, so a later finding or row always overwrites an earlier one. |
| `Grouping.OpenRomRow` | src/components/EvaluationSummary.tsx:1371-1380 | A new ROM row takes its header, normal and dates from the finding, with four empty buckets. |
| `Grouping.RomReplay` | src/components/EvaluationSummary.tsx:1381-1398 | Routing keeps the header; each bucket ends with the values of the last finding routed to it. |
| `Grouping.RomRowContents` | src/components/EvaluationSummary.tsx:1369-1401 | A ROM row exists iff some finding has its key. It carries its first finding's header, and each bucket holds its last routed finding's values. |
| `Grouping.RomSlotRouting` | src/components/EvaluationSummary.tsx:1381-1398 | Substring routing sends each side label to its own bucket. Unilateral findings (`active`, `passive`) fill none. |
| `Grouping.SaysActive` | src/components/EvaluationSummary.tsx:1382 | A side label contains `'active'` iff it is an active slot, so passive labels never pass. |
| `Grouping.OpenSideRow` | src/components/EvaluationSummary.tsx:1506-1520 | A new strength or special-test row takes its header, dates, notes and test type from the finding, with empty buckets. |
| `Grouping.MergeNotes` | src/components/EvaluationSummary.tsx:1526-1528 | A note already present, or empty, changes nothing. Any other note is appended after `"; "`, or becomes the notes when they were empty. So the result extends the old notes and contains the new one. |
| `Grouping.MergeNotesIdempotent` | src/components/EvaluationSummary.tsx:1620-1622 | Merging the same note twice is merging it once. |
| `Grouping.SideReplay` | src/components/EvaluationSummary.tsx:1504-1531 | Routing keeps the header and test type; left and right end with the last routed finding's values. |
| `Grouping.SideReplayNotes` | src/components/EvaluationSummary.tsx:1526-1528 | A row's notes are its findings' notes merged one after the other, whatever else is routed. They start with the row's opening notes and contain every non-empty note. |
| `Grouping.SideRowContents` | src/components/EvaluationSummary.tsx:1599-1625 | A strength or special-test row exists iff some finding has its key. It carries its first finding's header, and its notes are its findings' notes merged in order. |
| `Grouping.SideSlotRouting` | src/components/EvaluationSummary.tsx:1507-1523 | A `left` label fills only the left bucket, a `right` label only the right; a unilateral finding fills neither. |
| `Cells.CellValue` | src/components/EvaluationSummary.tsx:1412 | A date missing from a bucket reads as absent. |
| `Cells.StrengthColorClass` | src/components/EvaluationSummary.tsx:1472-1483 | Gray-800 iff both sides are truthy and equal; red if either side is truthy otherwise; gray-400 iff both are falsy. |
| `Cells.StrengthColorSymmetric` | src/components/EvaluationSummary.tsx:1472-1483 | Swapping left and right never changes the colour. |
| `Cells.StrengthCellText` | src/components/EvaluationSummary.tsx:1486-1501 | `'-'` for a falsy value; otherwise the value followed by the unit suffix of its test type. |
| `Cells.UnitSuffix` | src/components/EvaluationSummary.tsx:1488-1499 | Any test type other than strain gauge, isokinetic or percent RM gets `/5 (MMT)`. |
| `Cells.StrengthCellFacts` | src/components/EvaluationSummary.tsx:1486-1501 | The cell is `'-'` exactly for falsy values, and an unknown test type reads as manual. |
| `Cells.Glyph` | src/components/EvaluationSummary.tsx:1639-1642 | ✓ iff positive, ✗ iff negative, `?` iff some other truthy value, `-` iff falsy. |
| `Cells.GlyphClass` | src/components/EvaluationSummary.tsx:1635-1638 | Red for positive, green for negative, gray for anything else. |
| `Cells.GlyphAgreesWithClass` | src/components/EvaluationSummary.tsx:1635-1653 | The gray class goes exactly with the `-` and `?` glyphs. |
| `Cells.Degrees` | src/components/EvaluationSummary.tsx:1412 | `'-'` iff falsy; otherwise the value followed by a degree sign. |
| `Cells.RomCellText` | src/components/EvaluationSummary.tsx:1417 | The cell starts `A: ` and reads `A: - / P: -` exactly when neither the active nor the passive reading is truthy. |
| `Summary.SmartSummaryInclusion` | src/components/EvaluationSummary.tsx:809-819 | A saved flag or findings show each section. The timeline needs events and a flag other than `false`. The narrative follows its flag alone. |
| `Summary.InclusionKeepsOtherFlags` | src/components/EvaluationSummary.tsx:810 | Saved flags outside the eight assigned keys are carried over unchanged. |
| `Summary.InclusionFacts` | src/components/EvaluationSummary.tsx:811-815 | Findings force a section in; an explicit `false` or an empty timeline keeps the timeline out. |
| `Summary.DefaultFlags` | src/components/EvaluationSummary.tsx:101-113 | The fallback flags: demographics, observations, problems, timeline and the five tables and tests are `true`; employer, emergency contact and narrative are `false`. |
| `Summary.MissingInclusionDefaults` | src/components/EvaluationSummary.tsx:101-113 | Without saved flags the watch supplies these defaults to the inclusion rule, so every section but employer, emergency contact and narrative is shown, and the timeline exactly when it has events. |
| `Summary.OrOther` | src/components/EvaluationSummary.tsx:219-220 | The choice `'Other'` is replaced by the free-text value. |
| `Summary.NameParts` | src/components/EvaluationSummary.tsx:218-221 | The five name parts in order: prefix, first, middle, last, suffix. |
| `Summary.SummaryPatientName` | src/components/EvaluationSummary.tsx:216-222 | For a demographics value, the joined truthy name parts. The `Unknown Patient` case is `getPatientName`'s own `!demographics` branch, which the component never reaches (see `Summary.WatchedPatientName`). |
| `Summary.WatchedPatientName` | src/components/EvaluationSummary.tsx:56-67 | Missing demographics are watched as `{}` (line 85), so the summary shows `''` for them, not `Unknown Patient`; otherwise the joined truthy parts. |
| `Summary.PatientNameParts` | src/components/EvaluationSummary.tsx:221 | The name is empty iff every part is; splitting it on spaces gives back exactly the non-empty parts. |
| `Summary.GetEmployerInfo` | src/components/EvaluationSummary.tsx:236-246 | Empty fields without an employer. Otherwise name and phone are kept. The address is the non-empty street, city, state and zip joined by `', '`, and is empty iff all of them are. |
| `Summary.EmployerAddressParts` | src/components/EvaluationSummary.tsx:238-240 | Splitting the address at its commas gives back its non-empty parts in order, each after the first behind one space, when no part holds a comma. |
| `Summary.VisitsSinceInitial` | src/components/EvaluationSummary.tsx:415-417 | `Math.max(1, n)`: at least 1, at least n, and one of the two. |
| `Summary.BodyPartNameIsHumanize` | src/components/EvaluationSummary.tsx:337-357 | Every entry of the body-part table equals the humaniser's output, so the lookup is the humaniser. |
| `Strings.HumanizeShape` | src/components/EvaluationSummary.tsx:513-514 | A humanised name has no capitals and is one space longer per capital. |
| `Strings.CamelizeHumanize` | src/components/EvaluationSummary.tsx:513-514 | For identifiers without spaces, humanising loses nothing: the identifier can be rebuilt. |
| `Strings.TrimEmptyIffBlank` | src/components/permissions/PatientListWithPermissions.tsx:68 | `trim()` gives `''` exactly for whitespace-only input. |
| `Strings.LowerTrimEmpty` | src/components/permissions/PatientListWithPermissions.tsx:69 | Lower-casing leaves whitespace alone, so a lower-cased term trims to `''` exactly when the term does. |
| `Strings.ToLower` | src/components/permissions/PatientListWithPermissions.tsx:71 | Same length, each character mapped by the ASCII lower-case mapping. |
| `Strings.JoinTruthyEmpty` | src/components/FullNarrativeSummary.tsx:35 | `filter(Boolean).join(sep)` is `''` iff every part is empty. |
| `JsObject.Put` | src/lib/dataAccess.ts:362-363 | `m[k] = v`: k now reads v, every other key reads as before, and an existing key keeps its position. |
| `Ordering.SortBy` | src/components/EvaluationSummary.tsx:425 | The result is sorted and is a permutation of the input. It is stable: for every key, the elements with that key appear in their input order. |
| `Ordering.InsertByStable` | src/components/EvaluationSummary.tsx:425 | Inserting into a sorted list puts the new element after every element with the same key, as if it had been appended. |
| `Narrative.RomMentioned` | src/components/FullNarrativeSummary.tsx:292-305 | The ROM narrative mentions exactly the truthy slots of a motion. |
| `Narrative.RomMentionedOrdered` | src/components/FullNarrativeSummary.tsx:292-305 | The mentions are in the fixed order left active, right active, active, left passive, right passive, passive. |
| `Narrative.RomItems` | src/components/FullNarrativeSummary.tsx:286-306 | One phrase per mentioned slot, in that order, with the motion name humanised. |
| `Narrative.RomNarrativeEmpty` | src/components/FullNarrativeSummary.tsx:273-322 | The ROM section is `''` exactly when no slot of any motion is truthy. |
| `Narrative.RomNarrativeMentions` | src/components/FullNarrativeSummary.tsx:273-322 | Every truthy slot's phrase occurs in the ROM section. |
| `Narrative.NarrativeStrengthValue` | src/components/FullNarrativeSummary.tsx:343-356 | Truthy values format as the table cell does. Every value, falsy ones included, is printed as its own text with more text after it; there is no `'-'` case. |
| `Narrative.StrengthMentioned` | src/components/FullNarrativeSummary.tsx:358-368 | Two truthy sides are listed only when they differ; a lone truthy side is listed; a truthy unilateral value always is, left before right before unilateral. |
| `Narrative.StrengthItems` | src/components/FullNarrativeSummary.tsx:358-368 | One phrase per mentioned side, in that order, with the movement name humanised. |
| `Narrative.StrengthNarrativeEmpty` | src/components/FullNarrativeSummary.tsx:325-384 | The strength section is `''` exactly when every movement is silent; equal bilateral grades say nothing. |
| `Narrative.StrengthNarrativeMentions` | src/components/FullNarrativeSummary.tsx:325-384 | Every listed side's phrase occurs in the strength section. |
| `Narrative.SpecialResults` | src/components/FullNarrativeSummary.tsx:405-407 | Exactly one phrase per truthy slot, in the order left, right, result: the left phrase first when truthy, the right one next, the result's last. None iff all are falsy. |
| `Narrative.SpecialNotesPlacement` | src/components/FullNarrativeSummary.tsx:405-415 | Non-blank notes attach to the result phrase when there is a result, else to the right side's phrase, else to the left side's, else stand alone as `name: notes`. |
| `Narrative.WithNotes` | src/components/FullNarrativeSummary.tsx:409-415 | Non-blank notes go in parentheses after the last result, or stand alone as `name: notes` when there are no results. Blank notes change nothing. |
| `Narrative.SpecialNarrativeEmpty` | src/components/FullNarrativeSummary.tsx:387-431 | The special-test section is `''` exactly when every test has no truthy slot and blank notes. |
| `Narrative.SpecialNotesMentioned` | src/components/FullNarrativeSummary.tsx:409-415 | Non-blank notes always appear in the special-test section. |
| `Narrative.KeyFindings` | src/components/FullNarrativeSummary.tsx:286-310 | One finding per key with at least one phrase, its phrases joined. |
| `Narrative.KeyFindingsOrder` | src/components/FullNarrativeSummary.tsx:285-310 | The key findings follow the keys' order: one joined phrase list per key that has phrases, and nothing else. |
| `Narrative.BodyPartFindings` | src/components/FullNarrativeSummary.tsx:280-316 | One sentence per body part that has findings, none for the others. |
| `Narrative.BodyPartFindingsOrder` | src/components/FullNarrativeSummary.tsx:279-316 | The sentences follow the body parts' order: one per body part with findings, and nothing else. |
| `Narrative.SectionEmpty` | src/components/FullNarrativeSummary.tsx:318-321 | A section is `''` exactly when no key of any body part has a phrase. |
| `Narrative.SectionMentions` | src/components/FullNarrativeSummary.tsx:279-321 | Every phrase of every key occurs in its section. |
| `Narrative.NarrativePatientName` | src/components/FullNarrativeSummary.tsx:31-36 | The same name as the summary's helper; empty iff every part is. |
| `Narrative.FullNarrative` | src/components/FullNarrativeSummary.tsx:434-443 | The narrative starts with intro, timeline and observations, in that order. |
| `Narrative.FullNarrativeWithoutFindings` | src/components/FullNarrativeSummary.tsx:434-443 | The narrative is just intro, timeline and observations iff the ROM, strength and special-test sections are all silent. |
| `Utils.FormatPhoneNumber` | src/lib/utils.ts:22-27 | An empty input is returned as is; fewer than four digits come back bare. |
| `Utils.FormatGroups` | src/lib/utils.ts:28-31 | From four digits: `(ddd) ` then the rest up to six digits, or `ddd-` and at most four more from seven. |
| `Utils.FormatKeepsDigits` | src/lib/utils.ts:22-32 | The output's digits are exactly the first ten digits of the input. |
| `Utils.FormatMatchesPattern` | src/lib/validation.ts:3 | Ten or more digits always produce the shape the form's validation accepts. |
| `Utils.FormatIdempotent` | src/lib/utils.ts:22-32 | Formatting a formatted number changes nothing. |
| `Utils.CalculateAge` | src/lib/utils.ts:1-13 | 0 for an empty date; otherwise the number of birthdays reached: the age-th on or before today, the next after. |
| `Utils.AgeMonotone` | src/lib/utils.ts:1-13 | A later today never gives a smaller age. |
| `Utils.GetAgeRange` | src/lib/utils.ts:15-20 | Always one of the four range names. |
| `Utils.AgeRangeBands` | src/lib/utils.ts:15-20 | child iff < 18, young iff 18..39, middle iff 40..59, elderly iff >= 60. |
| `Utils.AgeRangeMonotone` | src/lib/utils.ts:15-20 | An older age never falls in an earlier range. |
| `Utils.Cn` | src/lib/utils.ts:38-39 | `''` iff every class is empty; splitting on spaces gives back exactly the non-empty classes. |
| `DataAccess.Rename` | src/lib/dataAccess.ts:12-62 | A mapper reads each source column into its target key, in the mapper's order, a missing column reading as absent. |
| `DataAccess.RenameRoundTrip` | src/lib/dataAccess.ts:12-88 | Renaming forth and back returns every mapped column's value. |
| `DataAccess.PatientDbRoundTrip` | src/lib/dataAccess.ts:12-62 | `mapPatientToDb(mapPatientFromDb(r))` reproduces all 23 mapped columns of r. |
| `DataAccess.PatientFrontendRoundTrip` | src/lib/dataAccess.ts:12-62 | `mapPatientFromDb(mapPatientToDb(p))` reproduces all 23 camelCase fields of p. |
| `DataAccess.EvaluationDbRoundTrip` | src/lib/dataAccess.ts:64-88 | `mapEvaluationToDb(mapEvaluationFromDb(r))` reproduces all 10 evaluation columns. |
| `DataAccess.EvaluationFrontendRoundTrip` | src/lib/dataAccess.ts:64-88 | The reverse composition reproduces all 10 evaluation fields. |
| `DataAccess.Status` | src/lib/dataAccess.ts:316 | A falsy status becomes `'draft'`; a truthy one is kept. |
| `DataAccess.ReduceRomLookup` | src/lib/dataAccess.ts:367-383 | A (body part, motion) pair holds the measurement of its last row, and only pairs with a row are present. |
| `DataAccess.ReduceRomKeys` | src/lib/dataAccess.ts:367-383 | Body parts appear in first-seen row order, once each. |
| `DataAccess.ReduceStrengthGet` | src/lib/dataAccess.ts:385-394 | Only the last row of a body part survives. |
| `DataAccess.ReduceSpecialTestsGet` | src/lib/dataAccess.ts:396-408 | A body part lists the results of its rows in row order. |
| `DataAccess.ReduceSpecialTestsTotal` | src/lib/dataAccess.ts:396-408 | The lists together hold exactly one entry per row. |
| `DataAccess.ReduceObservationsGet` | src/lib/dataAccess.ts:361-364 | Observations are keyed by type, and the last row of a type wins. |
| `LocalDb.SearchPatients` | src/lib/db.ts:119-146 | All patients when every criterion is empty. Otherwise only matching stored patients, with distinct ids, and every matching id present. |
| `LocalDb.SearchFacts` | src/lib/db.ts:131-146 | The deduplicated results are matching stored patients with distinct ids, and every match is represented. |
| `LocalDb.CollectFacts` | src/lib/db.ts:135-146 | The `Map` keyed by id keeps one kept patient per id and loses no kept id. |
| `LocalDb.SearchIdempotent` | src/lib/db.ts:119-146 | Searching the results again with the same criteria returns them unchanged. |
| `LocalDb.GetPatientEvaluations` | src/lib/db.ts:155-165 | Exactly the patient's stored evaluations, as a permutation, newest first by date. |
| `LocalDb.SameDateStoredOrder` | src/lib/db.ts:155-165 | Evaluations of the patient with the same date are listed in their stored order, because the sort is stable. |
| `LocalDb.NewestFirst` | src/lib/db.ts:163-165 | The first listed evaluation is dated no earlier than any of the patient's evaluations. |
| `LocalDb.Apply` | src/lib/db.ts:297-307 | `x !== false` gives a boolean that is false only for an explicit `false`; `x \|\| d` keeps truthy values and defaults the rest. |
| `LocalDb.ApplyTwice` | src/lib/db.ts:296-308 | Normalising a normalised flag changes nothing. |
| `LocalDb.Fill` | src/lib/db.ts:215-232 | The saved object has exactly the rule keys, in order, each the rule applied to the given value. |
| `LocalDb.FillIdempotent` | src/lib/db.ts:215-308 | Filling a filled object gives it back. |
| `LocalDb.FillSectionsIdempotent` | src/lib/db.ts:233-262 | Nested defaulting of observation sections is idempotent too. |
| `LocalDb.FillGroupsIdempotent` | src/lib/db.ts:263-294 | Doubly nested defaulting of functional-testing groups is idempotent too. |
| `LocalDb.SavedRecord` | src/lib/db.ts:206-332 | A supplied id is kept, else the new one is used. Date and patient are recorded. Employer and emergency contact are copied, or `null` when missing. Missing wound, device, general-appearance and selected-part lists become `[]`. Absent ROM, special-test and strength sections become `{}`. |
| `LocalDb.SaveFormData` | src/lib/db.ts:174-343 | Fails exactly when a new patient must be created without demographics. Otherwise it saves under the existing or new patient id and returns that id with the evaluation id. |
| `LocalDb.SavedInclusion` | src/lib/db.ts:296-308 | Eight flags are true unless explicitly `false`. Employer, emergency contact and narrative default to false. No other key is stored. |
| `LocalDb.SavedDemographics` | src/lib/db.ts:215-232 | Each demographic string is kept when truthy, else `''`; no other key is stored. The sports list is saved as given, and a missing one becomes `[]`. The model keeps it in its own `sports` field, where the source nests it inside the saved demographics object. |
| `LocalDb.ResaveUnchanged` | src/lib/db.ts:174-343 | Saving a saved evaluation again under its patient stores the same record and creates no patient. |
| `LocalDb.ResaveRecord` | src/lib/db.ts:206-332 | Normalising a saved record again reproduces it, whatever new id is offered. |
| `Errors.Construct` | src/lib/errors.ts:1-27 | Each class sets `name` to its class name and falls back to its fixed default message. |
| `Errors.KindOf` | src/lib/errors.ts:30-51 | A name is recognised exactly when it is one of the four class names. |
| `Errors.ClassNameRoundTrip` | src/lib/errors.ts:1-27 | Class names identify their class. |
| `Errors.GetErrorMessage` | src/lib/errors.ts:29-56 | Total, with a non-empty title. The four known names get their fixed title and advice; any other name gets `An error occurred` and its own message. |
| `Errors.ConstructedMessage` | src/lib/errors.ts:29-56 | An error of a known class shows its class's title and advice whatever message it was built with. |
| `Errors.TranslateStoreError` | src/lib/db.ts:66-69 | An `AbortError` becomes a `TransactionFailedError` with the abort message; anything else passes through. |
| `Errors.AbortShowsTransactionFailed` | src/lib/db.ts:148-151 | An aborted store operation reaches the user as Transaction Failed; other failures keep their message. |
| `Permissions.LevelName` | src/lib/permissionAccess.ts:171 | The level is one of `owner`, `edit`, `view`, `none`. |
| `Permissions.LevelNameInjective` | src/lib/permissionAccess.ts:171 | Distinct levels have distinct names. |
| `Permissions.FirstGrant` | src/lib/permissionAccess.ts:168 | The first grant to the user, or none exactly when no grant names the user. |
| `Permissions.PermissionLevel` | src/lib/permissionAccess.ts:171-185 | Owner iff primary therapist or admin. Otherwise `full` and `edit` grants give edit, `view` gives view, and anything else gives none. |
| `Permissions.Annotate` | src/lib/permissionAccess.ts:166-192 | A patient's permissions are exactly the fetched rows for its id, in order. `is_primary_therapist` holds iff the ids match, and the level follows the rule. |
| `Permissions.GetPatientsWithPermissions` | src/lib/permissionAccess.ts:130-192 | Nothing without a profile or a patient list. Otherwise one record per clinic patient, in input order. |
| `Permissions.GrantsNeverOwn` | src/lib/permissionAccess.ts:173-184 | No grant, not even `full`, lifts a user to owner. |
| `Permissions.OthersGrantsIgnored` | src/lib/permissionAccess.ts:167-168 | A grant to another user or another patient never changes the level. |
| `Permissions.CanManagePatientPermissions` | src/lib/permissionAccess.ts:232-254 | False without a profile or when the lookup fails; true for an admin; otherwise whether the user is the primary therapist. |
| `Permissions.ManageIffOwner` | src/lib/permissionAccess.ts:173-174 | Those who may manage a patient's permissions are exactly those the list shows as owner. |
| `PatientList.FilteredPatients` | src/components/permissions/PatientListWithPermissions.tsx:63-82 | A non-array is treated as empty. The result is an order-preserving subsequence holding exactly the patients that pass the name and level filters. |
| `PatientList.NoFilterKeepsAll` | src/components/permissions/PatientListWithPermissions.tsx:68-79 | With no term and the `all` (or empty) filter, every patient is kept in order. |
| `PatientList.BlankTermIgnored` | src/components/permissions/PatientListWithPermissions.tsx:68 | A whitespace-only term filters exactly like no term. |
| `PatientList.SearchHidesSnakeRows` | src/lib/permissionAccess.ts:187-192 | With the rows spread as fetched (snake_case names), any non-blank term hides every patient. |
| `PatientList.MappedPatients` | src/lib/dataAccess.ts:12-36 | One record per row, built from the row mapped to camelCase fields. |
| `PatientList.MappedNames` | src/lib/dataAccess.ts:12-16 | The mapped `firstName` and `lastName` are the stored `first_name` and `last_name`. |
| `PatientList.SearchFindsMappedRows` | src/components/permissions/PatientListWithPermissions.tsx:69-73 | With mapped rows, a patient whose stored name contains the term is listed whenever the level filter lets it through. |

## Left out

- Rendering: the JSX, the print window, the CSS and `setTimeout` printing are
  not modelled. The cell helpers are modelled as string functions.
- I/O: Supabase queries, IndexedDB transactions, `initDB`, auth and session
  lookups, `console.*` logging, `async`/`Promise.all` plumbing and React state
  are not modelled. Their results are parameters: fetched rows, the profile,
  stored records, and the current evaluation and form data.
- Randomness: `uuidv4` and `generateId` values are parameters of `SaveFormData`.
- Numbers: only integers are modelled (`Num(int)`). Fractional grades and
  degrees, `NaN` and `getAgeAdjustedROM`'s floating-point scaling are out.
- Coercion: `v > 0` on a string is modelled for strings of ASCII decimal
  digits only; any other string reads as `NaN`, so the comparison fails.
- Dates: `date-fns` formatting, `Date` parsing and time zones are left out.
  Dates are ISO strings compared by code unit. This agrees with
  `localeCompare` and `new Date(...)` ordering only for ISO `YYYY-MM-DD`
  dates. `calculateAge` takes integer (year, month, day) triples.
- Strings: case mapping and `trim` cover ASCII letters and the ECMAScript
  whitespace set. There is no other Unicode handling.
- Throwing: the `try`/`catch` blocks that return `[]` or `false` are modelled
  as total functions, with absent data read as falsy. A failed `canManagePatientPermissions`
  lookup is the `None` input.
- Watched values: `safeWatch`'s fallbacks are modelled for the demographics
  (`{}`) and the summary flags (`DefaultInclusion`). The employer, emergency
  contact, observations, functional-testing and timeline fallbacks are not
  modelled; those values are parameters. The `catch` of a throwing `watch`
  is left out with the other throwing paths. Summary.GetEmployerInfo: its
  `e.None?` case, like `getPatientName`'s, is the helper's own branch,
  which the watched `{}` never reaches.
- Narrative inputs: `generateIntroNarrative`, `generateTimelineNarrative` and
  `generateObservationsNarrative` are not modelled. `FullNarrative` takes their
  results as strings.
- `saveFormData` problems and timeline: the `problems` object with its
  symptom lists and the `timeline` items (src/lib/db.ts:310-328) are not
  part of the modelled input or record. Their per-item normalisation is not
  modelled because nothing else in the core reads these fields.
- Catalogues: only the catalogue entries the core reads are modelled, namely
  the `jointROM` maxima and the special-test names. `src/lib/constants` is
  otherwise not part of this model.
- HistoryValues.HistoricalValues: its own contract covers only the current
  date. Every other date is stated by `HistoryValues.OverlayGet` about the
  overlay it returns.
- Utils.FormatPhoneNumber: its own contract covers only the empty and short
  cases. The grouped cases are stated by `Utils.FormatGroups`,
  `Utils.FormatKeepsDigits` and `Utils.FormatMatchesPattern`.
- Narrative.FullNarrative: its own contract states only the order of the
  first three parts. The three findings sections are characterised by
  `Narrative.FullNarrativeWithoutFindings` and the section lemmas.
- Permissions.GetPatientsWithPermissions: a failed patients or permissions
  query, which the source logs and rethrows, is not modelled. A `null`
  permissions result is the `None` input, which means no grants.

## Findings

| source | as written | input that shows it | evidently intended | confidence | as-written member | corrected member |
|---|---|---|---|---|---|---|
| src/lib/permissionAccess.ts:187-192 | `getPatientsWithPermissions` spreads each `patients` row as fetched. Those rows carry `first_name` and `last_name`, the columns the query orders by and the mappers read. The list filter and the rendering read `firstName` and `lastName` (src/components/permissions/PatientListWithPermissions.tsx:69-73). | Any clinic with at least one patient and any search term that is not blank: every patient is hidden. | Map each row with `mapPatientFromDb` before annotating it, so the search compares the stored names. | not executed; the column names are inferred from the query's `last_name` ordering and the row mappers | `PatientList.SearchHidesSnakeRows` | `PatientList.SearchFindsMappedRows` |

=== FILE: candidates.dfy ===
/** The candidate date columns of one findings table: the current
    evaluation's date when it is set, then the date of every history record
    whose section for that table is non-empty, each date once, in insertion
    order (src/components/EvaluationSummary.tsx:453-468, 548-563, 620-635). */
module Candidates {
  import opened Seqs
  import opened Evaluation
  import opened Wrappers

  /** The dates of the records whose `category` section has at least one
      body part, in history order. */
  function SectionDates(history: seq<EvaluationRecord>, category: Category): (r: seq<string>)
    ensures forall d :: d in r <==>
      exists i :: 0 <= i < |history| && SectionSize(history[i], category) > 0 && history[i].evaluationDate == d
  {
    if |history| == 0 then []
    else
      var rest := SectionDates(history[1..], category);
      assert forall d :: d in rest <==>
        exists i :: 1 <= i < |history| && SectionSize(history[i], category) > 0 && history[i].evaluationDate == d by {
        forall d | d in rest
          ensures exists i :: 1 <= i < |history| && SectionSize(history[i], category) > 0 && history[i].evaluationDate == d
        {
          var i :| 0 <= i < |history[1..]| && SectionSize(history[1..][i], category) > 0 && history[1..][i].evaluationDate == d;
          assert history[1..][i] == history[i + 1];
        }
        forall d, i | 1 <= i < |history| && SectionSize(history[i], category) > 0 && history[i].evaluationDate == d
          ensures d in rest
        {
          assert history[1..][i - 1] == history[i];
        }
      }
      (if SectionSize(history[0], category) > 0 then [history[0].evaluationDate] else []) + rest
  }

  /** `Array.from(allDates)` after the dates were added to a `Set`. */
  function CandidateDates(currentDate: Option<string>, history: seq<EvaluationRecord>, category: Category): (r: seq<string>)
    ensures Distinct(r)
    ensures forall d :: d in r <==>
      (IsSet(currentDate) && d == currentDate.value) ||
      exists i :: 0 <= i < |history| && SectionSize(history[i], category) > 0 && history[i].evaluationDate == d
    ensures IsSet(currentDate) ==> |r| > 0 && r[0] == currentDate.value
  {
    var added := (if IsSet(currentDate) then [currentDate.value] else []) + SectionDates(history, category);
    if IsSet(currentDate) then
      FirstSeenHead(added);
      FirstSeen(added)
    else FirstSeen(added)
  }
}

=== FILE: catalogue.dfy ===
/** The two reference catalogues the findings engine consults: the normal
    range-of-motion maxima by joint and motion (src/lib/constants/jointROM.ts)
    and the special tests by body part (src/lib/constants/specialTests.ts). */
module Catalogue {
  import opened Wrappers
  import opened JsObject

  /** `jointROM`: body part -> motion -> maximum in degrees. Every minimum
      in the catalogue is 0 and nothing reads it. */
  const JointRom: Obj<Obj<int>> := [
    ("cervicalSpine", [("flexion", 45), ("extension", 45), ("lateralFlexion", 45), ("rotation", 80)]),
    ("thoracicSpine", [("flexion", 45), ("extension", 25), ("lateralFlexion", 20), ("rotation", 35)]),
    ("lumbarSpine", [("flexion", 60), ("extension", 25), ("lateralFlexion", 25), ("rotation", 30)]),
    ("shoulder", [("flexion", 180), ("extension", 60), ("abduction", 180), ("adduction", 50),
                  ("internalRotation", 70), ("externalRotation", 90)]),
    ("elbow", [("flexion", 150), ("extension", 0), ("pronation", 80), ("supination", 80)]),
    ("wrist", [("flexion", 80), ("extension", 70), ("radialDeviation", 20), ("ulnarDeviation", 30)]),
    ("hip", [("flexion", 120), ("extension", 30), ("abduction", 45), ("adduction", 30),
             ("internalRotation", 45), ("externalRotation", 45)]),
    ("knee", [("flexion", 140), ("extension", 0)]),
    ("ankle", [("dorsalFlexion", 20), ("plantarFlexion", 50), ("inversion", 35), ("eversion", 15)])
  ]

  /** `specialTests`: body part -> test id -> display name. */
  const SpecialTests: Obj<Obj<string>> := [
    ("shoulder", [("neerTest", "Neer Test"), ("hawkinsKennedy", "Hawkins-Kennedy Test"),
                  ("emptyCanTest", "Empty Can Test"), ("dropArmTest", "Drop Arm Test"),
                  ("apprehensionTest", "Apprehension Test")]),
    ("elbow", [("cozensTest", "Cozens Test"), ("millsTest", "Mills Test"),
               ("golferElbowTest", "Golfer's Elbow Test"), ("valgusStressTest", "Valgus Stress Test"),
               ("varusStressTest", "Varus Stress Test")]),
    ("wrist", [("finkelsteinTest", "Finkelstein Test"), ("phalenTest", "Phalen's Test"),
               ("reversePhalenTest", "Reverse Phalen's Test"), ("tinelSign", "Tinel's Sign"),
               ("scaphoidShift", "Scaphoid Shift Test")]),
    ("knee", [("anteriorDrawer", "Anterior Drawer Test"), ("posteriorDrawer", "Posterior Drawer Test"),
              ("valgusStressTest", "Valgus Stress Test"), ("varusStressTest", "Varus Stress Test"),
              ("mcmurraysTest", "McMurray's Test")]),
    ("hip", [("thomasTest", "Thomas Test"), ("obers", "Ober's Test"), ("fabers", "FABER Test"),
             ("scour", "Scour Test")]),
    ("ankle", [("anteriorDrawer", "Anterior Drawer Test"), ("talarTilt", "Talar Tilt Test"),
               ("thompsonTest", "Thompson Test")]),
    ("cervicalSpine", [("spurlings", "Spurling's Test"), ("compressionTest", "Compression Test"),
                       ("distractionTest", "Distraction Test")]),
    ("thoracicSpine", [("segmentalMobility", "Segmental Mobility Test"),
                       ("costovertebalJoint", "Costovertebral Joint Test"),
                       ("seatedRotation", "Seated Rotation Test"), ("kemp", "Kemp's Test")]),
    ("lumbarSpine", [("slr", "Straight Leg Raise"), ("crossedSLR", "Crossed SLR"), ("faber", "FABER Test")])
  ]

  /** `jointROM[bodyPart]?.[motion]?.max`. */
  function NormalMax(bodyPart: string, motion: string): Option<int> {
    match Get(JointRom, bodyPart)
    case None => None
    case Some(motions) => Get(motions, motion)
  }

  /** `specialTests[bodyPart]?.tests[testId]?.name`. */
  function TestName(bodyPart: string, testId: string): Option<string> {
    match Get(SpecialTests, bodyPart)
    case None => None
    case Some(tests) => Get(tests, testId)
  }

  /** A value found under a key is one of the entries. */
  lemma {:induction false} GetIsEntry<V>(m: Obj<V>, k: string, v: V)
    requires Get(m, k) == Some(v)
    ensures (k, v) in m
  {
    if m[0].0 != k {
      GetIsEntry(m[1..], k, v);
    }
  }

  /** Elbow and knee extension are the only motions whose reference maximum
      is 0, the one falsy maximum in the catalogue. */
  lemma ZeroMaxMotions(bodyPart: string, motion: string)
    ensures NormalMax(bodyPart, motion) == Some(0) <==>
            (bodyPart == "elbow" || bodyPart == "knee") && motion == "extension"
  {
    if NormalMax(bodyPart, motion) == Some(0) {
      var motions := Get(JointRom, bodyPart).value;
      GetIsEntry(JointRom, bodyPart, motions);
      GetIsEntry(motions, motion, 0);
      ZeroEntries();
      var i :| 0 <= i < |JointRom| && JointRom[i] == (bodyPart, motions);
      var j :| 0 <= j < |motions| && motions[j] == (motion, 0);
      assert JointRom[i].1[j].1 == 0;
    }
    ExtensionMaxima();
  }

  /** The zero entries of the catalogue, read off the table. */
  lemma ZeroEntries()
    ensures forall i, j :: 0 <= i < |JointRom| && 0 <= j < |JointRom[i].1| && JointRom[i].1[j].1 == 0 ==>
      (JointRom[i].0 == "elbow" || JointRom[i].0 == "knee") && JointRom[i].1[j].0 == "extension"
  {
  }

  lemma ExtensionMaxima()
    ensures NormalMax("elbow", "extension") == Some(0) && NormalMax("knee", "extension") == Some(0)
  {
    assert Get(JointRom, "elbow") == Some(JointRom[4].1);
    assert Get(JointRom, "knee") == Some(JointRom[7].1);
  }
}

=== FILE: cells.dfy ===
/** The cell helpers of the summary tables: the strength colour class and
    value text (src/components/EvaluationSummary.tsx:1472-1501), the
    special-test glyph and its colour (1635-1653) and the range-of-motion
    `A: …° / P: …°` text (1412, 1417). A cell reads one date of a row's
    bucket, `undefined` when the bucket has no value for it. */
module Cells {
  import opened Wrappers
  import opened Values
  import opened JsObject
  import opened Strings

  /** `bucket[date]`. */
  function CellValue(bucket: Obj<Val>, date: string): (v: Val)
    ensures Get(bucket, date).None? ==> v == Absent
    ensures Get(bucket, date).Some? ==> v == Get(bucket, date).value
  {
    GetOr(bucket, date, Absent)
  }

  // ---------------------------------------------------------------------------
  // Strength cells
  // ---------------------------------------------------------------------------

  const EqualClass := "text-gray-800"
  const UnequalClass := "text-red-600"
  const EmptyClass := "text-gray-400"

  /** `getStrengthColorClass(left, right)`, applied to both cells of a date. */
  function StrengthColorClass(left: Val, right: Val): (r: string)
    ensures r == EqualClass <==> Truthy(left) && Truthy(right) && left == right
    ensures r == UnequalClass <==> (Truthy(left) || Truthy(right)) && !(Truthy(left) && Truthy(right) && left == right)
    ensures r == EmptyClass <==> !Truthy(left) && !Truthy(right)
  {
    if Truthy(left) && Truthy(right) && left == right then EqualClass
    else if Truthy(left) || Truthy(right) then UnequalClass
    else EmptyClass
  }

  /** The colour does not depend on which side is which. */
  lemma StrengthColorSymmetric(left: Val, right: Val)
    ensures StrengthColorClass(left, right) == StrengthColorClass(right, left)
  {
  }

  /** The unit text a test type prints after the value; unknown types print
      like manual muscle testing. */
  function UnitSuffix(testType: string): (r: string)
    ensures testType !in {"strain_gauge", "isokinetic", "percent_rm"} ==> r == "/5 (MMT)"
  {
    match testType
    case "manual" => "/5 (MMT)"
    case "strain_gauge" => " lbs (SG)"
    case "isokinetic" => " Nm (ISO)"
    case "percent_rm" => "% (RM)"
    case _ => "/5 (MMT)"
  }

  /** `formatStrengthValue(value, testType)` of the table: `'-'` for a
      falsy value, otherwise the value followed by its unit. */
  function StrengthCellText(v: Val, testType: string): (r: string)
    ensures !Truthy(v) ==> r == "-"
    ensures Truthy(v) ==> StartsWith(r, Display(v)) && r[|Display(v)|..] == UnitSuffix(testType)
  {
    if !Truthy(v) then "-" else Display(v) + UnitSuffix(testType)
  }

  /** A filled cell never reads as empty, and an unknown test type prints
      exactly as manual muscle testing. */
  lemma StrengthCellFacts(v: Val, testType: string)
    ensures StrengthCellText(v, testType) == "-" <==> !Truthy(v)
    ensures testType !in {"strain_gauge", "isokinetic", "percent_rm"} ==>
      StrengthCellText(v, testType) == StrengthCellText(v, "manual")
  {
    if Truthy(v) {
      var r := StrengthCellText(v, testType);
      assert |r| == |Display(v)| + |UnitSuffix(testType)|;
    }
  }

  // ---------------------------------------------------------------------------
  // Special-test cells
  // ---------------------------------------------------------------------------

  /** The glyph of a special-test cell. */
  function Glyph(v: Val): (r: string)
    ensures r == "-" <==> !Truthy(v)
    ensures r == "✓" <==> v == Str("positive")
    ensures r == "✗" <==> v == Str("negative")
    ensures r == "?" <==> Truthy(v) && v != Str("positive") && v != Str("negative")
  {
    if !Truthy(v) then "-"
    else if v == Str("positive") then "✓"
    else if v == Str("negative") then "✗"
    else "?"
  }

  /** The colour of a special-test cell; it does not look at truthiness. */
  function GlyphClass(v: Val): (r: string)
    ensures r == "text-red-600 font-medium" <==> v == Str("positive")
    ensures r == "text-green-600" <==> v == Str("negative")
    ensures r == EmptyClass <==> v != Str("positive") && v != Str("negative")
  {
    if v == Str("positive") then "text-red-600 font-medium"
    else if v == Str("negative") then "text-green-600"
    else EmptyClass
  }

  /** Glyph and colour agree: the red check mark, the green cross, and grey
      for everything else. */
  lemma GlyphAgreesWithClass(v: Val)
    ensures GlyphClass(v) == EmptyClass <==> Glyph(v) == "-" || Glyph(v) == "?"
  {
  }

  // ---------------------------------------------------------------------------
  // Range-of-motion cells
  // ---------------------------------------------------------------------------

  /** One measurement of the ROM cell: the value in degrees, or `'-'`. */
  function Degrees(v: Val): (r: string)
    ensures r == "-" <==> !Truthy(v)
    ensures Truthy(v) ==> StartsWith(r, Display(v)) && r[|r| - 1] == '°'
  {
    if Truthy(v) then
      assert |Display(v)| > 0 by {
        if v.Num? { assert |IntToString(v.n)| > 0; }
      }
      Display(v) + "°"
    else "-"
  }

  /** `A: {active}° / P: {passive}°` for one side of one date: it reads
      `A: - / P: -` exactly when neither measurement is recorded. */
  function RomCellText(active: Obj<Val>, passive: Obj<Val>, date: string): (r: string)
    ensures StartsWith(r, "A: ")
    ensures r == "A: - / P: -" <==> !Truthy(CellValue(active, date)) && !Truthy(CellValue(passive, date))
  {
    var a, p := Degrees(CellValue(active, date)), Degrees(CellValue(passive, date));
    var r := "A: " + a + " / P: " + p;
    assert r[3..3 + |a|] == a;
    assert r[|r| - |p|..] == p;
    r
  }
}

=== FILE: data_access.dfy ===
/** The pure reshaping of the data layer (src/lib/dataAccess.ts): the
    snake_case/camelCase row mappers, and the reducers that turn fetched
    measurement rows into the nested objects the form holds. */
module DataAccess {
  import opened Wrappers
  import opened Values
  import opened JsObject
  import opened Seqs
  import opened Evaluation
  import opened Fold

  // ---------------------------------------------------------------------------
  // Row mappers (src/lib/dataAccess.ts:12-88)
  // ---------------------------------------------------------------------------

  /** A row or a record: field name to value; a missing field reads `Absent`. */
  type Row = Obj<Val>

  /** The mapped patient fields: camelCase name to snake_case column. */
  const PatientColumns: Obj<string> := [
    ("id", "id"), ("firstName", "first_name"), ("lastName", "last_name"),
    ("dateOfBirth", "date_of_birth"), ("gender", "gender"), ("email", "email"),
    ("phone", "phone"), ("address", "address"), ("medicalRecordNumber", "medical_record_number"),
    ("emergencyContactName", "emergency_contact_name"), ("emergencyContactPhone", "emergency_contact_phone"),
    ("employerName", "employer_name"), ("employerAddress", "employer_address"),
    ("employerCity", "employer_city"), ("employerState", "employer_state"),
    ("employerZipCode", "employer_zip_code"), ("employerPhone", "employer_phone"),
    ("notes", "notes"), ("clinicId", "clinic_id"), ("primaryTherapistId", "primary_therapist_id"),
    ("createdBy", "created_by"), ("createdAt", "created_at"), ("updatedAt", "updated_at")
  ]

  /** The mapped evaluation fields: camelCase name to snake_case column. */
  const EvaluationColumns: Obj<string> := [
    ("id", "id"), ("patientId", "patient_id"), ("clinicId", "clinic_id"),
    ("createdBy", "created_by"), ("lastModifiedBy", "last_modified_by"),
    ("evaluationDate", "evaluation_date"), ("status", "status"),
    ("employmentStatus", "employment_status"), ("createdAt", "created_at"), ("updatedAt", "updated_at")
  ]

  /** The same correspondence read the other way round. */
  function Swap(columns: Obj<string>): (r: Obj<string>)
    ensures |r| == |columns|
    ensures forall i :: 0 <= i < |r| ==> r[i].0 == columns[i].1 && r[i].1 == columns[i].0
  {
    seq(|columns|, i requires 0 <= i < |columns| => (columns[i].1, columns[i].0))
  }

  /** An object literal `{ out: row.in, ... }` over a list of fields. */
  function Rename(row: Row, columns: Obj<string>): (r: Row)
    ensures |r| == |columns|
    ensures forall i :: 0 <= i < |r| ==> r[i] == (columns[i].0, GetOr(row, columns[i].1, Absent))
  {
    seq(|columns|, i requires 0 <= i < |columns| => (columns[i].0, GetOr(row, columns[i].1, Absent)))
  }

  function MapPatientFromDb(row: Row): Row {
    Rename(row, PatientColumns)
  }

  function MapPatientToDb(patient: Row): Row {
    Rename(patient, Swap(PatientColumns))
  }

  function MapEvaluationFromDb(row: Row): Row {
    Rename(row, EvaluationColumns)
  }

  function MapEvaluationToDb(evaluation: Row): Row {
    Rename(evaluation, Swap(EvaluationColumns))
  }

  /** No snake_case column is listed twice. */
  predicate DistinctColumns(columns: Obj<string>) {
    forall i, j :: 0 <= i < j < |columns| ==> columns[i].1 != columns[j].1
  }

  lemma SwapDistinct(columns: Obj<string>)
    requires DistinctKeys(columns) && DistinctColumns(columns)
    ensures DistinctKeys(Swap(columns)) && DistinctColumns(Swap(columns))
  {
  }

  /** Renaming there and back gives exactly the listed fields of the
      original, in list order, provided no name is listed twice. */
  lemma RenameRoundTrip(row: Row, columns: Obj<string>)
    requires DistinctKeys(columns)
    ensures var back := Rename(Rename(row, columns), Swap(columns));
      |back| == |columns| &&
      forall i :: 0 <= i < |columns| ==> back[i] == (columns[i].1, GetOr(row, columns[i].1, Absent))
  {
    var there := Rename(row, columns);
    assert DistinctKeys(there) by {
      forall a, b | 0 <= a < b < |there| ensures there[a].0 != there[b].0 {
        assert there[a].0 == columns[a].0 && there[b].0 == columns[b].0;
      }
    }
    forall i | 0 <= i < |columns|
      ensures GetOr(there, columns[i].0, Absent) == GetOr(row, columns[i].1, Absent)
    {
      GetDistinct(there, i);
    }
  }

  lemma PatientColumnsDistinct()
    ensures DistinctKeys(PatientColumns) && DistinctColumns(PatientColumns)
  {
    PatientKeysDistinct();
    PatientSnakeDistinct();
  }

  /** Rows `lo` to `hi - 1` have frontend names unlike every later row's. */
  predicate KeysDistinctFrom(columns: Obj<string>, lo: nat, hi: nat) {
    forall i, j :: lo <= i < hi && i < j < |columns| ==> columns[i].0 != columns[j].0
  }

  /** Rows `lo` to `hi - 1` have column names unlike every later row's. */
  predicate ColumnsDistinctFrom(columns: Obj<string>, lo: nat, hi: nat) {
    forall i, j :: lo <= i < hi && i < j < |columns| ==> columns[i].1 != columns[j].1
  }

  // The literal table is too long to compare all at once; the pairs are
  // checked three rows at a time.

  lemma PatientKeysDistinct()
    ensures DistinctKeys(PatientColumns)
  {
    PatientKeys0();
    PatientKeys1();
    PatientKeys2();
    PatientKeys3();
    PatientKeys4();
    PatientKeys5();
    PatientKeys6();
    PatientKeys7();
    PatientKeys8();
    PatientKeys9();
  }

  lemma PatientSnakeDistinct()
    ensures DistinctColumns(PatientColumns)
  {
    PatientSnake0();
    PatientSnake1();
    PatientSnake2();
    PatientSnake3();
    PatientSnake4();
    PatientSnake5();
    PatientSnake6();
    PatientSnake7();
    PatientSnake8();
    PatientSnake9();
  }

  lemma PatientKeys0() ensures KeysDistinctFrom(PatientColumns, 0, 1) { }
  lemma PatientSnake0() ensures ColumnsDistinctFrom(PatientColumns, 0, 1) { }

  lemma PatientKeys1() ensures KeysDistinctFrom(PatientColumns, 1, 2) { }
  lemma PatientSnake1() ensures ColumnsDistinctFrom(PatientColumns, 1, 2) { }

  lemma PatientKeys2() ensures KeysDistinctFrom(PatientColumns, 2, 3) { }
  lemma PatientSnake2() ensures ColumnsDistinctFrom(PatientColumns, 2, 3) { }

  lemma PatientKeys3() ensures KeysDistinctFrom(PatientColumns, 3, 6) { }
  lemma PatientSnake3() ensures ColumnsDistinctFrom(PatientColumns, 3, 6) { }

  lemma PatientKeys4() ensures KeysDistinctFrom(PatientColumns, 6, 9) { }
  lemma PatientSnake4() ensures ColumnsDistinctFrom(PatientColumns, 6, 9) { }

  lemma PatientKeys5() ensures KeysDistinctFrom(PatientColumns, 9, 12) { }
  lemma PatientSnake5() ensures ColumnsDistinctFrom(PatientColumns, 9, 12) { }

  lemma PatientKeys6() ensures KeysDistinctFrom(PatientColumns, 12, 15) { }
  lemma PatientSnake6() ensures ColumnsDistinctFrom(PatientColumns, 12, 15) { }

  lemma PatientKeys7() ensures KeysDistinctFrom(PatientColumns, 15, 18) { }
  lemma PatientSnake7() ensures ColumnsDistinctFrom(PatientColumns, 15, 18) { }

  lemma PatientKeys8() ensures KeysDistinctFrom(PatientColumns, 18, 21) { }
  lemma PatientSnake8() ensures ColumnsDistinctFrom(PatientColumns, 18, 21) { }

  lemma PatientKeys9() ensures KeysDistinctFrom(PatientColumns, 21, 23) { }
  lemma PatientSnake9() ensures ColumnsDistinctFrom(PatientColumns, 21, 23) { }

  lemma EvaluationColumnsDistinct()
    ensures DistinctKeys(EvaluationColumns) && DistinctColumns(EvaluationColumns)
  {
    EvaluationKeysDistinct();
    EvaluationSnakeDistinct();
  }

  lemma EvaluationKeysDistinct()
    ensures DistinctKeys(EvaluationColumns)
  {
  }

  lemma EvaluationSnakeDistinct()
    ensures DistinctColumns(EvaluationColumns)
  {
  }

  /** `mapPatientToDb(mapPatientFromDb(row))` holds exactly the 23 mapped
      columns, each with the row's own value. */
  lemma PatientDbRoundTrip(row: Row)
    ensures var back := MapPatientToDb(MapPatientFromDb(row));
      |back| == 23 &&
      forall i :: 0 <= i < 23 ==> back[i] == (PatientColumns[i].1, GetOr(row, PatientColumns[i].1, Absent))
  {
    PatientColumnsDistinct();
    RenameRoundTrip(row, PatientColumns);
  }

  /** `mapPatientFromDb(mapPatientToDb(patient))` holds exactly the 23
      camelCase fields, each with the patient's own value. */
  lemma PatientFrontendRoundTrip(patient: Row)
    ensures var back := MapPatientFromDb(MapPatientToDb(patient));
      |back| == 23 &&
      forall i :: 0 <= i < 23 ==> back[i] == (PatientColumns[i].0, GetOr(patient, PatientColumns[i].0, Absent))
  {
    PatientColumnsDistinct();
    var s := Swap(PatientColumns);
    SwapDistinct(PatientColumns);
    RenameRoundTrip(patient, s);
    assert forall i :: 0 <= i < |s| ==> Swap(s)[i] == PatientColumns[i];
    assert Swap(s) == PatientColumns;
  }

  /** `mapEvaluationToDb(mapEvaluationFromDb(row))` holds exactly the 10
      mapped columns, each with the row's own value. */
  lemma EvaluationDbRoundTrip(row: Row)
    ensures var back := MapEvaluationToDb(MapEvaluationFromDb(row));
      |back| == 10 &&
      forall i :: 0 <= i < 10 ==> back[i] == (EvaluationColumns[i].1, GetOr(row, EvaluationColumns[i].1, Absent))
  {
    EvaluationColumnsDistinct();
    RenameRoundTrip(row, EvaluationColumns);
  }

  /** `mapEvaluationFromDb(mapEvaluationToDb(evaluation))` holds exactly the
      10 camelCase fields, each with the evaluation's own value. */
  lemma EvaluationFrontendRoundTrip(evaluation: Row)
    ensures var back := MapEvaluationFromDb(MapEvaluationToDb(evaluation));
      |back| == 10 &&
      forall i :: 0 <= i < 10 ==> back[i] == (EvaluationColumns[i].0, GetOr(evaluation, EvaluationColumns[i].0, Absent))
  {
    EvaluationColumnsDistinct();
    var s := Swap(EvaluationColumns);
    SwapDistinct(EvaluationColumns);
    RenameRoundTrip(evaluation, s);
    assert forall i :: 0 <= i < |s| ==> Swap(s)[i] == EvaluationColumns[i];
    assert Swap(s) == EvaluationColumns;
  }

  /** `mappedEvaluation.status || 'draft'`. */
  function Status(status: Val): (r: Val)
    ensures Truthy(r)
    ensures Truthy(status) ==> r == status
    ensures !Truthy(status) ==> r == Str("draft")
  {
    Or(status, Str("draft"))
  }

  // ---------------------------------------------------------------------------
  // Measurement reducers (src/lib/dataAccess.ts:361-408, 559-607)
  // ---------------------------------------------------------------------------

  /** A fetched `rom_measurements` row, already mapped. */
  datatype RomRow = RomRow(bodyPart: string, motionType: string,
                           activeLeft: Val, activeRight: Val, activeValue: Val,
                           passiveLeft: Val, passiveRight: Val, passiveValue: Val, notes: Val)

  /** `{ active: {...}, passive: {...}, notes }`. */
  datatype RomMeasurement = RomMeasurement(active: Slots, passive: Slots, notes: Val)

  function RomMeasurementOf(r: RomRow): RomMeasurement {
    RomMeasurement(Slots(r.activeLeft, r.activeRight, r.activeValue),
                   Slots(r.passiveLeft, r.passiveRight, r.passiveValue), r.notes)
  }

  /** `if (!acc[bodyPart]) acc[bodyPart] = {}; acc[bodyPart][motionType] = ...`. */
  function RomRoute(inner: Obj<RomMeasurement>, r: RomRow): Obj<RomMeasurement> {
    Put(inner, r.motionType, RomMeasurementOf(r))
  }

  function ReduceRom(rows: seq<RomRow>): Section<RomMeasurement> {
    Group(rows, (r: RomRow) => r.bodyPart, (r: RomRow) => [], RomRoute)
  }

  /** Whether a row is about `bodyPart` and `motion`. */
  function SamePair(bodyPart: string, motion: string): RomRow -> bool {
    (r: RomRow) => r.bodyPart == bodyPart && r.motionType == motion
  }

  /** The reduced ROM data holds, for each body part and motion, the last
      row about that pair: a later row overwrites an earlier one. */
  lemma {:induction false} ReduceRomLookup(rows: seq<RomRow>, bodyPart: string, motion: string)
    ensures Lookup(ReduceRom(rows), bodyPart, motion) ==
      match LastMatch(rows, SamePair(bodyPart, motion))
      case Some(r) => Some(RomMeasurementOf(r))
      case None => None
  {
    if |rows| > 0 {
      var init := rows[..|rows| - 1];
      var last := rows[|rows| - 1];
      ReduceRomLookup(init, bodyPart, motion);
      assert SamePair(bodyPart, motion)(last) <==> last.bodyPart == bodyPart && last.motionType == motion;
    }
  }

  /** The body parts come out in first-seen order, once each. */
  lemma ReduceRomKeys(rows: seq<RomRow>)
    ensures Keys(ReduceRom(rows)) == FirstSeen(KeysOf(rows, (r: RomRow) => r.bodyPart))
  {
    GroupKeys(rows, (r: RomRow) => r.bodyPart, (r: RomRow) => [], RomRoute);
  }

  /** A fetched `strength_measurements` row, already mapped. */
  datatype StrengthRow = StrengthRow(bodyPart: string, leftValue: Val, rightValue: Val, singleValue: Val, notes: Val)

  /** `{ left, right, value, notes }`. */
  datatype StrengthMeasurement = StrengthMeasurement(left: Val, right: Val, value: Val, notes: Val)

  function StrengthMeasurementOf(r: StrengthRow): StrengthMeasurement {
    StrengthMeasurement(r.leftValue, r.rightValue, r.singleValue, r.notes)
  }

  /** `acc[bodyPart] = {...}`: the whole entry of the body part is replaced. */
  function ReduceStrength(rows: seq<StrengthRow>): Obj<StrengthMeasurement> {
    Group(rows, (r: StrengthRow) => r.bodyPart, StrengthMeasurementOf,
          (m: StrengthMeasurement, r: StrengthRow) => StrengthMeasurementOf(r))
  }

  function SameStrengthPart(bodyPart: string): StrengthRow -> bool {
    (r: StrengthRow) => r.bodyPart == bodyPart
  }

  /** Only the last row of each body part survives. */
  lemma {:induction false} ReduceStrengthGet(rows: seq<StrengthRow>, bodyPart: string)
    ensures Get(ReduceStrength(rows), bodyPart) ==
      match LastMatch(rows, SameStrengthPart(bodyPart))
      case Some(r) => Some(StrengthMeasurementOf(r))
      case None => None
  {
    if |rows| > 0 {
      ReduceStrengthGet(rows[..|rows| - 1], bodyPart);
      assert SameStrengthPart(bodyPart)(rows[|rows| - 1]) <==> rows[|rows| - 1].bodyPart == bodyPart;
    }
  }

  /** A fetched `special_test_results` row, already mapped. */
  datatype SpecialTestRow = SpecialTestRow(bodyPart: string, testName: Val, leftResult: Val,
                                           rightResult: Val, singleResult: Val, notes: Val)

  /** `{ name, result: { left, right, value }, notes }`. */
  datatype SpecialTestResult = SpecialTestResult(name: Val, result: Slots, notes: Val)

  function SpecialTestResultOf(r: SpecialTestRow): SpecialTestResult {
    SpecialTestResult(r.testName, Slots(r.leftResult, r.rightResult, r.singleResult), r.notes)
  }

  /** `if (!acc[bodyPart]) acc[bodyPart] = []; acc[bodyPart].push(...)`. */
  function SpecialRoute(list: seq<SpecialTestResult>, r: SpecialTestRow): seq<SpecialTestResult> {
    list + [SpecialTestResultOf(r)]
  }

  function ReduceSpecialTests(rows: seq<SpecialTestRow>): Obj<seq<SpecialTestResult>> {
    Group(rows, (r: SpecialTestRow) => r.bodyPart, (r: SpecialTestRow) => [], SpecialRoute)
  }

  /** The rows of one body part, in row order. */
  function RowsOf(rows: seq<SpecialTestRow>, bodyPart: string): (r: seq<SpecialTestRow>)
    ensures forall x :: x in r <==> x in rows && x.bodyPart == bodyPart
  {
    Filter(rows, (x: SpecialTestRow) => x.bodyPart == bodyPart)
  }

  function ResultsOf(rows: seq<SpecialTestRow>): (r: seq<SpecialTestResult>)
    ensures |r| == |rows|
  {
    seq(|rows|, i requires 0 <= i < |rows| => SpecialTestResultOf(rows[i]))
  }

  lemma ResultsOfAppend(rows: seq<SpecialTestRow>, last: SpecialTestRow)
    ensures ResultsOf(rows + [last]) == ResultsOf(rows) + [SpecialTestResultOf(last)]
  {
    var a := ResultsOf(rows + [last]);
    var b := ResultsOf(rows) + [SpecialTestResultOf(last)];
    forall i | 0 <= i < |a| ensures a[i] == b[i] {
      if i < |rows| { assert (rows + [last])[i] == rows[i]; }
    }
  }

  lemma FilterLast(rows: seq<SpecialTestRow>, bodyPart: string)
    requires |rows| > 0
    ensures var init := rows[..|rows| - 1];
      var last := rows[|rows| - 1];
      RowsOf(rows, bodyPart) == RowsOf(init, bodyPart) + (if last.bodyPart == bodyPart then [last] else [])
  {
    var keep := (x: SpecialTestRow) => x.bodyPart == bodyPart;
    FilterConcat(rows[..|rows| - 1], [rows[|rows| - 1]], keep);
    assert rows[..|rows| - 1] + [rows[|rows| - 1]] == rows;
  }

  /** Each body part holds its rows' results in row order; a body part no
      row names has no entry. */
  lemma {:induction false} ReduceSpecialTestsGet(rows: seq<SpecialTestRow>, bodyPart: string)
    ensures Get(ReduceSpecialTests(rows), bodyPart) ==
      if RowsOf(rows, bodyPart) == [] then None else Some(ResultsOf(RowsOf(rows, bodyPart)))
  {
    if |rows| > 0 {
      var init := rows[..|rows| - 1];
      var last := rows[|rows| - 1];
      ReduceSpecialTestsGet(init, bodyPart);
      FilterLast(rows, bodyPart);
      var acc := ReduceSpecialTests(init);
      var list := match Get(acc, last.bodyPart) case Some(l) => l case None => [];
      assert ReduceSpecialTests(rows) == Put(acc, last.bodyPart, list + [SpecialTestResultOf(last)]);
      if last.bodyPart == bodyPart {
        var before := RowsOf(init, bodyPart);
        assert list == ResultsOf(before);
        ResultsOfAppend(before, last);
        assert RowsOf(rows, bodyPart) == before + [last];
      } else {
        assert RowsOf(init, bodyPart) + [] == RowsOf(init, bodyPart);
      }
    }
  }

  /** The number of results over all body parts. */
  function Total(m: Obj<seq<SpecialTestResult>>): nat {
    if |m| == 0 then 0 else |m[0].1| + Total(m[1..])
  }

  lemma {:induction false} PutTotal(m: Obj<seq<SpecialTestResult>>, k: string, v: seq<SpecialTestResult>)
    ensures Total(Put(m, k, v)) + |Get(m, k).GetOr([])| == Total(m) + |v|
  {
    if |m| > 0 && m[0].0 != k {
      PutTotal(m[1..], k, v);
    }
  }

  /** No row is lost or duplicated: the results number the rows. */
  lemma {:induction false} ReduceSpecialTestsTotal(rows: seq<SpecialTestRow>)
    ensures Total(ReduceSpecialTests(rows)) == |rows|
  {
    if |rows| > 0 {
      var init := rows[..|rows| - 1];
      var last := rows[|rows| - 1];
      var acc := ReduceSpecialTests(init);
      ReduceSpecialTestsTotal(init);
      var list := Get(acc, last.bodyPart).GetOr([]);
      PutTotal(acc, last.bodyPart, list + [SpecialTestResultOf(last)]);
    }
  }

  /** A fetched observation row, already mapped. */
  datatype ObservationRow = ObservationRow(observationType: string, assessment: Val)

  /** `acc[observationType] = assessment`. */
  function ReduceObservations(rows: seq<ObservationRow>): Obj<Val> {
    Group(rows, (r: ObservationRow) => r.observationType, (r: ObservationRow) => r.assessment,
          (v: Val, r: ObservationRow) => r.assessment)
  }

  function SameType(observationType: string): ObservationRow -> bool {
    (r: ObservationRow) => r.observationType == observationType
  }

  /** The last row of each observation type wins. */
  lemma {:induction false} ReduceObservationsGet(rows: seq<ObservationRow>, observationType: string)
    ensures Get(ReduceObservations(rows), observationType) ==
      match LastMatch(rows, SameType(observationType))
      case Some(r) => Some(r.assessment)
      case None => None
  {
    if |rows| > 0 {
      ReduceObservationsGet(rows[..|rows| - 1], observationType);
      assert SameType(observationType)(rows[|rows| - 1]) <==> rows[|rows| - 1].observationType == observationType;
    }
  }
}

=== FILE: date_columns.dfy ===
/** Choosing at most a fixed number of evaluation dates to show as columns
    of the summary tables (src/components/EvaluationSummary.tsx:420-448). */
module DateColumns {
  import opened Ordering
  import opened Seqs

  /** The column budget the summary tables use. */
  const MaxColumns := 5

  /** `x` is the earliest date of `s`. */
  predicate IsLeast(x: string, s: seq<string>) {
    x in s && forall y :: y in s ==> LexLe(x, y)
  }

  /** `x` is the latest date of `s`. */
  predicate IsGreatest(x: string, s: seq<string>) {
    x in s && forall y :: y in s ==> LexLe(y, x)
  }

  /** `k * step`, spelled out so that the solver reasons about it by unfolding. */
  function Mul(k: nat, step: nat): nat {
    if k == 0 then 0 else Mul(k - 1, step) + step
  }

  lemma {:induction false} MulIsProduct(k: nat, step: nat)
    ensures Mul(k, step) == k * step
  {
    if k > 0 {
      MulIsProduct(k - 1, step);
    }
  }

  lemma {:induction false} MulLess(a: nat, b: nat, step: nat)
    requires a < b && step >= 1
    ensures Mul(a, step) < Mul(b, step)
  {
    if a < b - 1 {
      MulLess(a, b - 1, step);
    }
  }

  /** `Math.max(1, Math.floor((n - 2) / remaining))`: the stride between
      interior columns, small enough that `remaining` strides stay before the
      last date. */
  function Step(n: int, remaining: nat): (step: nat)
    requires n >= remaining + 2 && remaining > 0
    ensures step >= 1
    ensures Mul(remaining, step) <= n - 2
  {
    var q := (n - 2) / remaining;
    MulIsProduct(remaining, q);
    MulIsProduct(remaining, 1);
    if q >= 1 then q else 1
  }

  /** The sampling loop `for (i = step; i < n - 1; i += step)`, which pushes
      `sorted[i]` while fewer than `cap` dates have been chosen. The chosen
      dates are `sorted[i]`, `sorted[i + step]`, ..., all before the last one. */
  function Sample(sorted: seq<string>, i: nat, step: nat, cap: nat, acc: seq<string>): (r: seq<string>)
    requires step >= 1
    ensures |acc| <= |r| && r[..|acc|] == acc
    ensures |acc| >= cap ==> r == acc
    ensures |acc| <= cap ==> |r| <= cap
    decreases |sorted| - i
  {
    if i >= |sorted| - 1 then acc
    else
      var acc' := if |acc| < cap then acc + [sorted[i]] else acc;
      var r := Sample(sorted, i + step, step, cap, acc');
      assert r[..|acc|] == r[..|acc'|][..|acc|];
      r
  }

  /** The dates sampling adds are `sorted[i]`, `sorted[i + step]`, ...,
      all before the last date. */
  lemma {:induction false} SampleAt(sorted: seq<string>, i: nat, step: nat, cap: nat, acc: seq<string>)
    requires step >= 1
    ensures forall k :: 0 <= k < |Sample(sorted, i, step, cap, acc)| - |acc| ==>
              i + Mul(k, step) < |sorted| - 1 && Sample(sorted, i, step, cap, acc)[|acc| + k] == sorted[i + Mul(k, step)]
    decreases |sorted| - i
  {
    if i < |sorted| - 1 && |acc| < cap {
      var acc' := acc + [sorted[i]];
      var r := Sample(sorted, i, step, cap, acc);
      assert r == Sample(sorted, i + step, step, cap, acc');
      SampleAt(sorted, i + step, step, cap, acc');
      forall k | 0 <= k < |r| - |acc|
        ensures i + Mul(k, step) < |sorted| - 1 && r[|acc| + k] == sorted[i + Mul(k, step)]
      {
        if k > 0 {
          assert Mul(k, step) == step + Mul(k - 1, step);
          assert r[|acc'| + (k - 1)] == sorted[i + step + Mul(k - 1, step)];
        } else {
          assert r[..|acc'|] == acc';
          assert r[|acc|] == r[..|acc'|][|acc|];
        }
      }
    }
  }

  /** Sampling fills up to the cap when the last date it would add still
      falls before the last date. */
  lemma {:induction false} SampleFull(sorted: seq<string>, i: nat, step: nat, cap: nat, acc: seq<string>)
    requires step >= 1
    requires |acc| < cap && i + Mul(cap - |acc| - 1, step) < |sorted| - 1
    ensures |Sample(sorted, i, step, cap, acc)| == cap
    decreases |sorted| - i
  {
    var acc' := acc + [sorted[i]];
    assert Sample(sorted, i, step, cap, acc) == Sample(sorted, i + step, step, cap, acc');
    if |acc'| < cap {
      assert Mul(cap - |acc| - 1, step) == Mul(cap - |acc'| - 1, step) + step;
      SampleFull(sorted, i + step, step, cap, acc');
    }
  }

  /** `getSmartDateColumns(allDates, maxColumns)`: a short list comes back
      as it is (unsorted); a long one is sorted and thinned. */
  function SmartDateColumns(allDates: seq<string>, maxColumns: nat): (r: seq<string>)
    ensures |allDates| <= maxColumns ==> r == allDates
    ensures forall x :: x in r ==> x in allDates
    ensures |allDates| > 0 ==> |r| > 0
  {
    if |allDates| <= maxColumns then allDates
    else
      var sorted := SortBy(allDates, Self, false);
      SameMembers(allDates, sorted);
      Thin(sorted, maxColumns)
  }

  /** The first date, evenly strided interior dates while fewer than
      `maxColumns - 1` are chosen, and the last date unless it is already
      the last one chosen. */
  function Thin(sorted: seq<string>, maxColumns: nat): (r: seq<string>)
    requires |sorted| > maxColumns
    ensures forall x :: x in r ==> x in sorted
    ensures |r| > 0
  {
    var n := |sorted|;
    var remaining := maxColumns - 2;
    var sampled :=
      if remaining > 0 then
        var step := Step(n, remaining);
        SampleMembers(sorted, step, step, maxColumns - 1, [sorted[0]]);
        Sample(sorted, step, step, maxColumns - 1, [sorted[0]])
      else [sorted[0]];
    if sampled[|sampled| - 1] != sorted[n - 1] then sampled + [sorted[n - 1]] else sampled
  }

  lemma SameMembers(s: seq<string>, t: seq<string>)
    requires multiset(s) == multiset(t)
    ensures forall x :: x in t ==> x in s
  {
    forall x | x in t ensures x in s {
      assert x in multiset(t);
    }
  }

  lemma SampleMembers(sorted: seq<string>, i: nat, step: nat, cap: nat, acc: seq<string>)
    requires step >= 1
    ensures forall x :: x in Sample(sorted, i, step, cap, acc) ==> x in acc || x in sorted
  {
    var r := Sample(sorted, i, step, cap, acc);
    SampleAt(sorted, i, step, cap, acc);
    forall x | x in r ensures x in acc || x in sorted {
      var j :| 0 <= j < |r| && r[j] == x;
      if j < |acc| {
        assert r[..|acc|][j] == x;
      } else {
        var k := j - |acc|;
        assert r[|acc| + k] == sorted[i + Mul(k, step)];
      }
    }
  }

  /** The ends of a sorted copy are the earliest and the latest date. */
  lemma SortedEnds(s: seq<string>)
    requires |s| > 0
    ensures var t := SortBy(s, Self, false);
      IsLeast(t[0], s) && IsGreatest(t[|t| - 1], s)
  {
    var t := SortBy(s, Self, false);
    SortedBounds(s, t);
  }

  lemma SortedBounds(s: seq<string>, t: seq<string>)
    requires SortedBy(t, Self, false) && multiset(t) == multiset(s) && |t| > 0
    ensures IsLeast(t[0], s) && IsGreatest(t[|t| - 1], s)
  {
    assert t[0] in multiset(t) && t[|t| - 1] in multiset(t);
    forall y | y in s ensures LexLe(t[0], y) && LexLe(y, t[|t| - 1]) {
      SortedMember(s, t, y);
    }
  }

  lemma SortedMember(s: seq<string>, t: seq<string>, y: string)
    requires SortedBy(t, Self, false) && multiset(t) == multiset(s)
    requires y in s
    ensures LexLe(t[0], y) && LexLe(y, t[|t| - 1])
  {
    assert y in multiset(t);
    var k :| 0 <= k < |t| && t[k] == y;
    SortedPair(t, 0, k);
    SortedPair(t, k, |t| - 1);
  }

  lemma SortedPair(t: seq<string>, i: nat, j: nat)
    requires SortedBy(t, Self, false)
    requires i <= j < |t|
    ensures LexLe(t[i], t[j])
  {
    if i < j {
      assert !Precedes(Self(t[j]), Self(t[i]), false);
      LexLessTotal(t[i], t[j]);
    }
  }

  /** The sorted copy of distinct dates is strictly ascending. */
  lemma SortedStrict(s: seq<string>)
    requires Distinct(s)
    ensures StrictlySortedBy(SortBy(s, Self, false), Self, false)
  {
    var t := SortBy(s, Self, false);
    PermutationKeepsDistinct(s, t);
    SortedDistinctIsStrict(t, Self, false);
  }

  /** With more distinct dates than columns (and room for at least the two
      ends), exactly `maxColumns` dates are chosen, in ascending order, from
      the earliest to the latest. */
  lemma SmartDateColumnsSpread(allDates: seq<string>, maxColumns: nat)
    requires Distinct(allDates)
    requires 2 <= maxColumns < |allDates|
    ensures var r := SmartDateColumns(allDates, maxColumns);
      |r| == maxColumns && StrictlySortedBy(r, Self, false) &&
      IsLeast(r[0], allDates) && IsGreatest(r[|r| - 1], allDates)
  {
    var sorted := SortBy(allDates, Self, false);
    var r := SmartDateColumns(allDates, maxColumns);
    SmartIsThin(allDates, maxColumns, sorted);
    SortedFacts(allDates, sorted);
    ThinSpread(sorted, maxColumns, r);
  }

  /** The sorted copy of distinct dates: strictly ascending, distinct, from
      the earliest to the latest. */
  lemma SortedFacts(s: seq<string>, t: seq<string>)
    requires Distinct(s) && |s| > 0 && t == SortBy(s, Self, false)
    ensures |t| == |s| && StrictlySortedBy(t, Self, false) && Distinct(t)
    ensures IsLeast(t[0], s) && IsGreatest(t[|t| - 1], s)
  {
    SortedBounds(s, t);
    SortedStrict(s);
    PermutationKeepsDistinct(s, t);
  }

  lemma SmartIsThin(allDates: seq<string>, maxColumns: nat, sorted: seq<string>)
    requires maxColumns < |allDates| && sorted == SortBy(allDates, Self, false)
    ensures |sorted| == |allDates|
    ensures SmartDateColumns(allDates, maxColumns) == Thin(sorted, maxColumns)
  {
  }

  /** Thinning a strictly ascending list keeps it strictly ascending, keeps
      both ends and yields exactly `maxColumns` dates. */
  lemma ThinSpread(sorted: seq<string>, m: nat, r: seq<string>)
    requires StrictlySortedBy(sorted, Self, false) && Distinct(sorted)
    requires 2 <= m < |sorted| && r == Thin(sorted, m)
    ensures |r| == m && StrictlySortedBy(r, Self, false)
    ensures r[0] == sorted[0] && r[m - 1] == sorted[|sorted| - 1]
  {
    var n := |sorted|;
    if m == 2 {
      assert r == [sorted[0], sorted[n - 1]];
    } else {
      var step := Step(n, m - 2);
      assert sorted[Mul(m - 2, step)] != sorted[n - 1];
      ThinShape(sorted, m, step, r);
      forall a, b | 0 <= a < b < |r| ensures Precedes(Self(r[a]), Self(r[b]), false) {
        if b < m - 1 {
          MulLess(a, b, step);
        }
      }
    }
  }

  /** The chosen columns are `sorted[j * step]` for `j < maxColumns - 1`,
      then the last date (the last sampled date, `sorted[(m - 2) * step]`,
      differing from it). */
  lemma ThinShape(sorted: seq<string>, m: nat, step: nat, r: seq<string>)
    requires 3 <= m < |sorted| && step == Step(|sorted|, m - 2) && r == Thin(sorted, m)
    requires sorted[Mul(m - 2, step)] != sorted[|sorted| - 1]
    ensures |r| == m && r[m - 1] == sorted[|sorted| - 1]
    ensures forall j :: 0 <= j < m - 1 ==> Mul(j, step) <= |sorted| - 2 && r[j] == sorted[Mul(j, step)]
  {
    var n := |sorted|;
    var sampled := Sample(sorted, step, step, m - 1, [sorted[0]]);
    SampleShape(sorted, m, step, sampled);
    ThinOf(sorted, m, step, sampled);
    assert r == sampled + [sorted[n - 1]];
    forall j | 0 <= j < m - 1 ensures Mul(j, step) <= n - 2 && r[j] == sorted[Mul(j, step)] {
      assert r[j] == sampled[j];
    }
  }

  /** Thinning with room for interior columns: the samples, then the last
      date unless it is the last one sampled. */
  lemma ThinOf(sorted: seq<string>, m: nat, step: nat, sampled: seq<string>)
    requires 3 <= m < |sorted| && step == Step(|sorted|, m - 2)
    requires sampled == Sample(sorted, step, step, m - 1, [sorted[0]])
    ensures |sampled| > 0
    ensures Thin(sorted, m) ==
      if sampled[|sampled| - 1] != sorted[|sorted| - 1] then sampled + [sorted[|sorted| - 1]] else sampled
  {
  }

  /** Sampling with the stride for `m` columns picks `m - 1` dates,
      `sorted[j * step]`, all before the last one. */
  lemma SampleShape(sorted: seq<string>, m: nat, step: nat, sampled: seq<string>)
    requires 3 <= m < |sorted| && step == Step(|sorted|, m - 2)
    requires sampled == Sample(sorted, step, step, m - 1, [sorted[0]])
    ensures |sampled| == m - 1
    ensures forall j :: 0 <= j < m - 1 ==> Mul(j, step) <= |sorted| - 2 && sampled[j] == sorted[Mul(j, step)]
  {
    SampleCount(sorted, m, step, sampled);
    forall j | 0 <= j < m - 1
      ensures Mul(j, step) <= |sorted| - 2 && sampled[j] == sorted[Mul(j, step)]
    {
      SampleEntry(sorted, m, step, sampled, j);
    }
  }

  lemma SampleCount(sorted: seq<string>, m: nat, step: nat, sampled: seq<string>)
    requires 3 <= m < |sorted| && step == Step(|sorted|, m - 2)
    requires sampled == Sample(sorted, step, step, m - 1, [sorted[0]])
    ensures |sampled| == m - 1
  {
    assert Mul(m - 2, step) == step + Mul(m - 3, step);
    SampleFull(sorted, step, step, m - 1, [sorted[0]]);
  }

  lemma SampleEntry(sorted: seq<string>, m: nat, step: nat, sampled: seq<string>, j: nat)
    requires 3 <= m < |sorted| && step == Step(|sorted|, m - 2)
    requires sampled == Sample(sorted, step, step, m - 1, [sorted[0]])
    requires j < |sampled|
    ensures Mul(j, step) <= |sorted| - 2 && sampled[j] == sorted[Mul(j, step)]
  {
    if j == 0 {
      assert sampled[0] == sampled[..1][0];
    } else {
      SampleAt(sorted, step, step, m - 1, [sorted[0]]);
      assert Mul(j, step) == step + Mul(j - 1, step);
      assert sampled[1 + (j - 1)] == sorted[step + Mul(j - 1, step)];
    }
  }

  /** With no room for interior columns, the earliest and the latest of
      two or more distinct dates are chosen. */
  lemma SmartDateColumnsEnds(allDates: seq<string>, maxColumns: nat)
    requires Distinct(allDates)
    requires maxColumns < 2 <= |allDates|
    ensures var r := SmartDateColumns(allDates, maxColumns);
      |r| == 2 && IsLeast(r[0], allDates) && IsGreatest(r[1], allDates)
  {
    var sorted := SortBy(allDates, Self, false);
    SortedEnds(allDates);
    PermutationKeepsDistinct(allDates, sorted);
    assert sorted[0] != sorted[|sorted| - 1];
    assert Thin(sorted, maxColumns) == [sorted[0], sorted[|sorted| - 1]];
  }
}

=== FILE: errors.dfy ===
/** The application's error classes and the user-facing message each one
    maps to (src/lib/errors.ts), with the translation the local store
    applies to an aborted transaction (src/lib/db.ts). */
module Errors {
  import opened Wrappers

  /** The four error classes the application throws. */
  datatype ErrorKind = PatientNotFound | DuplicatePatient | SaveFailed | TransactionFailed

  /** The `name` each class sets: its own class name. */
  function ClassName(kind: ErrorKind): string {
    match kind
    case PatientNotFound => "PatientNotFoundError"
    case DuplicatePatient => "DuplicatePatientError"
    case SaveFailed => "SaveFailedError"
    case TransactionFailed => "TransactionFailedError"
  }

  /** The message a class uses when constructed without one. */
  function DefaultMessage(kind: ErrorKind): string {
    match kind
    case PatientNotFound => "Patient not found"
    case DuplicatePatient => "Patient already exists"
    case SaveFailed => "Failed to save data"
    case TransactionFailed => "Database transaction failed"
  }

  /** An `Error`: its `name` and its `message`. */
  datatype AppError = AppError(name: string, message: string)

  /** `new XError(message?)`: the message given, or the class's default. */
  function Construct(kind: ErrorKind, message: Option<string>): (e: AppError)
    ensures e.name == ClassName(kind)
    ensures e.message == if message.Some? then message.value else DefaultMessage(kind)
    ensures e.message != "" || message == Some("")
  {
    AppError(ClassName(kind), message.GetOr(DefaultMessage(kind)))
  }

  /** The error kind whose class carries this name, if any. */
  function KindOf(name: string): (r: Option<ErrorKind>)
    ensures r.Some? ==> ClassName(r.value) == name
    ensures r.None? ==> forall kind :: ClassName(kind) != name
  {
    if name == "PatientNotFoundError" then Some(PatientNotFound)
    else if name == "DuplicatePatientError" then Some(DuplicatePatient)
    else if name == "SaveFailedError" then Some(SaveFailed)
    else if name == "TransactionFailedError" then Some(TransactionFailed)
    else None
  }

  /** Class names identify their class. */
  lemma ClassNameRoundTrip(kind: ErrorKind)
    ensures KindOf(ClassName(kind)) == Some(kind)
  {
  }

  /** What `getErrorMessage` returns: a title and the details under it. */
  datatype UserMessage = UserMessage(message: string, details: string)

  /** The title shown for each class. */
  function Title(kind: ErrorKind): string {
    match kind
    case PatientNotFound => "Patient Not Found"
    case DuplicatePatient => "Patient Already Exists"
    case SaveFailed => "Save Failed"
    case TransactionFailed => "Transaction Failed"
  }

  /** The advice shown under each title. */
  function Advice(kind: ErrorKind): string {
    match kind
    case PatientNotFound => "Please verify the patient information and try again."
    case DuplicatePatient => "A patient with this information already exists. Please search for the existing patient."
    case SaveFailed => "There was an error saving the data. Please try again."
    case TransactionFailed => "The database operation failed. Please try again."
  }

  /** `getErrorMessage(error)`: a fixed title and advice for the four known
      names, whatever the error's message; for any other name a generic
      title with the error's own message as details. It is total and its
      title is never empty. */
  function GetErrorMessage(error: AppError): (r: UserMessage)
    ensures r.message != ""
    ensures forall kind :: error.name == ClassName(kind) ==> r == UserMessage(Title(kind), Advice(kind))
    ensures (forall kind :: error.name != ClassName(kind)) ==> r == UserMessage("An error occurred", error.message)
  {
    match KindOf(error.name)
    case Some(kind) =>
      ClassNameInjective(kind);
      TitleNonEmpty(kind);
      UserMessage(Title(kind), Advice(kind))
    case None =>
      UserMessage("An error occurred", error.message)
  }

  lemma TitleNonEmpty(kind: ErrorKind)
    ensures |Title(kind)| > 0
  {
  }

  lemma ClassNameInjective(kind: ErrorKind)
    ensures forall other :: ClassName(other) == ClassName(kind) ==> other == kind
  {
  }

  /** An error of one of the four classes shows its class's title and advice
      whatever message it was built with. */
  lemma ConstructedMessage(kind: ErrorKind, message: Option<string>)
    ensures GetErrorMessage(Construct(kind, message)) == UserMessage(Title(kind), Advice(kind))
  {
  }

  /** The catch blocks of `clearDatabase` and `searchPatients`
      (src/lib/db.ts:66-69 and 148-151): an aborted IndexedDB transaction is
      rethrown as a `TransactionFailedError`; anything else is rethrown
      unchanged. Other catch blocks of the store differ and are not this. */
  function TranslateStoreError(error: AppError): (r: AppError)
    ensures error.name == "AbortError" ==> r == Construct(TransactionFailed, Some("Database operation was aborted"))
    ensures error.name != "AbortError" ==> r == error
  {
    if error.name == "AbortError" then AppError("TransactionFailedError", "Database operation was aborted")
    else error
  }

  /** So an aborted store operation reaches the user as "Transaction Failed",
      and any other failure keeps what it would have shown. */
  lemma AbortShowsTransactionFailed(error: AppError)
    ensures error.name == "AbortError" ==>
      GetErrorMessage(TranslateStoreError(error)) == UserMessage(Title(TransactionFailed), Advice(TransactionFailed))
    ensures error.name != "AbortError" ==> GetErrorMessage(TranslateStoreError(error)) == GetErrorMessage(error)
  {
  }
}

=== FILE: evaluation.dfy ===
/** The evaluation data the findings engine reads: the three measured
    sections of an evaluation, keyed by body part and then by motion, test
    id or movement (src/components/EvaluationSummary.tsx:22-28). A missing
    or `null` nested object behaves exactly like an empty one everywhere in
    the engine, and a missing slot like `undefined`, so both are represented
    by the empty object and `Absent`. */
module Evaluation {
  import opened Wrappers
  import opened Values
  import opened JsObject

  /** The `left`, `right` and unilateral `value` measurements of one phase. */
  datatype Slots = Slots(left: Val, right: Val, value: Val)

  /** `rangeOfMotion[bodyPart][motion]`: active and passive measurements. */
  datatype RomEntry = RomEntry(active: Slots, passive: Slots)

  /** `specialTests[bodyPart][testId]`: results per side, the unilateral
      `result`, and free-text notes (`''` when absent). */
  datatype SpecialTestEntry = SpecialTestEntry(left: Val, right: Val, result: Val, notes: string)

  /** `strengthTesting[bodyPart][movement]`: grades per side, the
      unilateral `value`, notes and the test type (`''` when absent). */
  datatype StrengthEntry = StrengthEntry(left: Val, right: Val, value: Val, notes: string, testType: string)

  /** A measured section: body part -> key -> entry. */
  type Section<E> = Obj<Obj<E>>

  /** One evaluation as the summary holds it, sections already normalised. */
  datatype EvaluationRecord = EvaluationRecord(
    id: string,
    evaluationDate: string,
    rangeOfMotion: Section<RomEntry>,
    specialTests: Section<SpecialTestEntry>,
    strengthTesting: Section<StrengthEntry>)

  /** The three measured sections. */
  datatype Category = RomCategory | SpecialTestCategory | StrengthCategory

  /** `Object.keys(record[section]).length`. */
  function SectionSize(r: EvaluationRecord, c: Category): nat {
    match c
    case RomCategory => |r.rangeOfMotion|
    case SpecialTestCategory => |r.specialTests|
    case StrengthCategory => |r.strengthTesting|
  }

  /** `section?.[bodyPart]?.[key]`. */
  function Lookup<E>(section: Section<E>, bodyPart: string, key: string): Option<E> {
    match Get(section, bodyPart)
    case None => None
    case Some(entries) => Get(entries, key)
  }

  /** The sort key of a record. */
  function DateOf(r: EvaluationRecord): string {
    r.evaluationDate
  }

  /** A date that is set: JavaScript truthiness of an optional string. */
  predicate IsSet(d: Option<string>) {
    d.Some? && d.value != ""
  }
}

=== FILE: extract.dfy ===
/** The three findings extractors of the evaluation summary: range of motion
    (src/components/EvaluationSummary.tsx:450-543), special tests (545-615)
    and strength (617-688). Each walks the current evaluation's section,
    keeps the slots that pass the table's significance filter and gives each
    kept slot its per-date history and the table's date columns. */
module Extract {
  import opened Wrappers
  import opened Values
  import opened JsObject
  import Strings
  import opened Seqs
  import opened Ordering
  import opened Evaluation
  import opened Catalogue
  import opened HistoryValues
  import opened Candidates
  import opened DateColumns
  import opened Walk

  /** What every finding of one table shares: the current evaluation's date
      (`formData?.evaluationDate`), the merged history and the date columns. */
  datatype Context = Context(currentDate: Option<string>, history: seq<EvaluationRecord>, dates: seq<string>)

  /** The context of the table for `category`. */
  function ContextFor(currentDate: Option<string>, history: seq<EvaluationRecord>, category: Category): (c: Context)
    ensures c.currentDate == currentDate && c.history == history
    ensures forall d :: d in c.dates ==> d in CandidateDates(currentDate, history, category)
  {
    Context(currentDate, history, SmartDateColumns(CandidateDates(currentDate, history, category), MaxColumns))
  }

  /** `value && value > 0`: the filter for measured (numeric) slots. */
  predicate Significant(v: Val) {
    Truthy(v) && GreaterThanZero(v)
  }

  // ---------------------------------------------------------------------------
  // Range of motion
  // ---------------------------------------------------------------------------

  /** The six measurement slots of a motion, in the order they are checked. */
  datatype RomSlot = LeftActive | RightActive | Active | LeftPassive | RightPassive | Passive

  const RomSlots: seq<RomSlot> := [LeftActive, RightActive, Active, LeftPassive, RightPassive, Passive]

  /** The `side` a slot's finding carries. */
  function RomSide(s: RomSlot): string {
    match s
    case LeftActive => "left active"
    case RightActive => "right active"
    case Active => "active"
    case LeftPassive => "left passive"
    case RightPassive => "right passive"
    case Passive => "passive"
  }

  function RomSlotValue(e: RomEntry, s: RomSlot): Val {
    match s
    case LeftActive => e.active.left
    case RightActive => e.active.right
    case Active => e.active.value
    case LeftPassive => e.passive.left
    case RightPassive => e.passive.right
    case Passive => e.passive.value
  }

  datatype RomFinding = RomFinding(
    bodyPart: string, motion: string, side: string, normal: int,
    historicalValues: Obj<Val>, dates: seq<string>)

  /** A slot yields a ROM finding iff the body part and motion are in the
      catalogue with a non-zero maximum and the value is truthy and > 0. */
  predicate RomYields(bodyPart: string, motion: string, e: RomEntry, s: RomSlot) {
    var normal := NormalMax(bodyPart, motion);
    normal.Some? && normal.value != 0 && Significant(RomSlotValue(e, s))
  }

  function RomColumn(history: seq<EvaluationRecord>, bodyPart: string, motion: string, s: RomSlot): Column {
    ColumnOf(history, (r: EvaluationRecord) => r.rangeOfMotion, bodyPart, motion, (x: RomEntry) => RomSlotValue(x, s))
  }

  /** The finding a slot yields. */
  function RomFindingOf(bodyPart: string, motion: string, e: RomEntry, s: RomSlot, ctx: Context): RomFinding {
    RomFinding(Strings.Humanize(bodyPart), Strings.Humanize(motion), RomSide(s),
               NormalMax(bodyPart, motion).GetOr(0),
               HistoricalValues(ctx.currentDate, RomSlotValue(e, s), RomColumn(ctx.history, bodyPart, motion, s)),
               ctx.dates)
  }

  /** The findings of one motion, in slot order. */
  function RomEntryFindings(bodyPart: string, motion: string, e: RomEntry, ctx: Context): (r: seq<RomFinding>)
    ensures forall f :: f in r <==>
      exists s :: s in RomSlots && RomYields(bodyPart, motion, e, s) && f == RomFindingOf(bodyPart, motion, e, s, ctx)
  {
    var normal := NormalMax(bodyPart, motion);
    if normal.Some? && normal.value != 0 then
      var keep := (s: RomSlot) => Significant(RomSlotValue(e, s));
      var make := (s: RomSlot) => RomFindingOf(bodyPart, motion, e, s, ctx);
      PickExactly(RomSlots, keep, (s: RomSlot) => RomYields(bodyPart, motion, e, s), make);
      Pick(RomSlots, keep, make)
    else []
  }

  /** The step the walk takes at each motion: that entry's findings. */
  function RomStep(ctx: Context): (step: (string, string, RomEntry) -> seq<RomFinding>)
    ensures forall bodyPart, motion, e :: step(bodyPart, motion, e) == RomEntryFindings(bodyPart, motion, e, ctx)
  {
    (bp, motion, e) => RomEntryFindings(bp, motion, e, ctx)
  }

  /** `getHistoricalROMFindings()`. */
  function RomFindings(current: Section<RomEntry>, currentDate: Option<string>, history: seq<EvaluationRecord>): (r: seq<RomFinding>)
    ensures var ctx := ContextFor(currentDate, history, RomCategory);
      forall f :: f in r <==>
        exists i, j :: 0 <= i < |current| && 0 <= j < |current[i].1| &&
          f in RomEntryFindings(current[i].0, current[i].1[j].0, current[i].1[j].1, ctx)
  {
    var ctx := ContextFor(currentDate, history, RomCategory);
    WalkSection(current, RomStep(ctx))
  }

  // ---------------------------------------------------------------------------
  // Special tests and strength
  // ---------------------------------------------------------------------------

  /** The three slots of a special test or a strength movement. */
  datatype Side = Left | Right | Unilateral

  const Sides: seq<Side> := [Left, Right, Unilateral]

  function SideLabel(s: Side): string {
    match s
    case Left => "left"
    case Right => "right"
    case Unilateral => ""
  }

  /** `testData.left`, `testData.right`, `testData.result`. */
  function SpecialSlotValue(e: SpecialTestEntry, s: Side): Val {
    match s
    case Left => e.left
    case Right => e.right
    case Unilateral => e.result
  }

  /** `values.left`, `values.right`, `values.value`. */
  function StrengthSlotValue(e: StrengthEntry, s: Side): Val {
    match s
    case Left => e.left
    case Right => e.right
    case Unilateral => e.value
  }

  /** A special-test or strength finding; `key` is the test's catalogue name
      or the humanised movement, and only strength findings have a test type. */
  datatype SideFinding = SideFinding(
    bodyPart: string, key: string, side: string, notes: string,
    historicalValues: Obj<Val>, dates: seq<string>, testType: Option<string>)

  /** A special-test slot yields a finding iff the test is in the catalogue
      for that body part and the slot's result is exactly `'positive'`. */
  predicate SpecialYields(bodyPart: string, testId: string, e: SpecialTestEntry, s: Side) {
    TestName(bodyPart, testId).Some? && SpecialSlotValue(e, s) == Str("positive")
  }

  function SpecialColumn(history: seq<EvaluationRecord>, bodyPart: string, testId: string, s: Side): Column {
    ColumnOf(history, (r: EvaluationRecord) => r.specialTests, bodyPart, testId, (x: SpecialTestEntry) => SpecialSlotValue(x, s))
  }

  function SpecialFindingOf(bodyPart: string, testId: string, e: SpecialTestEntry, s: Side, ctx: Context): SideFinding {
    SideFinding(Strings.Humanize(bodyPart), TestName(bodyPart, testId).GetOr(""), SideLabel(s), e.notes,
                HistoricalValues(ctx.currentDate, SpecialSlotValue(e, s), SpecialColumn(ctx.history, bodyPart, testId, s)),
                ctx.dates, None)
  }

  function SpecialEntryFindings(bodyPart: string, testId: string, e: SpecialTestEntry, ctx: Context): (r: seq<SideFinding>)
    ensures forall f :: f in r <==>
      exists s :: s in Sides && SpecialYields(bodyPart, testId, e, s) && f == SpecialFindingOf(bodyPart, testId, e, s, ctx)
  {
    if TestName(bodyPart, testId).Some? then
      var keep := (s: Side) => SpecialSlotValue(e, s) == Str("positive");
      var make := (s: Side) => SpecialFindingOf(bodyPart, testId, e, s, ctx);
      PickExactly(Sides, keep, (s: Side) => SpecialYields(bodyPart, testId, e, s), make);
      Pick(Sides, keep, make)
    else []
  }

  /** The step the walk takes at each test: that entry's findings. */
  function SpecialStep(ctx: Context): (step: (string, string, SpecialTestEntry) -> seq<SideFinding>)
    ensures forall bodyPart, testId, e :: step(bodyPart, testId, e) == SpecialEntryFindings(bodyPart, testId, e, ctx)
  {
    (bp, testId, e) => SpecialEntryFindings(bp, testId, e, ctx)
  }

  /** `getHistoricalSpecialTests()`. */
  function SpecialTestFindings(current: Section<SpecialTestEntry>, currentDate: Option<string>, history: seq<EvaluationRecord>): (r: seq<SideFinding>)
    ensures var ctx := ContextFor(currentDate, history, SpecialTestCategory);
      forall f :: f in r <==>
        exists i, j :: 0 <= i < |current| && 0 <= j < |current[i].1| &&
          f in SpecialEntryFindings(current[i].0, current[i].1[j].0, current[i].1[j].1, ctx)
  {
    var ctx := ContextFor(currentDate, history, SpecialTestCategory);
    WalkSection(current, SpecialStep(ctx))
  }

  /** A strength slot yields a finding iff its value is truthy and > 0. */
  predicate StrengthYields(e: StrengthEntry, s: Side) {
    Significant(StrengthSlotValue(e, s))
  }

  /** `values.testType || 'manual'`. */
  function TestTypeOr(testType: string): (r: string)
    ensures r != ""
    ensures testType != "" ==> r == testType
  {
    if testType == "" then "manual" else testType
  }

  function StrengthColumn(history: seq<EvaluationRecord>, bodyPart: string, movement: string, s: Side): Column {
    ColumnOf(history, (r: EvaluationRecord) => r.strengthTesting, bodyPart, movement, (x: StrengthEntry) => StrengthSlotValue(x, s))
  }

  function StrengthFindingOf(bodyPart: string, movement: string, e: StrengthEntry, s: Side, ctx: Context): SideFinding {
    SideFinding(Strings.Humanize(bodyPart), Strings.Humanize(movement), SideLabel(s), e.notes,
                HistoricalValues(ctx.currentDate, StrengthSlotValue(e, s), StrengthColumn(ctx.history, bodyPart, movement, s)),
                ctx.dates, Some(TestTypeOr(e.testType)))
  }

  function StrengthEntryFindings(bodyPart: string, movement: string, e: StrengthEntry, ctx: Context): (r: seq<SideFinding>)
    ensures forall f :: f in r <==>
      exists s :: s in Sides && StrengthYields(e, s) && f == StrengthFindingOf(bodyPart, movement, e, s, ctx)
  {
    Pick(Sides, (s: Side) => StrengthYields(e, s), (s: Side) => StrengthFindingOf(bodyPart, movement, e, s, ctx))
  }

  /** The step the walk takes at each movement: that entry's findings. */
  function StrengthStep(ctx: Context): (step: (string, string, StrengthEntry) -> seq<SideFinding>)
    ensures forall bodyPart, movement, e :: step(bodyPart, movement, e) == StrengthEntryFindings(bodyPart, movement, e, ctx)
  {
    (bp, movement, e) => StrengthEntryFindings(bp, movement, e, ctx)
  }

  /** `getHistoricalStrengthFindings()`. */
  function StrengthFindings(current: Section<StrengthEntry>, currentDate: Option<string>, history: seq<EvaluationRecord>): (r: seq<SideFinding>)
    ensures var ctx := ContextFor(currentDate, history, StrengthCategory);
      forall f :: f in r <==>
        exists i, j :: 0 <= i < |current| && 0 <= j < |current[i].1| &&
          f in StrengthEntryFindings(current[i].0, current[i].1[j].0, current[i].1[j].1, ctx)
  {
    var ctx := ContextFor(currentDate, history, StrengthCategory);
    WalkSection(current, StrengthStep(ctx))
  }

  // ---------------------------------------------------------------------------
  // Properties of the three tables
  // ---------------------------------------------------------------------------

  /** Every ROM finding names its source: a catalogued motion with a
      non-zero maximum and a slot holding a value that passes the filter. */
  lemma {:induction false} RomFindingSource(current: Section<RomEntry>, currentDate: Option<string>, history: seq<EvaluationRecord>, f: RomFinding)
    requires f in RomFindings(current, currentDate, history)
    ensures exists i, j, s ::
        0 <= i < |current| && 0 <= j < |current[i].1| && s in RomSlots &&
        RomYields(current[i].0, current[i].1[j].0, current[i].1[j].1, s) &&
        f == RomFindingOf(current[i].0, current[i].1[j].0, current[i].1[j].1, s, ContextFor(currentDate, history, RomCategory))
  {
    var ctx := ContextFor(currentDate, history, RomCategory);
    var i, j :| 0 <= i < |current| && 0 <= j < |current[i].1| &&
      f in RomEntryFindings(current[i].0, current[i].1[j].0, current[i].1[j].1, ctx);
    var s := RomEntrySource(current[i].0, current[i].1[j].0, current[i].1[j].1, ctx, f);
  }

  lemma RomEntrySource(bodyPart: string, motion: string, e: RomEntry, ctx: Context, f: RomFinding) returns (s: RomSlot)
    requires f in RomEntryFindings(bodyPart, motion, e, ctx)
    ensures s in RomSlots && RomYields(bodyPart, motion, e, s) && f == RomFindingOf(bodyPart, motion, e, s, ctx)
  {
    s :| s in RomSlots && RomYields(bodyPart, motion, e, s) && f == RomFindingOf(bodyPart, motion, e, s, ctx);
  }

  /** A ROM slot that yields a finding is never elbow or knee extension,
      whose reference maximum is 0, and its row names a non-zero maximum. */
  lemma YieldingMotion(bodyPart: string, motion: string, e: RomEntry, s: RomSlot)
    requires RomYields(bodyPart, motion, e, s)
    ensures NormalMax(bodyPart, motion).GetOr(0) != 0
    ensures var humanBodyPart := Strings.Humanize(bodyPart);
      !((humanBodyPart == "elbow" || humanBodyPart == "knee") && Strings.Humanize(motion) == "extension")
  {
    var humanBodyPart := Strings.Humanize(bodyPart);
    if (humanBodyPart == "elbow" || humanBodyPart == "knee") && Strings.Humanize(motion) == "extension" {
      HumanExtension(bodyPart, motion);
      assert false;
    }
  }

  /** Names that humanise to elbow or knee extension are those very names. */
  lemma HumanExtension(bodyPart: string, motion: string)
    requires Strings.Humanize(bodyPart) == "elbow" || Strings.Humanize(bodyPart) == "knee"
    requires Strings.Humanize(motion) == "extension"
    ensures NormalMax(bodyPart, motion) == Some(0)
  {
    Strings.HumanizeFixed(bodyPart);
    Strings.HumanizeFixed(motion);
    ZeroMaxMotions(bodyPart, motion);
  }

  /** Elbow and knee extension never appear in the ROM table, whatever was
      measured; every row that does appear carries a non-zero maximum. */
  lemma ExtensionNeverSurfaces(current: Section<RomEntry>, currentDate: Option<string>, history: seq<EvaluationRecord>)
    ensures forall f :: f in RomFindings(current, currentDate, history) ==>
      f.normal != 0 && !((f.bodyPart == "elbow" || f.bodyPart == "knee") && f.motion == "extension")
  {
    forall f | f in RomFindings(current, currentDate, history)
      ensures f.normal != 0 && !((f.bodyPart == "elbow" || f.bodyPart == "knee") && f.motion == "extension")
    {
      FindingNeverExtension(current, currentDate, history, f);
    }
  }

  lemma FindingNeverExtension(current: Section<RomEntry>, currentDate: Option<string>, history: seq<EvaluationRecord>, f: RomFinding)
    requires f in RomFindings(current, currentDate, history)
    ensures f.normal != 0
    ensures !((f.bodyPart == "elbow" || f.bodyPart == "knee") && f.motion == "extension")
  {
    RomFindingSource(current, currentDate, history, f);
    var ctx := ContextFor(currentDate, history, RomCategory);
    var i, j, s :| 0 <= i < |current| && 0 <= j < |current[i].1| && s in RomSlots &&
      RomYields(current[i].0, current[i].1[j].0, current[i].1[j].1, s) &&
      f == RomFindingOf(current[i].0, current[i].1[j].0, current[i].1[j].1, s, ctx);
    YieldingMotion(current[i].0, current[i].1[j].0, current[i].1[j].1, s);
  }

  /** Every special-test finding names its source: a catalogued test and a
      slot whose result is exactly `'positive'`. */
  lemma SpecialFindingSource(current: Section<SpecialTestEntry>, currentDate: Option<string>, history: seq<EvaluationRecord>, f: SideFinding)
    requires f in SpecialTestFindings(current, currentDate, history)
    ensures exists i, j, s ::
        0 <= i < |current| && 0 <= j < |current[i].1| && s in Sides &&
        SpecialYields(current[i].0, current[i].1[j].0, current[i].1[j].1, s) &&
        f == SpecialFindingOf(current[i].0, current[i].1[j].0, current[i].1[j].1, s, ContextFor(currentDate, history, SpecialTestCategory))
  {
    var ctx := ContextFor(currentDate, history, SpecialTestCategory);
    var i, j :| 0 <= i < |current| && 0 <= j < |current[i].1| &&
      f in SpecialEntryFindings(current[i].0, current[i].1[j].0, current[i].1[j].1, ctx);
    var s :| s in Sides && SpecialYields(current[i].0, current[i].1[j].0, current[i].1[j].1, s) &&
      f == SpecialFindingOf(current[i].0, current[i].1[j].0, current[i].1[j].1, s, ctx);
  }

  /** Every strength finding names its source: a slot whose value is truthy
      and positive. */
  lemma StrengthFindingSource(current: Section<StrengthEntry>, currentDate: Option<string>, history: seq<EvaluationRecord>, f: SideFinding)
    requires f in StrengthFindings(current, currentDate, history)
    ensures exists i, j, s ::
        0 <= i < |current| && 0 <= j < |current[i].1| && s in Sides &&
        StrengthYields(current[i].1[j].1, s) &&
        f == StrengthFindingOf(current[i].0, current[i].1[j].0, current[i].1[j].1, s, ContextFor(currentDate, history, StrengthCategory))
  {
    var ctx := ContextFor(currentDate, history, StrengthCategory);
    var i, j :| 0 <= i < |current| && 0 <= j < |current[i].1| &&
      f in StrengthEntryFindings(current[i].0, current[i].1[j].0, current[i].1[j].1, ctx);
    var s :| s in Sides && StrengthYields(current[i].1[j].1, s) &&
      f == StrengthFindingOf(current[i].0, current[i].1[j].0, current[i].1[j].1, s, ctx);
  }

  /** All findings of a table carry the same date columns, the ones chosen
      from that table's candidate dates; this holds for each of the three
      tables. */
  lemma TablesShareDates(rom: Section<RomEntry>, special: Section<SpecialTestEntry>, strength: Section<StrengthEntry>,
                         currentDate: Option<string>, history: seq<EvaluationRecord>)
    ensures forall f :: f in RomFindings(rom, currentDate, history) ==>
      f.dates == ContextFor(currentDate, history, RomCategory).dates
    ensures forall f :: f in SpecialTestFindings(special, currentDate, history) ==>
      f.dates == ContextFor(currentDate, history, SpecialTestCategory).dates
    ensures forall f :: f in StrengthFindings(strength, currentDate, history) ==>
      f.dates == ContextFor(currentDate, history, StrengthCategory).dates
  {
    forall f | f in RomFindings(rom, currentDate, history)
      ensures f.dates == ContextFor(currentDate, history, RomCategory).dates
    {
      RomFindingSource(rom, currentDate, history, f);
    }
    forall f | f in SpecialTestFindings(special, currentDate, history)
      ensures f.dates == ContextFor(currentDate, history, SpecialTestCategory).dates
    {
      SpecialFindingSource(special, currentDate, history, f);
    }
    forall f | f in StrengthFindings(strength, currentDate, history)
      ensures f.dates == ContextFor(currentDate, history, StrengthCategory).dates
    {
      StrengthFindingSource(strength, currentDate, history, f);
    }
  }

  /** The ROM findings come body part by body part, in the section's order,
      and within a body part motion by motion, in its order: each motion's
      findings once, as that motion yields them. */
  lemma RomFindingsOrder(current: Section<RomEntry>, currentDate: Option<string>, history: seq<EvaluationRecord>)
    ensures RomFindings(current, currentDate, history) ==
      Flatten(SectionParts(current, RomStep(ContextFor(currentDate, history, RomCategory))))
  {
    WalkSectionOrder(current, RomStep(ContextFor(currentDate, history, RomCategory)));
  }

  /** The special-test findings come body part by body part and test by
      test, in the section's order. */
  lemma SpecialTestFindingsOrder(current: Section<SpecialTestEntry>, currentDate: Option<string>, history: seq<EvaluationRecord>)
    ensures SpecialTestFindings(current, currentDate, history) ==
      Flatten(SectionParts(current, SpecialStep(ContextFor(currentDate, history, SpecialTestCategory))))
  {
    WalkSectionOrder(current, SpecialStep(ContextFor(currentDate, history, SpecialTestCategory)));
  }

  /** The strength findings come body part by body part and movement by
      movement, in the section's order. */
  lemma StrengthFindingsOrder(current: Section<StrengthEntry>, currentDate: Option<string>, history: seq<EvaluationRecord>)
    ensures StrengthFindings(current, currentDate, history) ==
      Flatten(SectionParts(current, StrengthStep(ContextFor(currentDate, history, StrengthCategory))))
  {
    WalkSectionOrder(current, StrengthStep(ContextFor(currentDate, history, StrengthCategory)));
  }

  /** The current evaluation's date is always one of the columns. With at
      most `MaxColumns` candidates the columns keep `Set` insertion order, so
      it is the first column; with more, they are sorted ascending and, when
      no record is dated after it, it is the last column. */
  lemma {:induction false} CurrentDateColumn(currentDate: Option<string>, history: seq<EvaluationRecord>, category: Category)
    requires IsSet(currentDate)
    requires forall i :: 0 <= i < |history| ==> LexLe(history[i].evaluationDate, currentDate.value)
    ensures var all := CandidateDates(currentDate, history, category);
      var dates := ContextFor(currentDate, history, category).dates;
      |dates| > 0 &&
      (|all| <= MaxColumns ==> dates[0] == currentDate.value) &&
      (|all| > MaxColumns ==> dates[|dates| - 1] == currentDate.value)
  {
    var all := CandidateDates(currentDate, history, category);
    var dates := ContextFor(currentDate, history, category).dates;
    if |all| > MaxColumns {
      LatestCandidate(currentDate, history, category, all);
      LatestIsLast(all, dates, currentDate.value);
    }
  }

  /** Among more candidates than columns, the latest is the last column. */
  lemma LatestIsLast(all: seq<string>, dates: seq<string>, c: string)
    requires Distinct(all) && MaxColumns < |all| && dates == SmartDateColumns(all, MaxColumns)
    requires IsGreatest(c, all)
    ensures |dates| > 0 && dates[|dates| - 1] == c
  {
    SmartDateColumnsSpread(all, MaxColumns);
    GreatestUnique(all, dates[|dates| - 1], c);
  }

  /** No candidate is later than a current date that no record follows. */
  lemma LatestCandidate(currentDate: Option<string>, history: seq<EvaluationRecord>, category: Category, all: seq<string>)
    requires IsSet(currentDate) && all == CandidateDates(currentDate, history, category)
    requires forall i :: 0 <= i < |history| ==> LexLe(history[i].evaluationDate, currentDate.value)
    ensures IsGreatest(currentDate.value, all)
  {
  }

  /** A sequence has one latest date. */
  lemma GreatestUnique(all: seq<string>, a: string, b: string)
    requires IsGreatest(a, all) && IsGreatest(b, all)
    ensures a == b
  {
    LexLessAsymmetric(a, b);
  }
}

=== FILE: fold.dfy ===
/** The reduce shape the source uses whenever it pivots a list into an
    object: `list.reduce((acc, x) => { acc[key(x)] = ...; return acc }, {})`.
    The summary's row groupers and the data layer's measurement reducers are
    all instances of it. */
module Fold {
  import opened Wrappers
  import opened JsObject
  import opened Seqs

  /** `findings.reduce((acc, f) => { if (!acc[key(f)]) acc[key(f)] = open(f);
      route(acc[key(f)], f); return acc }, {})`. */
  function Group<F, R>(fs: seq<F>, keyOf: F -> string, open: F -> R, route: (R, F) -> R): Obj<R> {
    if |fs| == 0 then []
    else
      var acc := Group(fs[..|fs| - 1], keyOf, open, route);
      var f := fs[|fs| - 1];
      var row := match Get(acc, keyOf(f)) case Some(row) => row case None => open(f);
      Put(acc, keyOf(f), route(row, f))
  }

  /** The row key of every finding, in finding order. */
  function KeysOf<F>(fs: seq<F>, keyOf: F -> string): (r: seq<string>)
    ensures |r| == |fs|
    ensures forall i :: 0 <= i < |fs| ==> r[i] == keyOf(fs[i])
  {
    seq(|fs|, i requires 0 <= i < |fs| => keyOf(fs[i]))
  }

  /** The findings that land in row `k`, in order. */
  function Matching<F>(fs: seq<F>, keyOf: F -> string, k: string): (r: seq<F>)
    ensures |r| <= |fs|
    ensures forall f :: f in r ==> f in fs && keyOf(f) == k
  {
    if |fs| == 0 then []
    else
      var init := Matching(fs[..|fs| - 1], keyOf, k);
      var f := fs[|fs| - 1];
      if keyOf(f) == k then init + [f] else init
  }

  /** The reference reading of one row: opened by its first finding, then
      every finding of the row routed into it in turn. */
  function Replay<F, R>(row: R, ms: seq<F>, route: (R, F) -> R): R {
    if |ms| == 0 then row else route(Replay(row, ms[..|ms| - 1], route), ms[|ms| - 1])
  }

  /** The rows come out in first-seen order of their keys, once each. */
  lemma {:induction false} GroupKeys<F, R>(fs: seq<F>, keyOf: F -> string, open: F -> R, route: (R, F) -> R)
    ensures Keys(Group(fs, keyOf, open, route)) == FirstSeen(KeysOf(fs, keyOf))
  {
    if |fs| > 0 {
      var init := fs[..|fs| - 1];
      GroupKeys(init, keyOf, open, route);
      var acc := Group(init, keyOf, open, route);
      var k := keyOf(fs[|fs| - 1]);
      assert KeysOf(fs, keyOf)[..|fs| - 1] == KeysOf(init, keyOf);
      assert KeysOf(fs, keyOf)[|fs| - 1] == k;
      assert k in Keys(acc) <==> k in FirstSeen(KeysOf(init, keyOf));
    }
  }

  /** Each row is its findings replayed over the row their first finding
      opened; a key no finding has has no row. */
  lemma {:induction false} GroupRow<F, R>(fs: seq<F>, keyOf: F -> string, open: F -> R, route: (R, F) -> R, k: string)
    ensures var ms := Matching(fs, keyOf, k);
      Get(Group(fs, keyOf, open, route), k) ==
        if |ms| == 0 then None else Some(Replay(open(ms[0]), ms, route))
  {
    if |fs| > 0 {
      var init := fs[..|fs| - 1];
      var f := fs[|fs| - 1];
      GroupRow(init, keyOf, open, route, k);
      var ms := Matching(init, keyOf, k);
      if keyOf(f) == k {
        var ms' := ms + [f];
        assert ms'[..|ms'| - 1] == ms;
        if |ms| == 0 {
          assert ms' == [f];
          assert Replay(open(f), ms', route) == route(Replay(open(f), [], route), f);
        } else {
          assert ms'[0] == ms[0];
        }
      }
    }
  }

  /** The last of `ms` that `p` accepts. */
  function LastMatch<F>(ms: seq<F>, p: F -> bool): (r: Option<F>)
    ensures r.Some? ==> r.value in ms && p(r.value)
    ensures r.None? ==> forall i :: 0 <= i < |ms| ==> !p(ms[i])
  {
    if |ms| == 0 then None
    else if p(ms[|ms| - 1]) then Some(ms[|ms| - 1])
    else
      var r := LastMatch(ms[..|ms| - 1], p);
      assert r.None? ==> forall i :: 0 <= i < |ms| ==> !p(ms[i]) by {
        if r.None? {
          forall i | 0 <= i < |ms| ensures !p(ms[i]) {
            if i < |ms| - 1 { assert ms[..|ms| - 1][i] == ms[i]; }
          }
        }
      }
      r
  }

  /** The match found is the last accepted one: nothing after it is accepted. */
  lemma {:induction false} LastMatchIsLast<F>(ms: seq<F>, p: F -> bool)
    requires LastMatch(ms, p).Some?
    ensures exists i :: 0 <= i < |ms| && ms[i] == LastMatch(ms, p).value && p(ms[i]) &&
                        (forall j :: i < j < |ms| ==> !p(ms[j]))
  {
    var n := |ms| - 1;
    if p(ms[n]) {
      assert ms[n] == LastMatch(ms, p).value;
    } else {
      var init := ms[..n];
      LastMatchIsLast(init, p);
      var i :| 0 <= i < |init| && init[i] == LastMatch(init, p).value && p(init[i]) &&
               (forall j :: i < j < |init| ==> !p(init[j]));
      assert ms[i] == init[i];
      forall j | i < j < |ms| ensures !p(ms[j]) {
        if j < n { assert ms[j] == init[j]; }
      }
    }
  }
}

=== FILE: grouping.dfy ===
/** The row grouping of the three summary tables: findings are pivoted into
    one row per `"bodyPart-key"`, in the order the keys were first seen, and
    each finding routes its per-date values into a side bucket
    (src/components/EvaluationSummary.tsx:1369-1401, 1504-1531, 1599-1625). */
module Grouping {
  import opened Wrappers
  import opened Values
  import opened JsObject
  import opened Seqs
  import opened Strings
  import opened Extract
  import opened Fold

  // ---------------------------------------------------------------------------
  // Range-of-motion rows
  // ---------------------------------------------------------------------------

  /** A row of the ROM table: one body part and motion, with the per-date
      values of its four bilateral slots. */
  datatype RomRow = RomRow(
    bodyPart: string, motion: string, normal: int, dates: seq<string>,
    activeLeft: Obj<Val>, activeRight: Obj<Val>, passiveLeft: Obj<Val>, passiveRight: Obj<Val>)

  /** `${finding.bodyPart}-${finding.motion}`. */
  function RomKey(f: RomFinding): string {
    f.bodyPart + "-" + f.motion
  }

  /** The row a motion's first finding opens: header from the finding, empty buckets. */
  function OpenRomRow(f: RomFinding): (row: RomRow)
    ensures row.bodyPart == f.bodyPart && row.motion == f.motion
    ensures row.normal == f.normal && row.dates == f.dates
    ensures row.activeLeft == [] && row.activeRight == [] && row.passiveLeft == [] && row.passiveRight == []
  {
    RomRow(f.bodyPart, f.motion, f.normal, f.dates, [], [], [], [])
  }

  predicate IsActiveLeft(f: RomFinding) { Contains(f.side, "left") && Contains(f.side, "active") }
  predicate IsPassiveLeft(f: RomFinding) { Contains(f.side, "left") && !Contains(f.side, "active") }
  predicate IsActiveRight(f: RomFinding) { !Contains(f.side, "left") && Contains(f.side, "right") && Contains(f.side, "active") }
  predicate IsPassiveRight(f: RomFinding) { !Contains(f.side, "left") && Contains(f.side, "right") && !Contains(f.side, "active") }

  /** The ROM reducer's routing: a side mentioning `left` (else `right`)
      replaces the active or passive bucket of that side; any other side
      leaves the row alone. */
  function RomRoute(row: RomRow, f: RomFinding): RomRow {
    var isActive := Contains(f.side, "active");
    if Contains(f.side, "left") then
      if isActive then row.(activeLeft := f.historicalValues) else row.(passiveLeft := f.historicalValues)
    else if Contains(f.side, "right") then
      if isActive then row.(activeRight := f.historicalValues) else row.(passiveRight := f.historicalValues)
    else row
  }

  /** The ROM table's rows, keyed. */
  function RomRows(fs: seq<RomFinding>): Obj<RomRow> {
    Group(fs, RomKey, OpenRomRow, RomRoute)
  }

  /** The value a bucket ends with: the last routed finding's, else the start's. */
  function RomBucket(start: Obj<Val>, last: Option<RomFinding>): Obj<Val> {
    if last.Some? then last.value.historicalValues else start
  }

  /** Replaying keeps the header and leaves in each bucket the values of the
      last finding routed there. */
  lemma {:induction false} RomReplay(row: RomRow, ms: seq<RomFinding>)
    ensures var r := Replay(row, ms, RomRoute);
      r.bodyPart == row.bodyPart && r.motion == row.motion && r.normal == row.normal && r.dates == row.dates &&
      r.activeLeft == RomBucket(row.activeLeft, LastMatch(ms, IsActiveLeft)) &&
      r.activeRight == RomBucket(row.activeRight, LastMatch(ms, IsActiveRight)) &&
      r.passiveLeft == RomBucket(row.passiveLeft, LastMatch(ms, IsPassiveLeft)) &&
      r.passiveRight == RomBucket(row.passiveRight, LastMatch(ms, IsPassiveRight))
  {
    if |ms| > 0 {
      RomReplay(row, ms[..|ms| - 1]);
    }
  }

  /** Every ROM row: the header of the first finding of its body part and
      motion, and in each bucket the values of the last finding routed
      there (`{}` when none was). */
  lemma RomRowContents(fs: seq<RomFinding>, k: string)
    ensures var ms := Matching(fs, RomKey, k);
      var row := Get(RomRows(fs), k);
      (row.Some? <==> |ms| > 0) &&
      (row.Some? ==>
        row.value.bodyPart == ms[0].bodyPart && row.value.motion == ms[0].motion &&
        row.value.normal == ms[0].normal && row.value.dates == ms[0].dates &&
        row.value.activeLeft == RomBucket([], LastMatch(ms, IsActiveLeft)) &&
        row.value.activeRight == RomBucket([], LastMatch(ms, IsActiveRight)) &&
        row.value.passiveLeft == RomBucket([], LastMatch(ms, IsPassiveLeft)) &&
        row.value.passiveRight == RomBucket([], LastMatch(ms, IsPassiveRight)))
  {
    var ms := Matching(fs, RomKey, k);
    GroupRow(fs, RomKey, OpenRomRow, RomRoute, k);
    if |ms| > 0 {
      RomReplay(OpenRomRow(ms[0]), ms);
    }
  }

  /** Which slot labels mention `left`. */
  lemma SaysLeft(s: RomSlot)
    ensures Contains(RomSide(s), "left") <==> s == LeftActive || s == LeftPassive
  {
    var side, left := RomSide(s), "left";
    if s == LeftActive || s == LeftPassive {
      assert StartsWith(side[0..], left);
    } else if Contains(side, left) {
      ContainsChar(side, left, 1);
      ContainsChar(side, left, 2);
    }
  }

  /** Which slot labels mention `right`. */
  lemma SaysRight(s: RomSlot)
    ensures Contains(RomSide(s), "right") <==> s == RightActive || s == RightPassive
  {
    var side, right := RomSide(s), "right";
    if s == RightActive || s == RightPassive {
      assert StartsWith(side[0..], right);
    } else if Contains(side, right) {
      ContainsChar(side, right, 0);
    }
  }

  /** Which slot labels mention `active`. */
  lemma SaysActive(s: RomSlot)
    ensures Contains(RomSide(s), "active") <==> s == LeftActive || s == RightActive || s == Active
  {
    match s
    case LeftActive => assert StartsWith(RomSide(s)[5..], "active");
    case RightActive => assert StartsWith(RomSide(s)[6..], "active");
    case Active => assert StartsWith(RomSide(s)[0..], "active");
    case _ => PassiveNotActive(s);
  }

  /** No passive label holds a `c`, so none mentions `active`. */
  lemma PassiveNotActive(s: RomSlot)
    requires s == LeftPassive || s == RightPassive || s == Passive
    ensures !Contains(RomSide(s), "active")
  {
    var side, active := RomSide(s), "active";
    assert active[1] !in side;
    if Contains(side, active) {
      ContainsChar(side, active, 1);
    }
  }

  /** Where each extracted slot lands: the four bilateral slots fill their
      own bucket and the unilateral `active` and `passive` fill none. */
  lemma RomSlotRouting(f: RomFinding, s: RomSlot)
    requires f.side == RomSide(s)
    ensures IsActiveLeft(f) <==> s == LeftActive
    ensures IsActiveRight(f) <==> s == RightActive
    ensures IsPassiveLeft(f) <==> s == LeftPassive
    ensures IsPassiveRight(f) <==> s == RightPassive
  {
    SaysLeft(s);
    SaysRight(s);
    SaysActive(s);
  }

  // ---------------------------------------------------------------------------
  // Strength and special-test rows
  // ---------------------------------------------------------------------------

  /** A row of the strength or special-test table: one body part and
      movement (or test), its left and right per-date values, the merged
      notes and, for strength, the test type. */
  datatype SideRow = SideRow(
    bodyPart: string, key: string, dates: seq<string>,
    left: Obj<Val>, right: Obj<Val>, notes: string, testType: Option<string>)

  /** `${finding.bodyPart}-${finding.movement}` or `${finding.bodyPart}-${finding.test}`. */
  function SideKey(f: SideFinding): string {
    f.bodyPart + "-" + f.key
  }

  /** The row a first finding opens: its header, notes and test type, empty buckets. */
  function OpenSideRow(f: SideFinding): (row: SideRow)
    ensures row.bodyPart == f.bodyPart && row.key == f.key && row.dates == f.dates
    ensures row.left == [] && row.right == []
    ensures row.notes == f.notes && row.testType == f.testType
  {
    SideRow(f.bodyPart, f.key, f.dates, [], [], f.notes, f.testType)
  }

  /** Notes consolidation: a non-empty note not already contained in the
      row's notes is appended, after `"; "` unless the notes are empty. */
  function MergeNotes(notes: string, note: string): (r: string)
    ensures StartsWith(r, notes)
    ensures note != "" ==> Contains(r, note)
    ensures note == "" || Contains(notes, note) ==> r == notes
    ensures note != "" && !Contains(notes, note) ==> r == (if notes == "" then note else notes + "; " + note)
  {
    if note != "" && !Contains(notes, note) then
      var r := if notes != "" then notes + "; " + note else note;
      ContainsSuffix(if notes != "" then notes + "; " else "", note);
      assert r == (if notes != "" then notes + "; " else "") + note;
      r
    else notes
  }

  /** Merging the same note twice changes nothing the second time. */
  lemma MergeNotesIdempotent(notes: string, note: string)
    ensures MergeNotes(MergeNotes(notes, note), note) == MergeNotes(notes, note)
  {
  }

  /** The notes of each finding, in order. */
  function NotesOf(ms: seq<SideFinding>): (r: seq<string>)
    ensures |r| == |ms|
    ensures forall i :: 0 <= i < |ms| ==> r[i] == ms[i].notes
  {
    seq(|ms|, i requires 0 <= i < |ms| => ms[i].notes)
  }

  /** The notes left by merging `ns` one after the other into `notes`. */
  function MergeAll(notes: string, ns: seq<string>): string {
    if |ns| == 0 then notes else MergeNotes(MergeAll(notes, ns[..|ns| - 1]), ns[|ns| - 1])
  }

  predicate IsLeft(f: SideFinding) { Contains(f.side, "left") }
  predicate IsRight(f: SideFinding) { !Contains(f.side, "left") && Contains(f.side, "right") }

  /** The strength and special-test reducers' routing: a side mentioning
      `left` (else `right`) replaces that bucket; then the notes are merged. */
  function SideRoute(row: SideRow, f: SideFinding): SideRow {
    var routed :=
      if Contains(f.side, "left") then row.(left := f.historicalValues)
      else if Contains(f.side, "right") then row.(right := f.historicalValues)
      else row;
    routed.(notes := MergeNotes(routed.notes, f.notes))
  }

  /** The strength or special-test table's rows, keyed. */
  function SideRows(fs: seq<SideFinding>): Obj<SideRow> {
    Group(fs, SideKey, OpenSideRow, SideRoute)
  }

  function SideBucket(start: Obj<Val>, last: Option<SideFinding>): Obj<Val> {
    if last.Some? then last.value.historicalValues else start
  }

  /** Replaying keeps the header and test type and leaves in each bucket
      the values of the last finding routed there. */
  lemma {:induction false} SideReplay(row: SideRow, ms: seq<SideFinding>)
    ensures var r := Replay(row, ms, SideRoute);
      r.bodyPart == row.bodyPart && r.key == row.key && r.dates == row.dates && r.testType == row.testType &&
      r.left == SideBucket(row.left, LastMatch(ms, IsLeft)) &&
      r.right == SideBucket(row.right, LastMatch(ms, IsRight))
  {
    if |ms| > 0 {
      SideReplay(row, ms[..|ms| - 1]);
    }
  }

  /** Replaying merges the findings' notes in order and touches nothing
      else of them, so the notes only ever extend and end up containing
      every finding's non-empty note. */
  lemma {:induction false} SideReplayNotes(row: SideRow, ms: seq<SideFinding>)
    ensures var notes := Replay(row, ms, SideRoute).notes;
      notes == MergeAll(row.notes, NotesOf(ms)) &&
      StartsWith(notes, row.notes) &&
      forall i :: 0 <= i < |ms| && ms[i].notes != "" ==> Contains(notes, ms[i].notes)
  {
    if |ms| > 0 {
      var init := ms[..|ms| - 1];
      var m := ms[|ms| - 1];
      SideReplayNotes(row, init);
      var before := Replay(row, init, SideRoute).notes;
      var notes := Replay(row, ms, SideRoute).notes;
      assert notes == MergeNotes(before, m.notes);
      assert NotesOf(ms)[..|ms| - 1] == NotesOf(init);
      var rest := notes[|before|..];
      assert notes == before + rest;
      forall i | 0 <= i < |ms| && ms[i].notes != "" ensures Contains(notes, ms[i].notes) {
        if i < |ms| - 1 {
          assert init[i] == ms[i];
          ContainsExtend(before, rest, ms[i].notes);
        }
      }
    }
  }

  /** Every strength or special-test row: the header, dates and test type
      of the first finding with its key, in each bucket the values of the
      last finding routed there (`{}` when none was), and notes that start
      with the first finding's, merge every finding's note in order and so
      contain every finding's non-empty note. */
  lemma SideRowContents(fs: seq<SideFinding>, k: string)
    ensures var ms := Matching(fs, SideKey, k);
      var row := Get(SideRows(fs), k);
      (row.Some? <==> |ms| > 0) &&
      (row.Some? ==>
        row.value.bodyPart == ms[0].bodyPart && row.value.key == ms[0].key &&
        row.value.dates == ms[0].dates && row.value.testType == ms[0].testType &&
        row.value.left == SideBucket([], LastMatch(ms, IsLeft)) &&
        row.value.right == SideBucket([], LastMatch(ms, IsRight)) &&
        row.value.notes == MergeAll(ms[0].notes, NotesOf(ms)) &&
        StartsWith(row.value.notes, ms[0].notes) &&
        forall i :: 0 <= i < |ms| && ms[i].notes != "" ==> Contains(row.value.notes, ms[i].notes))
  {
    var ms := Matching(fs, SideKey, k);
    GroupRow(fs, SideKey, OpenSideRow, SideRoute, k);
    if |ms| > 0 {
      SideReplay(OpenSideRow(ms[0]), ms);
      SideReplayNotes(OpenSideRow(ms[0]), ms);
    }
  }

  /** Where each extracted side lands: `left` and `right` fill their bucket,
      the unilateral `''` fills none. */
  lemma SideSlotRouting(f: SideFinding, s: Side)
    requires f.side == SideLabel(s)
    ensures IsLeft(f) <==> s == Left
    ensures IsRight(f) <==> s == Right
  {
    var left, right := "left", "right";
    var c: nat := 0;
    match s
    case Left => assert StartsWith(f.side[0..], left);
    case Right =>
      assert StartsWith(f.side[0..], right);
      if Contains(f.side, left) { ContainsChar(f.side, left, c); }
    case Unilateral =>
      if Contains(f.side, left) { ContainsChar(f.side, left, c); }
      if Contains(f.side, right) { ContainsChar(f.side, right, c); }
  }
}

=== FILE: history_merge.dfy ===
/** The transform `loadHistoricalData` applies to the fetched evaluations
    before the summary reads them (src/components/EvaluationSummary.tsx:171-213):
    keep the evaluations dated on or before the current date, normalise
    absent sections to `{}`, and append the evaluation being edited, then
    sort ascending by date, when its date is not among them. */
module HistoryMerge {
  import opened Wrappers
  import opened Seqs
  import opened Ordering
  import opened Evaluation

  /** A fetched evaluation; any of its sections may be absent. */
  datatype Fetched = Fetched(
    id: string,
    evaluationDate: string,
    rangeOfMotion: Option<Section<RomEntry>>,
    specialTests: Option<Section<SpecialTestEntry>>,
    strengthTesting: Option<Section<StrengthEntry>>)

  /** The evaluation being edited, as far as the merge reads it. */
  datatype Form = Form(
    evaluationDate: Option<string>,
    rangeOfMotion: Option<Section<RomEntry>>,
    specialTests: Option<Section<SpecialTestEntry>>,
    strengthTesting: Option<Section<StrengthEntry>>)

  /** `currentEvaluationDate || formData?.evaluationDate`. */
  function CurrentDate(currentEvaluationDate: Option<string>, form: Option<Form>): (r: Option<string>)
    ensures IsSet(currentEvaluationDate) ==> r == currentEvaluationDate
    ensures !IsSet(currentEvaluationDate) && form.None? ==> r.None?
    ensures !IsSet(currentEvaluationDate) && form.Some? ==> r == form.value.evaluationDate
  {
    if IsSet(currentEvaluationDate) then currentEvaluationDate
    else if form.None? then None
    else form.value.evaluationDate
  }

  /** `evaluationDate <= currentDate`; a comparison with `undefined` is false. */
  predicate OnOrBefore(date: string, currentDate: Option<string>) {
    currentDate.Some? && LexLe(date, currentDate.value)
  }

  /** The record kept for a fetched evaluation: `section || {}`. */
  function Normalise(f: Fetched): (r: EvaluationRecord)
    ensures r.id == f.id && r.evaluationDate == f.evaluationDate
    ensures f.rangeOfMotion.Some? ==> r.rangeOfMotion == f.rangeOfMotion.value
    ensures f.rangeOfMotion.None? ==> r.rangeOfMotion == []
    ensures f.specialTests.Some? ==> r.specialTests == f.specialTests.value
    ensures f.specialTests.None? ==> r.specialTests == []
    ensures f.strengthTesting.Some? ==> r.strengthTesting == f.strengthTesting.value
    ensures f.strengthTesting.None? ==> r.strengthTesting == []
  {
    EvaluationRecord(f.id, f.evaluationDate, f.rangeOfMotion.GetOr([]),
                     f.specialTests.GetOr([]), f.strengthTesting.GetOr([]))
  }

  /** The `filter` predicate: dated on or before the current date. */
  function UpTo(currentDate: Option<string>): Fetched -> bool {
    (f: Fetched) => OnOrBefore(f.evaluationDate, currentDate)
  }

  /** The `map` step: each evaluation normalised, position by position. */
  function NormaliseAll(fs: seq<Fetched>): (r: seq<EvaluationRecord>)
    ensures |r| == |fs|
    ensures forall i :: 0 <= i < |fs| ==> r[i] == Normalise(fs[i])
  {
    seq(|fs|, i requires 0 <= i < |fs| => Normalise(fs[i]))
  }

  /** Normalising a list with a head in front. */
  lemma NormaliseAllHead(f: Fetched, fs: seq<Fetched>)
    ensures NormaliseAll([f] + fs) == [Normalise(f)] + NormaliseAll(fs)
  {
  }

  /** The `filter(...).map(...)` step, computed in one pass: the normalised
      evaluations dated on or before the current date. */
  function KeepUpTo(fetched: seq<Fetched>, currentDate: Option<string>): (r: seq<EvaluationRecord>)
    ensures |r| <= |fetched|
    ensures forall x :: x in r <==> exists f :: f in fetched && OnOrBefore(f.evaluationDate, currentDate) && x == Normalise(f)
  {
    if |fetched| == 0 then []
    else
      var rest := KeepUpTo(fetched[1..], currentDate);
      assert forall f :: f in fetched <==> f == fetched[0] || f in fetched[1..] by {
        assert fetched == [fetched[0]] + fetched[1..];
      }
      if OnOrBefore(fetched[0].evaluationDate, currentDate) then [Normalise(fetched[0])] + rest else rest
  }

  /** The one pass is the source's two steps: filter by date, then normalise,
      keeping fetch order and every duplicate. */
  lemma {:induction false} KeepUpToFilterMap(fetched: seq<Fetched>, currentDate: Option<string>)
    ensures KeepUpTo(fetched, currentDate) == NormaliseAll(Filter(fetched, UpTo(currentDate)))
  {
    if |fetched| > 0 {
      KeepUpToFilterMap(fetched[1..], currentDate);
      if OnOrBefore(fetched[0].evaluationDate, currentDate) {
        NormaliseAllHead(fetched[0], Filter(fetched[1..], UpTo(currentDate)));
      }
    }
  }

  /** The record appended for the evaluation being edited. */
  function CurrentRecord(date: string, form: Form): (r: EvaluationRecord)
    ensures r.id == "current" && r.evaluationDate == date
  {
    EvaluationRecord("current", date, form.rangeOfMotion.GetOr([]),
                     form.specialTests.GetOr([]), form.strengthTesting.GetOr([]))
  }

  /** `relevantEvaluations.some(e => e.evaluationDate === currentDate)`. */
  predicate HasDate(records: seq<EvaluationRecord>, date: string) {
    exists i :: 0 <= i < |records| && records[i].evaluationDate == date
  }

  /** Whether the merge appends the evaluation being edited. */
  predicate AppendsCurrent(kept: seq<EvaluationRecord>, currentDate: Option<string>, form: Option<Form>) {
    IsSet(currentDate) && form.Some? && !HasDate(kept, currentDate.value)
  }

  /** The whole post-fetch transform. Note that the ascending sort happens
      only when the current evaluation is appended; otherwise the records
      stay in fetch order. */
  function MergeHistory(fetched: seq<Fetched>, currentEvaluationDate: Option<string>, form: Option<Form>): (r: seq<EvaluationRecord>)
    ensures var currentDate := CurrentDate(currentEvaluationDate, form);
      var kept := KeepUpTo(fetched, currentDate);
      if AppendsCurrent(kept, currentDate, form) then
        |r| == |kept| + 1 &&
        multiset(r) == multiset(kept) + multiset{CurrentRecord(currentDate.value, form.value)} &&
        SortedBy(r, DateOf, false) &&
        forall k ::
          Filter(r, HasKey(DateOf, k)) == Filter(kept + [CurrentRecord(currentDate.value, form.value)], HasKey(DateOf, k))
      else r == kept
  {
    var currentDate := CurrentDate(currentEvaluationDate, form);
    var kept := KeepUpTo(fetched, currentDate);
    if AppendsCurrent(kept, currentDate, form) then
      SortBy(kept + [CurrentRecord(currentDate.value, form.value)], DateOf, false)
    else kept
  }

  /** When nothing is appended, the merge is the source's filter and map,
      in fetch order. */
  lemma MergeKeepsFetchOrder(fetched: seq<Fetched>, currentEvaluationDate: Option<string>, form: Option<Form>)
    requires var currentDate := CurrentDate(currentEvaluationDate, form);
      !AppendsCurrent(KeepUpTo(fetched, currentDate), currentDate, form)
    ensures MergeHistory(fetched, currentEvaluationDate, form) ==
      NormaliseAll(Filter(fetched, UpTo(CurrentDate(currentEvaluationDate, form))))
  {
    KeepUpToFilterMap(fetched, CurrentDate(currentEvaluationDate, form));
  }

  /** Every merged record is dated on or before the current date. */
  lemma MergedUpToCurrent(fetched: seq<Fetched>, currentEvaluationDate: Option<string>, form: Option<Form>)
    ensures var currentDate := CurrentDate(currentEvaluationDate, form);
      forall x :: x in MergeHistory(fetched, currentEvaluationDate, form) ==>
        OnOrBefore(x.evaluationDate, currentDate)
  {
    var currentDate := CurrentDate(currentEvaluationDate, form);
    var kept := KeepUpTo(fetched, currentDate);
    var r := MergeHistory(fetched, currentEvaluationDate, form);
    forall x | x in r ensures OnOrBefore(x.evaluationDate, currentDate) {
      if AppendsCurrent(kept, currentDate, form) {
        var c := CurrentRecord(currentDate.value, form.value);
        assert x in multiset(r);
        assert x == c || x in multiset(kept);
        if x != c {
          assert x in kept;
        }
      } else {
        assert x in kept;
      }
    }
  }

  /** With a current date set and a form present, the merged history always
      holds a record of that date: a fetched one or the appended one. */
  lemma {:induction false} MergedHasCurrentDate(fetched: seq<Fetched>, currentEvaluationDate: Option<string>, form: Option<Form>)
    requires IsSet(CurrentDate(currentEvaluationDate, form)) && form.Some?
    ensures HasDate(MergeHistory(fetched, currentEvaluationDate, form),
                    CurrentDate(currentEvaluationDate, form).value)
  {
    var currentDate := CurrentDate(currentEvaluationDate, form);
    var kept := KeepUpTo(fetched, currentDate);
    var r := MergeHistory(fetched, currentEvaluationDate, form);
    if AppendsCurrent(kept, currentDate, form) {
      var c := CurrentRecord(currentDate.value, form.value);
      assert c in multiset(r);
      var i :| 0 <= i < |r| && r[i] == c;
    }
  }

  /** Without a current date nothing is kept and nothing is appended. */
  lemma MergeWithoutDate(fetched: seq<Fetched>, currentEvaluationDate: Option<string>, form: Option<Form>)
    requires CurrentDate(currentEvaluationDate, form).None?
    ensures MergeHistory(fetched, currentEvaluationDate, form) == []
  {
    KeepUpToFilterMap(fetched, None);
    FilterNone(fetched, UpTo(None));
  }
}

=== FILE: history_values.dfy ===
/** The per-date value map each finding carries (`historicalValues`): the
    current date mapped to the current value, then every history record
    whose same slot is truthy adds or overwrites its own date
    (src/components/EvaluationSummary.tsx:483-509, 576-590, 648-662). */
module HistoryValues {
  import opened Wrappers
  import opened Values
  import opened JsObject
  import opened Evaluation

  /** One history record's view of a slot: its date and the slot's value
      (`Absent` when the record has no entry there). */
  type Column = seq<(string, Val)>

  /** `if (currentDate) historicalValues[currentDate] = value`. */
  function Seed(currentDate: Option<string>, value: Val): (r: Obj<Val>)
    ensures forall d :: Get(r, d) == if IsSet(currentDate) && d == currentDate.value then Some(value) else None
  {
    if IsSet(currentDate) then [(currentDate.value, value)] else []
  }

  /** `historyData.forEach(e => { if (slot(e)) historicalValues[e.evaluationDate] = slot(e) })`. */
  function Overlay(start: Obj<Val>, column: Column): Obj<Val> {
    if |column| == 0 then start
    else
      var acc := Overlay(start, column[..|column| - 1]);
      var last := column[|column| - 1];
      if Truthy(last.1) then Put(acc, last.0, last.1) else acc
  }

  /** The reference reading of a column: the value of the last record of
      date `d` whose slot is truthy. */
  function LastTruthy(column: Column, d: string): (r: Option<Val>)
    ensures r.Some? ==> Truthy(r.value) && (d, r.value) in column
    ensures r.None? <==> forall i :: 0 <= i < |column| && column[i].0 == d ==> !Truthy(column[i].1)
  {
    if |column| == 0 then None
    else
      var last := column[|column| - 1];
      var init := column[..|column| - 1];
      assert column == init + [last];
      if last.0 == d && Truthy(last.1) then Some(last.1)
      else
        var r := LastTruthy(init, d);
        assert r.None? ==> forall i :: 0 <= i < |column| && column[i].0 == d ==> !Truthy(column[i].1) by {
          if r.None? {
            forall i | 0 <= i < |column| && column[i].0 == d ensures !Truthy(column[i].1) {
              if i < |init| { assert column[i] == init[i]; }
            }
          }
        }
        r
  }

  /** The overlay holds, for every date, the last truthy value recorded for
      it, and otherwise what the seed held. */
  lemma {:induction false} OverlayGet(start: Obj<Val>, column: Column, d: string)
    ensures Get(Overlay(start, column), d) ==
            if LastTruthy(column, d).Some? then LastTruthy(column, d) else Get(start, d)
  {
    if |column| > 0 {
      OverlayGet(start, column[..|column| - 1], d);
    }
  }

  /** Falsy slots are never copied: every value in the map is the seed's
      or a truthy value some record holds for that very date. */
  lemma OverlayValues(start: Obj<Val>, column: Column, d: string, v: Val)
    requires Get(Overlay(start, column), d) == Some(v)
    ensures Get(start, d) == Some(v) || (Truthy(v) && (d, v) in column)
  {
    OverlayGet(start, column, d);
  }

  /** A date that no record carries keeps the seed's value. */
  lemma OverlayUntouched(start: Obj<Val>, column: Column, d: string)
    requires forall i :: 0 <= i < |column| ==> column[i].0 != d
    ensures Get(Overlay(start, column), d) == Get(start, d)
  {
    OverlayGet(start, column, d);
  }

  /** The column of one slot across the history: each record's date with
      the slot's value in that record. */
  function ColumnOf<E>(history: seq<EvaluationRecord>, section: EvaluationRecord -> Section<E>,
                       bodyPart: string, key: string, slot: E -> Val): (r: Column)
    ensures |r| == |history|
    ensures forall i :: 0 <= i < |history| ==> r[i].0 == history[i].evaluationDate
  {
    seq(|history|, i requires 0 <= i < |history| =>
      (history[i].evaluationDate,
       match Lookup(section(history[i]), bodyPart, key)
       case None => Absent
       case Some(e) => slot(e)))
  }

  /** `historicalValues` of a finding: seeded with the current value and
      overlaid with the history's column. */
  function HistoricalValues(currentDate: Option<string>, value: Val, column: Column): (r: Obj<Val>)
    ensures IsSet(currentDate) && LastTruthy(column, currentDate.value).None? ==>
              Get(r, currentDate.value) == Some(value)
  {
    OverlayGet(Seed(currentDate, value), column, if IsSet(currentDate) then currentDate.value else "");
    Overlay(Seed(currentDate, value), column)
  }
}

=== FILE: jsobject.dfy ===
/** JavaScript plain objects as insertion-ordered association lists. The
    summary tables are built by assigning `acc[key] = ...`, and the order in
    which keys were first assigned is the order in which rows are rendered. */
module JsObject {
  import opened Wrappers

  /** An object: its entries in insertion order. */
  type Obj<V> = seq<(string, V)>

  /** `Object.keys(m)`. */
  function Keys<V>(m: Obj<V>): (r: seq<string>)
    ensures |r| == |m|
  {
    if |m| == 0 then [] else [m[0].0] + Keys(m[1..])
  }

  /** `Object.values(m)`. */
  function Values<V>(m: Obj<V>): (r: seq<V>)
    ensures |r| == |m|
  {
    if |m| == 0 then [] else [m[0].1] + Values(m[1..])
  }

  /** `m[k]`, `None` when the key is missing. */
  function Get<V>(m: Obj<V>, k: string): Option<V> {
    if |m| == 0 then None
    else if m[0].0 == k then Some(m[0].1)
    else Get(m[1..], k)
  }

  /** `m[k] ?? fallback`. */
  function GetOr<V>(m: Obj<V>, k: string, fallback: V): V {
    Get(m, k).GetOr(fallback)
  }

  /** No key occurs twice, as in every JavaScript object. */
  predicate DistinctKeys<V>(m: Obj<V>) {
    forall i, j :: 0 <= i < j < |m| ==> m[i].0 != m[j].0
  }

  lemma {:induction false} GetSomeIffKey<V>(m: Obj<V>, k: string)
    ensures Get(m, k).Some? <==> k in Keys(m)
  {
    if |m| > 0 {
      GetSomeIffKey(m[1..], k);
    }
  }

  /** `m[k] = v`: an existing key keeps its position and gets the new value;
      a new key is appended. */
  function Put<V>(m: Obj<V>, k: string, v: V): (r: Obj<V>)
    ensures Get(r, k) == Some(v)
    ensures forall k' :: k' != k ==> Get(r, k') == Get(m, k')
    ensures Keys(r) == if k in Keys(m) then Keys(m) else Keys(m) + [k]
  {
    if |m| == 0 then [(k, v)]
    else if m[0].0 == k then [(k, v)] + m[1..]
    else [m[0]] + Put(m[1..], k, v)
  }

  /** Keys stay distinct when values are assigned. */
  lemma {:induction false} PutKeepsDistinct<V>(m: Obj<V>, k: string, v: V)
    requires DistinctKeys(m)
    ensures DistinctKeys(Put(m, k, v))
  {
    var r := Put(m, k, v);
    KeysIndex(m);
    KeysIndex(r);
    forall i, j | 0 <= i < j < |r| ensures r[i].0 != r[j].0 {
      assert Keys(r)[i] == r[i].0 && Keys(r)[j] == r[j].0;
      if k in Keys(m) {
        assert Keys(r) == Keys(m);
        assert Keys(m)[i] == m[i].0 && Keys(m)[j] == m[j].0;
      } else {
        assert Keys(r) == Keys(m) + [k];
        if j < |m| {
          assert Keys(m)[i] == m[i].0 && Keys(m)[j] == m[j].0;
        } else {
          assert Keys(r)[j] == k;
          assert Keys(r)[i] == Keys(m)[i];
        }
      }
    }
  }

  lemma {:induction false} KeysIndex<V>(m: Obj<V>)
    ensures forall i :: 0 <= i < |m| ==> Keys(m)[i] == m[i].0
  {
    if |m| > 0 {
      KeysIndex(m[1..]);
    }
  }

  /** With distinct keys, every entry is what its key reads. */
  lemma {:induction false} GetDistinct<V>(m: Obj<V>, i: nat)
    requires DistinctKeys(m) && i < |m|
    ensures Get(m, m[i].0) == Some(m[i].1)
  {
    if i > 0 {
      assert m[1..][i - 1] == m[i];
      GetDistinct(m[1..], i - 1);
    }
  }
  /** Every entry after `m[k] = v` was already there or is the new one. */
  lemma {:induction false} PutEntries<V>(m: Obj<V>, k: string, v: V)
    ensures forall e :: e in Put(m, k, v) ==> e in m || e == (k, v)
  {
    if |m| > 0 {
      assert m == [m[0]] + m[1..];
      if m[0].0 != k {
        PutEntries(m[1..], k, v);
      }
    }
  }

  /** Assigning a key the object does not have appends it. */
  lemma {:induction false} PutNewKey<V>(m: Obj<V>, k: string, v: V)
    requires k !in Keys(m)
    ensures Put(m, k, v) == m + [(k, v)]
  {
    if |m| > 0 {
      assert Keys(m) == [m[0].0] + Keys(m[1..]);
      PutNewKey(m[1..], k, v);
      assert m == [m[0]] + m[1..];
    }
  }
}

=== FILE: local_db.dfy ===
/** The pure parts of the browser-local store (src/lib/db.ts): the patient
    search, the newest-first listing of a patient's evaluations, and the
    record `saveFormData` builds before it writes an evaluation. The object
    stores themselves are inputs: `getAll()` results are passed in. */
module LocalDb {
  import opened Wrappers
  import opened Values
  import opened Strings
  import opened JsObject
  import opened Seqs
  import opened Ordering
  import opened Evaluation

  // ---------------------------------------------------------------------------
  // searchPatients (src/lib/db.ts:118-146)
  // ---------------------------------------------------------------------------

  /** A row of the `patients` store. */
  datatype PatientRecord = PatientRecord(id: string, firstName: string, lastName: string, dateOfBirth: string)

  /** One name criterion, already normalised: empty matches every name,
      otherwise it must occur in the normalised stored name. */
  predicate NameMatches(stored: string, criterion: string) {
    criterion == "" || Contains(LowerTrim(stored), criterion)
  }

  /** The condition under which a stored patient is put in the result map. */
  predicate Matches(p: PatientRecord, firstName: string, lastName: string, dateOfBirth: string) {
    NameMatches(p.firstName, LowerTrim(firstName)) &&
    NameMatches(p.lastName, LowerTrim(lastName)) &&
    (dateOfBirth == "" || p.dateOfBirth == dateOfBirth)
  }

  function Criteria(firstName: string, lastName: string, dateOfBirth: string): PatientRecord -> bool {
    p => Matches(p, firstName, lastName, dateOfBirth)
  }

  /** The `Map` keyed by patient id that `patientMap.set(patient.id, patient)`
      builds over the patients `keep` accepts, in store order. */
  function CollectById(patients: seq<PatientRecord>, keep: PatientRecord -> bool): (m: Obj<PatientRecord>)
    ensures DistinctKeys(m)
  {
    if |patients| == 0 then []
    else
      var acc := CollectById(patients[..|patients| - 1], keep);
      var last := patients[|patients| - 1];
      if keep(last) then
        PutKeepsDistinct(acc, last.id, last);
        Put(acc, last.id, last)
      else acc
  }

  /** Every entry of the map is an accepted stored patient under its own id. */
  lemma {:induction false} CollectSound(patients: seq<PatientRecord>, keep: PatientRecord -> bool)
    ensures forall i :: 0 <= i < |CollectById(patients, keep)| ==>
      CollectById(patients, keep)[i].0 == CollectById(patients, keep)[i].1.id &&
      CollectById(patients, keep)[i].1 in patients && keep(CollectById(patients, keep)[i].1)
  {
    if |patients| > 0 {
      var init := patients[..|patients| - 1];
      var last := patients[|patients| - 1];
      CollectSound(init, keep);
      var acc := CollectById(init, keep);
      if keep(last) {
        PutEntries(acc, last.id, last);
        var m := Put(acc, last.id, last);
        assert m == CollectById(patients, keep);
        forall i | 0 <= i < |m| ensures m[i].0 == m[i].1.id && m[i].1 in patients && keep(m[i].1) {
          assert m[i] in m;
          if m[i] != (last.id, last) {
            var j :| 0 <= j < |acc| && acc[j] == m[i];
            var p := acc[j].1;
            assert p in init;
            var k :| 0 <= k < |init| && init[k] == p;
            assert patients[k] == p;
          } else {
            assert patients[|patients| - 1] == last;
          }
        }
      } else {
        forall i | 0 <= i < |acc| ensures acc[i].1 in patients {
          var k :| 0 <= k < |init| && init[k] == acc[i].1;
          assert patients[k] == init[k];
        }
      }
    }
  }

  /** Every accepted stored patient's id is a key of the map. */
  lemma {:induction false} CollectComplete(patients: seq<PatientRecord>, keep: PatientRecord -> bool, p: PatientRecord)
    requires p in patients && keep(p)
    ensures p.id in Keys(CollectById(patients, keep))
  {
    var init := patients[..|patients| - 1];
    var last := patients[|patients| - 1];
    assert patients == init + [last];
    if p != last {
      CollectComplete(init, keep, p);
    }
  }

  /** `searchPatients(firstName, lastName, dateOfBirth)` over the stored
      patients. With no criterion at all the store comes back as it is;
      otherwise the matching patients, each id once. */
  function SearchPatients(patients: seq<PatientRecord>, firstName: string, lastName: string,
                          dateOfBirth: string): (r: seq<PatientRecord>)
    ensures firstName == "" && lastName == "" && dateOfBirth == "" ==> r == patients
    ensures !(firstName == "" && lastName == "" && dateOfBirth == "") ==>
      (forall i :: 0 <= i < |r| ==> r[i] in patients && Matches(r[i], firstName, lastName, dateOfBirth)) &&
      (forall i, j :: 0 <= i < j < |r| ==> r[i].id != r[j].id) &&
      (forall p :: p in patients && Matches(p, firstName, lastName, dateOfBirth) ==>
        exists i :: 0 <= i < |r| && r[i].id == p.id)
  {
    if firstName == "" && lastName == "" && dateOfBirth == "" then patients
    else
      var r := Found(patients, firstName, lastName, dateOfBirth);
      SearchFacts(patients, firstName, lastName, dateOfBirth, r);
      r
  }

  /** The patients held by a map, in its order: `Array.from(map.values())`. */
  function Records(m: Obj<PatientRecord>): (r: seq<PatientRecord>)
    ensures |r| == |m| && forall i :: 0 <= i < |m| ==> r[i] == m[i].1
  {
    seq(|m|, i requires 0 <= i < |m| => m[i].1)
  }

  /** The search result when some criterion is given. */
  function Found(patients: seq<PatientRecord>, firstName: string, lastName: string, dateOfBirth: string): seq<PatientRecord> {
    Records(CollectById(patients, Criteria(firstName, lastName, dateOfBirth)))
  }

  lemma SearchFacts(patients: seq<PatientRecord>, firstName: string, lastName: string, dateOfBirth: string,
                    r: seq<PatientRecord>)
    requires r == Found(patients, firstName, lastName, dateOfBirth)
    ensures forall i :: 0 <= i < |r| ==> r[i] in patients && Matches(r[i], firstName, lastName, dateOfBirth)
    ensures forall i, j :: 0 <= i < j < |r| ==> r[i].id != r[j].id
    ensures forall p :: p in patients && Matches(p, firstName, lastName, dateOfBirth) ==>
      exists i :: 0 <= i < |r| && r[i].id == p.id
  {
    CollectFacts(patients, Criteria(firstName, lastName, dateOfBirth), r);
  }

  /** What the collected map's values are, for any acceptance test. */
  lemma CollectFacts(patients: seq<PatientRecord>, keep: PatientRecord -> bool, r: seq<PatientRecord>)
    requires r == Records(CollectById(patients, keep))
    ensures forall i :: 0 <= i < |r| ==> r[i] in patients && keep(r[i])
    ensures forall i, j :: 0 <= i < j < |r| ==> r[i].id != r[j].id
    ensures forall p :: p in patients && keep(p) ==> exists i :: 0 <= i < |r| && r[i].id == p.id
  {
    var m := CollectById(patients, keep);
    CollectSound(patients, keep);
    RecordsSound(m, patients, keep, r);
    KeysIndex(m);
    forall p | p in patients && keep(p) ensures exists i :: 0 <= i < |r| && r[i].id == p.id {
      CollectComplete(patients, keep, p);
      var i :| 0 <= i < |Keys(m)| && Keys(m)[i] == p.id;
      assert r[i].id == p.id;
    }
  }

  lemma RecordsSound(m: Obj<PatientRecord>, patients: seq<PatientRecord>, keep: PatientRecord -> bool,
                     r: seq<PatientRecord>)
    requires r == Records(m) && DistinctKeys(m)
    requires forall i :: 0 <= i < |m| ==> m[i].0 == m[i].1.id && m[i].1 in patients && keep(m[i].1)
    ensures forall i :: 0 <= i < |r| ==> r[i] in patients && keep(r[i])
    ensures forall i, j :: 0 <= i < j < |r| ==> r[i].id != r[j].id
  {
  }

  /** Each patient under its own id, in order. */
  function ById(patients: seq<PatientRecord>): (m: Obj<PatientRecord>)
    ensures |m| == |patients| && forall i :: 0 <= i < |m| ==> m[i] == (patients[i].id, patients[i])
  {
    seq(|patients|, i requires 0 <= i < |patients| => (patients[i].id, patients[i]))
  }

  lemma FreshId(patients: seq<PatientRecord>, id: string)
    requires forall k :: 0 <= k < |patients| ==> patients[k].id != id
    ensures id !in Keys(ById(patients))
  {
    KeysIndex(ById(patients));
  }

  lemma ByIdAppend(init: seq<PatientRecord>, last: PatientRecord)
    ensures ById(init + [last]) == ById(init) + [(last.id, last)]
  {
  }

  /** On patients with distinct ids that all pass, the map holds each of
      them under its id, in order. */
  lemma {:induction false} CollectAllKept(patients: seq<PatientRecord>, keep: PatientRecord -> bool)
    requires forall i :: 0 <= i < |patients| ==> keep(patients[i])
    requires forall i, j :: 0 <= i < j < |patients| ==> patients[i].id != patients[j].id
    ensures CollectById(patients, keep) == ById(patients)
  {
    if |patients| > 0 {
      var init := patients[..|patients| - 1];
      var last := patients[|patients| - 1];
      assert patients == init + [last];
      forall i | 0 <= i < |init| ensures keep(init[i]) && init[i].id != last.id {
        assert init[i] == patients[i];
      }
      forall i, j | 0 <= i < j < |init| ensures init[i].id != init[j].id {
        assert init[i] == patients[i] && init[j] == patients[j];
      }
      CollectAllKept(init, keep);
      CollectLast(patients, keep);
      FreshId(init, last.id);
      PutNewKey(ById(init), last.id, last);
      ByIdAppend(init, last);
    }
  }

  /** The map after the last patient, when that patient is accepted. */
  lemma CollectLast(patients: seq<PatientRecord>, keep: PatientRecord -> bool)
    requires |patients| > 0 && keep(patients[|patients| - 1])
    ensures CollectById(patients, keep) ==
      Put(CollectById(patients[..|patients| - 1], keep), patients[|patients| - 1].id, patients[|patients| - 1])
  {
  }

  /** Searching the results again with the same criteria returns them
      unchanged. */
  lemma SearchIdempotent(patients: seq<PatientRecord>, firstName: string, lastName: string, dateOfBirth: string)
    ensures SearchPatients(SearchPatients(patients, firstName, lastName, dateOfBirth), firstName, lastName, dateOfBirth) ==
            SearchPatients(patients, firstName, lastName, dateOfBirth)
  {
    if !(firstName == "" && lastName == "" && dateOfBirth == "") {
      CollectIdempotent(patients, Criteria(firstName, lastName, dateOfBirth));
    }
  }

  lemma CollectIdempotent(patients: seq<PatientRecord>, keep: PatientRecord -> bool)
    ensures Records(CollectById(Records(CollectById(patients, keep)), keep)) == Records(CollectById(patients, keep))
  {
    var r := Records(CollectById(patients, keep));
    CollectFacts(patients, keep, r);
    CollectAllKept(r, keep);
    assert Records(ById(r)) == r;
  }

  // ---------------------------------------------------------------------------
  // getPatientEvaluations (src/lib/db.ts:155-171)
  // ---------------------------------------------------------------------------

  function OfPatient(patientId: string): SavedEvaluation -> bool {
    (e: SavedEvaluation) => e.patientId == patientId
  }

  /** The sort key: the record's date as an ISO string. */
  function EvaluationDate(e: SavedEvaluation): string {
    TextOr(e.evaluationDate)
  }

  /** `getPatientEvaluations(patientId)`: the patient's records from the
      `patientId` index, newest first. */
  function GetPatientEvaluations(stored: seq<SavedEvaluation>, patientId: string): (r: seq<SavedEvaluation>)
    ensures forall e :: e in r <==> e in stored && e.patientId == patientId
    ensures multiset(r) == multiset(Filter(stored, OfPatient(patientId)))
    ensures forall i, j :: 0 <= i < j < |r| ==> !LexLess(EvaluationDate(r[i]), EvaluationDate(r[j]))
  {
    var own := Filter(stored, OfPatient(patientId));
    SortedMembers(own, OfPatient(patientId), stored);
    SortBy(own, EvaluationDate, true)
  }

  lemma SortedMembers(own: seq<SavedEvaluation>, keep: SavedEvaluation -> bool, stored: seq<SavedEvaluation>)
    requires forall e :: e in own <==> e in stored && keep(e)
    ensures forall e :: e in SortBy(own, EvaluationDate, true) <==> e in stored && keep(e)
  {
    var r := SortBy(own, EvaluationDate, true);
    assert forall e :: e in r <==> e in multiset(r);
  }

  /** Evaluations of the same date are listed in the order they were
      stored: the sort is stable. */
  lemma SameDateStoredOrder(stored: seq<SavedEvaluation>, patientId: string, k: string)
    ensures Filter(GetPatientEvaluations(stored, patientId), HasKey(EvaluationDate, k)) ==
      Filter(Filter(stored, OfPatient(patientId)), HasKey(EvaluationDate, k))
  {
  }

  /** The first record listed is the patient's most recent one. */
  lemma NewestFirst(stored: seq<SavedEvaluation>, patientId: string)
    requires GetPatientEvaluations(stored, patientId) != []
    ensures forall e :: e in stored && e.patientId == patientId ==>
      LexLe(EvaluationDate(e), EvaluationDate(GetPatientEvaluations(stored, patientId)[0]))
  {
    var r := GetPatientEvaluations(stored, patientId);
    forall e | e in stored && e.patientId == patientId
      ensures LexLe(EvaluationDate(e), EvaluationDate(r[0]))
    {
      var j :| 0 <= j < |r| && r[j] == e;
      LexLessTotal(EvaluationDate(e), EvaluationDate(r[0]));
      if j > 0 {
        assert !LexLess(EvaluationDate(r[0]), EvaluationDate(r[j]));
      }
    }
  }

  // ---------------------------------------------------------------------------
  // saveFormData's record (src/lib/db.ts:173-335)
  // ---------------------------------------------------------------------------

  /** How one field of the saved record is filled from the form's value:
      `given || fallback`, or `given !== false` for the summary switches that
      are on unless switched off. */
  datatype Rule = OrDefault(fallback: Val) | UnlessFalse

  const Blank: Rule := OrDefault(Str(""))
  const Off: Rule := OrDefault(Bool(false))

  function Apply(rule: Rule, given: Val): (r: Val)
    ensures rule.UnlessFalse? ==> r == Bool(given != Bool(false))
    ensures rule.OrDefault? ==> r == if Truthy(given) then given else rule.fallback
  {
    match rule
    case OrDefault(fallback) => Or(given, fallback)
    case UnlessFalse => Bool(given != Bool(false))
  }

  lemma ApplyTwice(rule: Rule, given: Val)
    ensures Apply(rule, Apply(rule, given)) == Apply(rule, given)
  {
  }

  /** An object literal `{ k: given?.k || fallback, ... }`: exactly the
      listed keys, in the listed order, whatever else `given` holds. */
  function Fill(given: Obj<Val>, rules: Obj<Rule>): (r: Obj<Val>)
    ensures |r| == |rules|
    ensures forall i :: 0 <= i < |r| ==> r[i] == (rules[i].0, Apply(rules[i].1, GetOr(given, rules[i].0, Absent)))
  {
    seq(|rules|, i requires 0 <= i < |rules| => (rules[i].0, Apply(rules[i].1, GetOr(given, rules[i].0, Absent))))
  }

  /** A filled object reads, at a listed key, the rule applied to the form's
      value, and has nothing at any other key. */
  lemma {:induction false} FillGet(given: Obj<Val>, rules: Obj<Rule>, k: string)
    ensures Get(Fill(given, rules), k) ==
      match Get(rules, k)
      case None => None
      case Some(rule) => Some(Apply(rule, GetOr(given, k, Absent)))
  {
    if |rules| > 0 {
      assert Fill(given, rules)[1..] == Fill(given, rules[1..]);
      FillGet(given, rules[1..], k);
    }
  }

  /** Filling a filled object again changes nothing. */
  lemma FillIdempotent(given: Obj<Val>, rules: Obj<Rule>)
    requires DistinctKeys(rules)
    ensures Fill(Fill(given, rules), rules) == Fill(given, rules)
  {
    var once := Fill(given, rules);
    forall i | 0 <= i < |rules|
      ensures Fill(once, rules)[i] == once[i]
    {
      FillGet(given, rules, rules[i].0);
      GetDistinct(rules, i);
      ApplyTwice(rules[i].1, GetOr(given, rules[i].0, Absent));
    }
  }

  /** Nested objects whose sections are filled by their own rules, as
      `observations` is: `{ posture: { assessment: ..., ... }, ... }`. */
  function FillSections(given: Obj<Obj<Val>>, layout: Obj<Obj<Rule>>): (r: Obj<Obj<Val>>)
    ensures |r| == |layout|
    ensures forall i :: 0 <= i < |r| ==> r[i] == (layout[i].0, Fill(GetOr(given, layout[i].0, []), layout[i].1))
  {
    seq(|layout|, i requires 0 <= i < |layout| => (layout[i].0, Fill(GetOr(given, layout[i].0, []), layout[i].1)))
  }

  /** No key repeats at either level. */
  predicate LayoutOk(layout: Obj<Obj<Rule>>) {
    DistinctKeys(layout) && forall i :: 0 <= i < |layout| ==> DistinctKeys(layout[i].1)
  }

  lemma {:induction false} FillSectionsGet(given: Obj<Obj<Val>>, layout: Obj<Obj<Rule>>, k: string)
    ensures Get(FillSections(given, layout), k) ==
      match Get(layout, k)
      case None => None
      case Some(rules) => Some(Fill(GetOr(given, k, []), rules))
  {
    if |layout| > 0 {
      assert FillSections(given, layout)[1..] == FillSections(given, layout[1..]);
      FillSectionsGet(given, layout[1..], k);
    }
  }

  lemma FillSectionsIdempotent(given: Obj<Obj<Val>>, layout: Obj<Obj<Rule>>)
    requires LayoutOk(layout)
    ensures FillSections(FillSections(given, layout), layout) == FillSections(given, layout)
  {
    var once := FillSections(given, layout);
    forall i | 0 <= i < |layout|
      ensures FillSections(once, layout)[i] == once[i]
    {
      FillSectionsGet(given, layout, layout[i].0);
      GetDistinct(layout, i);
      FillIdempotent(GetOr(given, layout[i].0, []), layout[i].1);
    }
  }

  /** One level deeper, as `functionalTesting` is: groups of tests, each
      test an object of its own fields. */
  function FillGroups(given: Obj<Obj<Obj<Val>>>, groups: Obj<Obj<Obj<Rule>>>): (r: Obj<Obj<Obj<Val>>>)
    ensures |r| == |groups|
    ensures forall i :: 0 <= i < |r| ==> r[i] == (groups[i].0, FillSections(GetOr(given, groups[i].0, []), groups[i].1))
  {
    seq(|groups|, i requires 0 <= i < |groups| => (groups[i].0, FillSections(GetOr(given, groups[i].0, []), groups[i].1)))
  }

  predicate GroupsOk(groups: Obj<Obj<Obj<Rule>>>) {
    DistinctKeys(groups) && forall i :: 0 <= i < |groups| ==> LayoutOk(groups[i].1)
  }

  lemma {:induction false} FillGroupsGet(given: Obj<Obj<Obj<Val>>>, groups: Obj<Obj<Obj<Rule>>>, k: string)
    ensures Get(FillGroups(given, groups), k) ==
      match Get(groups, k)
      case None => None
      case Some(layout) => Some(FillSections(GetOr(given, k, []), layout))
  {
    if |groups| > 0 {
      assert FillGroups(given, groups)[1..] == FillGroups(given, groups[1..]);
      FillGroupsGet(given, groups[1..], k);
    }
  }

  lemma FillGroupsIdempotent(given: Obj<Obj<Obj<Val>>>, groups: Obj<Obj<Obj<Rule>>>)
    requires GroupsOk(groups)
    ensures FillGroups(FillGroups(given, groups), groups) == FillGroups(given, groups)
  {
    var once := FillGroups(given, groups);
    forall i | 0 <= i < |groups|
      ensures FillGroups(once, groups)[i] == once[i]
    {
      FillGroupsGet(given, groups, groups[i].0);
      GetDistinct(groups, i);
      FillSectionsIdempotent(GetOr(given, groups[i].0, []), groups[i].1);
    }
  }

  /** The demographic strings, each `''` when missing (db.ts:215-229). */
  const DemographicRules: Obj<Rule> := [
    ("prefix", Blank), ("prefixOther", Blank), ("firstName", Blank), ("middleName", Blank),
    ("lastName", Blank), ("suffix", Blank), ("suffixOther", Blank), ("dateOfBirth", Blank),
    ("address", Blank), ("phone", Blank), ("email", Blank), ("photo", Blank),
    ("gender", Blank), ("preferredPronouns", Blank), ("bodyType", Blank)
  ]

  /** The scalar fields of each observation section (db.ts:234-265); the
      list-valued ones are kept apart, in `ObservationLists`. */
  const AssessmentRules: Obj<Rule> := [("assessment", Blank), ("notes", Blank), ("includeInSummary", Off)]
  const NotesRules: Obj<Rule> := [("notes", Blank), ("includeInSummary", Off)]
  const ObservationLayout: Obj<Obj<Rule>> := [
    ("posture", AssessmentRules), ("gait", AssessmentRules), ("skinIntegumentary", AssessmentRules),
    ("assistiveDevices", NotesRules), ("generalAppearance", NotesRules), ("bodyType", AssessmentRules)
  ]

  /** Every functional test keeps a result and notes (db.ts:267-291). */
  const TestRules: Obj<Rule> := [("result", Blank), ("notes", Blank)]
  const FunctionalLayout: Obj<Obj<Obj<Rule>>> := [
    ("upperQuarter", [("shoulderFlexion", TestRules), ("functionalReach", TestRules), ("ndi", TestRules),
                      ("dashQuickDash", TestRules), ("gripStrength", TestRules)]),
    ("lowerQuarter", [("singleLegStance", TestRules), ("functionalSquat", TestRules), ("stepDown", TestRules),
                      ("tug", TestRules), ("sixMinWalk", TestRules), ("starExcursion", TestRules)]),
    ("wholeBody", [("fms", TestRules), ("bergBalance", TestRules), ("adlAssessment", TestRules),
                   ("staticPosture", TestRules), ("gaitAnalysis", TestRules)])
  ]

  /** The summary switches: most are on unless explicitly `false`; the
      employer, the emergency contact and the narrative are off unless set
      (db.ts:296-308). */
  const InclusionRules: Obj<Rule> := [
    ("demographics", UnlessFalse), ("employer", Off), ("emergencyContact", Off),
    ("observations", UnlessFalse), ("problems", UnlessFalse), ("timeline", UnlessFalse),
    ("rangeOfMotion", UnlessFalse), ("specialTests", UnlessFalse), ("strengthTesting", UnlessFalse),
    ("functionalTesting", UnlessFalse), ("narrative", Off)
  ]

  /** The switches that default to on. */
  const DefaultOn: seq<string> := ["demographics", "observations", "problems", "timeline",
    "rangeOfMotion", "specialTests", "strengthTesting", "functionalTesting"]

  lemma DemographicRulesDistinct()
    ensures DistinctKeys(DemographicRules)
  {
  }

  lemma InclusionRulesDistinct()
    ensures DistinctKeys(InclusionRules)
  {
  }

  lemma ObservationLayoutOk()
    ensures LayoutOk(ObservationLayout)
  {
  }

  lemma FunctionalLayoutOk()
    ensures GroupsOk(FunctionalLayout)
  {
    assert LayoutOk(FunctionalLayout[0].1);
    assert LayoutOk(FunctionalLayout[1].1);
    assert LayoutOk(FunctionalLayout[2].1);
  }

  /** The form's demographics: its fields and its `sports` list. */
  datatype DemographicsInput = DemographicsInput(fields: Obj<Val>, sports: Option<seq<string>>)

  /** The three list-valued observation fields: the skin section's
      `wounds`, the assistive devices' `devices` and the general
      appearance's `assessment`. In the form each may be missing; in the
      saved record each is a list. */
  datatype ObservationLists<W, L> = ObservationLists(wounds: W, devices: L, appearance: L)

  /** The form data handed to `saveFormData`. An absent nested object is the
      empty object, which optional chaining reads the same way. */
  datatype SaveInput = SaveInput(
    id: Val,
    evaluationDate: Val,
    demographics: Option<DemographicsInput>,
    employmentStatus: Val,
    employer: Option<Obj<Val>>,
    emergencyContact: Option<Obj<Val>>,
    observations: Obj<Obj<Val>>,
    lists: ObservationLists<Option<seq<Obj<Val>>>, Option<seq<string>>>,
    functionalTesting: Obj<Obj<Obj<Val>>>,
    summaryInclusion: Obj<Val>,
    selectedParts: Option<seq<string>>,
    rangeOfMotion: Option<Section<RomEntry>>,
    specialTests: Option<Section<SpecialTestEntry>>,
    strengthTesting: Option<Section<StrengthEntry>>)

  /** The record written to the `evaluations` store. */
  datatype SavedEvaluation = SavedEvaluation(
    id: Val,
    patientId: string,
    evaluationDate: Val,
    demographics: Obj<Val>,
    sports: seq<string>,
    employmentStatus: Val,
    employer: Option<Obj<Val>>,
    emergencyContact: Option<Obj<Val>>,
    observations: Obj<Obj<Val>>,
    lists: ObservationLists<seq<Obj<Val>>, seq<string>>,
    functionalTesting: Obj<Obj<Obj<Val>>>,
    summaryInclusion: Obj<Val>,
    selectedParts: seq<string>,
    rangeOfMotion: Section<RomEntry>,
    specialTests: Section<SpecialTestEntry>,
    strengthTesting: Section<StrengthEntry>)

  /** The row added to the `patients` store when no patient id is given. */
  datatype NewPatient = NewPatient(id: string, firstName: Val, lastName: Val, dateOfBirth: Val)

  /** What `saveFormData` writes and returns. */
  datatype Saved = Saved(patientId: string, evalId: Val, newPatient: Option<NewPatient>, evaluation: SavedEvaluation)

  /** Reading `data.demographics.firstName` with no demographics throws. */
  datatype SaveError = MissingDemographics

  /** The evaluation record `saveFormData` writes for the patient
      `patientId`; `newEvaluationId` is the `uuidv4()` used when the form
      carries no id. */
  function SavedRecord(data: SaveInput, patientId: string, newEvaluationId: string): (e: SavedEvaluation)
    ensures e.patientId == patientId
    ensures Truthy(data.id) ==> e.id == data.id
    ensures !Truthy(data.id) ==> e.id == Str(newEvaluationId)
    ensures e.evaluationDate == data.evaluationDate
    ensures e.employer == data.employer && e.emergencyContact == data.emergencyContact
    ensures e.lists.wounds == (if data.lists.wounds.Some? then data.lists.wounds.value else [])
    ensures e.lists.devices == (if data.lists.devices.Some? then data.lists.devices.value else [])
    ensures e.lists.appearance == (if data.lists.appearance.Some? then data.lists.appearance.value else [])
    ensures e.selectedParts == (if data.selectedParts.Some? then data.selectedParts.value else [])
    ensures e.rangeOfMotion == (if data.rangeOfMotion.Some? then data.rangeOfMotion.value else [])
    ensures e.specialTests == (if data.specialTests.Some? then data.specialTests.value else [])
    ensures e.strengthTesting == (if data.strengthTesting.Some? then data.strengthTesting.value else [])
  {
    var given := if data.demographics.Some? then data.demographics.value else DemographicsInput([], None);
    SavedEvaluation(
      Or(data.id, Str(newEvaluationId)),
      patientId,
      data.evaluationDate,
      Fill(given.fields, DemographicRules),
      given.sports.GetOr([]),
      Or(data.employmentStatus, Str("")),
      data.employer,
      data.emergencyContact,
      FillSections(data.observations, ObservationLayout),
      ObservationLists(data.lists.wounds.GetOr([]), data.lists.devices.GetOr([]), data.lists.appearance.GetOr([])),
      FillGroups(data.functionalTesting, FunctionalLayout),
      Fill(data.summaryInclusion, InclusionRules),
      data.selectedParts.GetOr([]),
      data.rangeOfMotion.GetOr([]),
      data.specialTests.GetOr([]),
      data.strengthTesting.GetOr([]))
  }

  /** `saveFormData(data, existingPatientId)`; `""` stands for a null id and
      the two `uuidv4()` results are passed in. Without a patient id the
      patient is created from the form's demographics first, and reading
      them fails when the form has none. */
  function SaveFormData(data: SaveInput, existingPatientId: string, newPatientId: string,
                        newEvaluationId: string): (r: Result<Saved, SaveError>)
    ensures r.Failure? <==> existingPatientId == "" && data.demographics.None?
    ensures r.Success? ==>
      r.value.patientId == (if existingPatientId != "" then existingPatientId else newPatientId) &&
      (r.value.newPatient.Some? <==> existingPatientId == "") &&
      r.value.evaluation == SavedRecord(data, r.value.patientId, newEvaluationId) &&
      r.value.evalId == r.value.evaluation.id
  {
    if existingPatientId == "" && data.demographics.None? then Failure(MissingDemographics)
    else
      var newPatient :=
        if existingPatientId != "" then None
        else
          var d := data.demographics.value.fields;
          Some(NewPatient(newPatientId, GetOr(d, "firstName", Absent), GetOr(d, "lastName", Absent),
                          GetOr(d, "dateOfBirth", Absent)));
      var patientId := if existingPatientId != "" then existingPatientId else newPatientId;
      var evaluation := SavedRecord(data, patientId, newEvaluationId);
      Success(Saved(patientId, evaluation.id, newPatient, evaluation))
  }

  /** The saved summary switches: on unless the form says `false` for the
      default-on ones, the form's value or `false` for the employer, the
      emergency contact and the narrative, and no other key. */
  lemma SavedInclusion(data: SaveInput, patientId: string, newEvaluationId: string, k: string)
    ensures var inclusion := SavedRecord(data, patientId, newEvaluationId).summaryInclusion;
      var given := GetOr(data.summaryInclusion, k, Absent);
      (k in DefaultOn ==> Get(inclusion, k) == Some(Bool(given != Bool(false)))) &&
      (k in ["employer", "emergencyContact", "narrative"] ==> Get(inclusion, k) == Some(Or(given, Bool(false)))) &&
      (k !in Keys(InclusionRules) ==> Get(inclusion, k) == None)
  {
    FillGet(data.summaryInclusion, InclusionRules, k);
    GetSomeIffKey(InclusionRules, k);
    InclusionRuleOf(k);
  }

  lemma InclusionRuleOf(k: string)
    ensures k in DefaultOn ==> Get(InclusionRules, k) == Some(UnlessFalse)
    ensures k in ["employer", "emergencyContact", "narrative"] ==> Get(InclusionRules, k) == Some(Off)
  {
    InclusionRulesDistinct();
    if k in DefaultOn {
      var i :| 0 <= i < |DefaultOn| && DefaultOn[i] == k;
      var at: nat := [0, 3, 4, 5, 6, 7, 8, 9][i];
      assert InclusionRules[at] == (k, UnlessFalse);
      GetDistinct(InclusionRules, at);
    }
    var off := ["employer", "emergencyContact", "narrative"];
    if k in off {
      var i :| 0 <= i < |off| && off[i] == k;
      var at: nat := [1, 2, 10][i];
      assert InclusionRules[at] == (k, Off);
      GetDistinct(InclusionRules, at);
    }
  }

  /** Every listed demographic field is saved as the form's value or `''`;
      fields outside the list are not saved; the `sports` list is saved as
      given, or as `[]` when missing. */
  lemma SavedDemographics(data: SaveInput, patientId: string, newEvaluationId: string, k: string)
    ensures var saved := SavedRecord(data, patientId, newEvaluationId);
      var given := if data.demographics.Some? then GetOr(data.demographics.value.fields, k, Absent) else Absent;
      (k in Keys(DemographicRules) ==> Get(saved.demographics, k) == Some(if Truthy(given) then given else Str(""))) &&
      (k !in Keys(DemographicRules) ==> Get(saved.demographics, k) == None) &&
      (data.demographics.None? || data.demographics.value.sports.None? ==> saved.sports == []) &&
      (data.demographics.Some? && data.demographics.value.sports.Some? ==>
        saved.sports == data.demographics.value.sports.value)
  {
    var fields := if data.demographics.Some? then data.demographics.value.fields else [];
    DemographicRulesBlank();
    FillBlank(fields, DemographicRules, k);
  }

  lemma DemographicRulesBlank()
    ensures forall i :: 0 <= i < |DemographicRules| ==> DemographicRules[i].1 == Blank
  {
  }

  /** Filling with a table of `''` defaults: a listed key reads the form's
      value or `''`, any other key reads nothing. */
  lemma FillBlank(given: Obj<Val>, rules: Obj<Rule>, k: string)
    requires forall i :: 0 <= i < |rules| ==> rules[i].1 == Blank
    ensures k in Keys(rules) ==>
      Get(Fill(given, rules), k) == Some(if Truthy(GetOr(given, k, Absent)) then GetOr(given, k, Absent) else Str(""))
    ensures k !in Keys(rules) ==> Get(Fill(given, rules), k) == None
  {
    FillGet(given, rules, k);
    GetSomeIffKey(rules, k);
    if k in Keys(rules) {
      BlankRule(rules, k);
    }
  }

  /** In a table of `''` defaults, every listed key reads the `''` rule. */
  lemma {:induction false} BlankRule(rules: Obj<Rule>, k: string)
    requires forall i :: 0 <= i < |rules| ==> rules[i].1 == Blank
    requires k in Keys(rules)
    ensures Get(rules, k) == Some(Blank)
  {
    if rules[0].0 != k {
      assert Keys(rules) == [rules[0].0] + Keys(rules[1..]);
      BlankRule(rules[1..], k);
    }
  }

  /** A saved record read back as form data. */
  function AsInput(e: SavedEvaluation): SaveInput {
    SaveInput(e.id, e.evaluationDate, Some(DemographicsInput(e.demographics, Some(e.sports))),
              e.employmentStatus, e.employer, e.emergencyContact, e.observations,
              ObservationLists(Some(e.lists.wounds), Some(e.lists.devices), Some(e.lists.appearance)),
              e.functionalTesting, e.summaryInclusion, Some(e.selectedParts),
              Some(e.rangeOfMotion), Some(e.specialTests), Some(e.strengthTesting))
  }

  /** Saving a saved record again, under its own patient, writes the same
      record and creates no patient: the normalisation is idempotent. */
  lemma ResaveUnchanged(data: SaveInput, existingPatientId: string, newPatientId: string, newEvaluationId: string,
                        otherPatientId: string, otherEvaluationId: string)
    requires SaveFormData(data, existingPatientId, newPatientId, newEvaluationId).Success?
    requires existingPatientId != "" || newPatientId != ""
    requires newEvaluationId != ""
    ensures var saved := SaveFormData(data, existingPatientId, newPatientId, newEvaluationId).value;
      var again := SaveFormData(AsInput(saved.evaluation), saved.patientId, otherPatientId, otherEvaluationId);
      again.Success? && again.value.evaluation == saved.evaluation && again.value.newPatient.None?
  {
    var saved := SaveFormData(data, existingPatientId, newPatientId, newEvaluationId).value;
    ResaveRecord(data, saved.patientId, newEvaluationId, otherEvaluationId);
  }

  lemma ResaveRecord(data: SaveInput, patientId: string, newEvaluationId: string, otherEvaluationId: string)
    requires newEvaluationId != ""
    ensures var e := SavedRecord(data, patientId, newEvaluationId);
      SavedRecord(AsInput(e), patientId, otherEvaluationId) == e
  {
    var e := SavedRecord(data, patientId, newEvaluationId);
    var fields := if data.demographics.Some? then data.demographics.value.fields else [];
    DemographicRulesDistinct();
    InclusionRulesDistinct();
    ObservationLayoutOk();
    FunctionalLayoutOk();
    FillIdempotent(fields, DemographicRules);
    FillIdempotent(data.summaryInclusion, InclusionRules);
    FillSectionsIdempotent(data.observations, ObservationLayout);
    FillGroupsIdempotent(data.functionalTesting, FunctionalLayout);
    var again := SavedRecord(AsInput(e), patientId, otherEvaluationId);
    assert again.demographics == e.demographics;
    assert again.summaryInclusion == e.summaryInclusion;
    assert again.observations == e.observations;
    assert again.functionalTesting == e.functionalTesting;
  }
}

=== FILE: narrative.dfy ===
/** The narrative builders of the full narrative summary
    (src/components/FullNarrativeSummary.tsx): prose sections for range of
    motion, strength and special tests, assembled from the current
    evaluation's measured sections, and the full narrative they end. */
module Narrative {
  import opened Wrappers
  import opened Values
  import opened JsObject
  import opened Strings
  import opened Seqs
  import opened Evaluation
  import opened Extract
  import opened Cells
  import opened Summary

  // ---------------------------------------------------------------------------
  // The shape shared by the three measured sections
  // ---------------------------------------------------------------------------

  /** The phrases one entry contributes, from its key and its data. */
  type Items<!E> = (string, E) -> seq<string>

  /** `Object.entries(entries).forEach(...)` inside one body part: for each
      key whose phrase list is non-empty, the phrases joined by `', '`. */
  function KeyFindings<E(!new)>(entries: Obj<E>, items: Items<E>): (r: seq<string>)
    ensures |r| <= |entries|
    ensures forall x :: x in r <==>
      exists j :: 0 <= j < |entries| && items(entries[j].0, entries[j].1) != [] &&
        x == Join(items(entries[j].0, entries[j].1), ", ")
  {
    if |entries| == 0 then []
    else
      var rest := KeyFindings(entries[1..], items);
      assert forall x :: x in rest <==>
        exists j :: 1 <= j < |entries| && items(entries[j].0, entries[j].1) != [] &&
          x == Join(items(entries[j].0, entries[j].1), ", ") by {
        forall x | x in rest
          ensures exists j ::
                    1 <= j < |entries| && items(entries[j].0, entries[j].1) != [] &&
                    x == Join(items(entries[j].0, entries[j].1), ", ")
        {
          var j :| 0 <= j < |entries[1..]| && items(entries[1..][j].0, entries[1..][j].1) != [] &&
            x == Join(items(entries[1..][j].0, entries[1..][j].1), ", ");
          assert entries[1..][j] == entries[j + 1];
        }
        forall j | 1 <= j < |entries| && items(entries[j].0, entries[j].1) != []
          ensures Join(items(entries[j].0, entries[j].1), ", ") in rest
        {
          assert entries[1..][j - 1] == entries[j];
        }
      }
      var here := items(entries[0].0, entries[0].1);
      (if |here| > 0 then [Join(here, ", ")] else []) + rest
  }

  /** The sentence of one body part: `${bodyPartName}: ${findings.join('; ')}.` */
  function BodyPartSentence(bodyPart: string, findings: seq<string>): string {
    GetBodyPartName(bodyPart) + ": " + Join(findings, "; ") + "."
  }

  /** `Object.entries(section).forEach(...)`: one sentence per body part
      that has at least one finding. */
  function BodyPartFindings<E(!new)>(section: Section<E>, items: Items<E>): (r: seq<string>)
    ensures |r| <= |section|
    ensures forall x :: x in r <==>
      exists i :: 0 <= i < |section| && KeyFindings(section[i].1, items) != [] &&
        x == BodyPartSentence(section[i].0, KeyFindings(section[i].1, items))
  {
    if |section| == 0 then []
    else
      var rest := BodyPartFindings(section[1..], items);
      assert forall x :: x in rest <==>
        exists i :: 1 <= i < |section| && KeyFindings(section[i].1, items) != [] &&
          x == BodyPartSentence(section[i].0, KeyFindings(section[i].1, items)) by {
        forall x | x in rest
          ensures exists i ::
                    1 <= i < |section| && KeyFindings(section[i].1, items) != [] &&
                    x == BodyPartSentence(section[i].0, KeyFindings(section[i].1, items))
        {
          var i :| 0 <= i < |section[1..]| && KeyFindings(section[1..][i].1, items) != [] &&
            x == BodyPartSentence(section[1..][i].0, KeyFindings(section[1..][i].1, items));
          assert section[1..][i] == section[i + 1];
        }
        forall i | 1 <= i < |section| && KeyFindings(section[i].1, items) != []
          ensures BodyPartSentence(section[i].0, KeyFindings(section[i].1, items)) in rest
        {
          assert section[1..][i - 1] == section[i];
        }
      }
      var here := KeyFindings(section[0].1, items);
      (if |here| > 0 then [BodyPartSentence(section[0].0, here)] else []) + rest
  }

  /** What each key contributes, in key order: its joined phrases, or
      nothing when it has none. */
  function KeyPhrases<E>(entries: Obj<E>, items: Items<E>): (r: seq<seq<string>>)
    ensures |r| == |entries|
    ensures forall j :: 0 <= j < |entries| ==>
      r[j] == (if items(entries[j].0, entries[j].1) != [] then [Join(items(entries[j].0, entries[j].1), ", ")] else [])
  {
    seq(|entries|, j requires 0 <= j < |entries| =>
      if items(entries[j].0, entries[j].1) != [] then [Join(items(entries[j].0, entries[j].1), ", ")] else [])
  }

  /** The key findings keep the keys' order: one joined phrase list per key
      that has phrases, and nothing else. */
  lemma {:induction false} KeyFindingsOrder<E(!new)>(entries: Obj<E>, items: Items<E>)
    ensures KeyFindings(entries, items) == Flatten(KeyPhrases(entries, items))
  {
    if |entries| > 0 {
      KeyFindingsOrder(entries[1..], items);
      assert KeyPhrases(entries, items)[1..] == KeyPhrases(entries[1..], items);
    }
  }

  /** What each body part contributes, in body-part order: its sentence,
      or nothing when it has no finding. */
  function BodyPartSentences<E(!new)>(section: Section<E>, items: Items<E>): (r: seq<seq<string>>)
    ensures |r| == |section|
    ensures forall i :: 0 <= i < |section| ==>
      r[i] == (if KeyFindings(section[i].1, items) != [] then [BodyPartSentence(section[i].0, KeyFindings(section[i].1, items))] else [])
  {
    seq(|section|, i requires 0 <= i < |section| =>
      if KeyFindings(section[i].1, items) != [] then [BodyPartSentence(section[i].0, KeyFindings(section[i].1, items))] else [])
  }

  /** The sentences keep the body parts' order: one per body part that has
      findings, and nothing else. */
  lemma {:induction false} BodyPartFindingsOrder<E(!new)>(section: Section<E>, items: Items<E>)
    ensures BodyPartFindings(section, items) == Flatten(BodyPartSentences(section, items))
  {
    if |section| > 0 {
      BodyPartFindingsOrder(section[1..], items);
      assert BodyPartSentences(section, items)[1..] == BodyPartSentences(section[1..], items);
    }
  }

  /** A section of the narrative: `''` for an empty section or one without
      findings, otherwise the heading, the lead-in and the sentences joined
      by single spaces. */
  function SectionNarrative<E(!new)>(section: Section<E>, heading: string, lead: string, items: Items<E>): string {
    if |section| == 0 then ""
    else
      var findings := BodyPartFindings(section, items);
      if |findings| == 0 then "" else heading + lead + Join(findings, " ")
  }

  /** A key contributes a finding exactly when it has a phrase. */
  lemma KeyFindingsEmpty<E(!new)>(entries: Obj<E>, items: Items<E>)
    ensures KeyFindings(entries, items) == [] <==>
      forall j :: 0 <= j < |entries| ==> items(entries[j].0, entries[j].1) == []
  {
    var r := KeyFindings(entries, items);
    if r != [] {
      assert r[0] in r;
    }
  }

  /** A section's text is empty exactly when no entry of any body part has
      a phrase. */
  lemma {:induction false} SectionEmpty<E(!new)>(section: Section<E>, heading: string, lead: string, items: Items<E>)
    requires heading != ""
    ensures SectionNarrative(section, heading, lead, items) == "" <==>
      forall i, j :: 0 <= i < |section| && 0 <= j < |section[i].1| ==>
        items(section[i].1[j].0, section[i].1[j].1) == []
  {
    var findings := BodyPartFindings(section, items);
    if findings != [] {
      assert findings[0] in findings;
      var i :| 0 <= i < |section| && KeyFindings(section[i].1, items) != [] &&
        findings[0] == BodyPartSentence(section[i].0, KeyFindings(section[i].1, items));
      KeyFindingsEmpty(section[i].1, items);
      assert |heading + lead + Join(findings, " ")| > 0;
    } else {
      forall i, j | 0 <= i < |section| && 0 <= j < |section[i].1|
        ensures items(section[i].1[j].0, section[i].1[j].1) == []
      {
        KeyFindingsEmpty(section[i].1, items);
        SentenceListed(section, items, i);
      }
    }
  }

  /** A body part with a finding puts a sentence in the section. */
  lemma SentenceListed<E(!new)>(section: Section<E>, items: Items<E>, i: nat)
    requires i < |section|
    ensures KeyFindings(section[i].1, items) != [] ==> BodyPartFindings(section, items) != []
  {
    if KeyFindings(section[i].1, items) != [] {
      assert BodyPartSentence(section[i].0, KeyFindings(section[i].1, items)) in BodyPartFindings(section, items);
    }
  }

  /** Every phrase of every entry appears in the section's text. */
  lemma SectionMentions<E(!new)>(section: Section<E>, heading: string, lead: string, items: Items<E>,
                                 i: nat, j: nat, x: string)
    requires i < |section| && j < |section[i].1|
    requires x in items(section[i].1[j].0, section[i].1[j].1)
    ensures Contains(SectionNarrative(section, heading, lead, items), x)
  {
    var phrases := items(section[i].1[j].0, section[i].1[j].1);
    var keyText := Join(phrases, ", ");
    var keys := KeyFindings(section[i].1, items);
    assert keyText in keys;
    var sentence := BodyPartSentence(section[i].0, keys);
    var findings := BodyPartFindings(section, items);
    assert sentence in findings;
    var all := Join(findings, " ");
    JoinContains(phrases, ", ", x);
    JoinContains(keys, "; ", keyText);
    ContainsTrans(Join(keys, "; "), keyText, x);
    ContainsWrapped(GetBodyPartName(section[i].0) + ": ", Join(keys, "; "), ".");
    ContainsTrans(sentence, Join(keys, "; "), x);
    JoinContains(findings, " ", sentence);
    ContainsTrans(all, sentence, x);
    ContainsPrepend(heading + lead, all, x);
  }

  // ---------------------------------------------------------------------------
  // Range of motion (src/components/FullNarrativeSummary.tsx:273-321)
  // ---------------------------------------------------------------------------

  const RomHeading := "\n\n**Range of Motion Assessment:**\n\n"
  const RomLead := "Range of motion testing revealed the following: "

  /** The position of a slot in the order the narrative checks them. */
  function SlotRank(s: RomSlot): int {
    match s
    case LeftActive => 0
    case RightActive => 1
    case Active => 2
    case LeftPassive => 3
    case RightPassive => 4
    case Passive => 5
  }

  /** The slots of a motion the narrative mentions: every truthy one, once
      each, in the fixed order left active, right active, active, left
      passive, right passive, passive. */
  function RomMentioned(e: RomEntry): (r: seq<RomSlot>)
    ensures forall s :: s in r <==> Truthy(RomSlotValue(e, s))
  {
    RomSlotsRanked();
    Filter(RomSlots, (s: RomSlot) => Truthy(RomSlotValue(e, s)))
  }

  /** The mentioned slots keep the fixed order, each at most once. */
  lemma RomMentionedOrdered(e: RomEntry)
    ensures forall i, j :: 0 <= i < j < |RomMentioned(e)| ==> SlotRank(RomMentioned(e)[i]) < SlotRank(RomMentioned(e)[j])
  {
    RomSlotsRanked();
    FilterRanked(RomSlots, (s: RomSlot) => Truthy(RomSlotValue(e, s)), SlotRank);
  }

  /** The slot list holds every slot, in rank order. */
  lemma RomSlotsRanked()
    ensures forall s :: s in RomSlots
    ensures forall i, j :: 0 <= i < j < |RomSlots| ==> SlotRank(RomSlots[i]) < SlotRank(RomSlots[j])
  {
    forall s ensures s in RomSlots {
      assert RomSlots[SlotRank(s)] == s;
    }
  }

  /** Where a truthy slot sits among the mentioned ones. */
  lemma RomMentionedAt(e: RomEntry, s: RomSlot) returns (k: nat)
    requires Truthy(RomSlotValue(e, s))
    ensures k < |RomMentioned(e)| && RomMentioned(e)[k] == s
  {
    k := IndexOf(RomMentioned(e), s);
  }

  /** `left active ${motionName}: ${value}°` and its five siblings. */
  function RomPhrase(motionName: string, e: RomEntry, s: RomSlot): string {
    RomSide(s) + " " + motionName + ": " + Display(RomSlotValue(e, s)) + "°"
  }

  /** The phrases of one motion, the motion name humanised. */
  function RomItems(motion: string, e: RomEntry): (r: seq<string>)
    ensures |r| == |RomMentioned(e)|
    ensures forall k :: 0 <= k < |r| ==> r[k] == RomPhrase(Humanize(motion), e, RomMentioned(e)[k])
  {
    RomPhrases(Humanize(motion), e, RomMentioned(e))
  }

  function RomPhrases(motionName: string, e: RomEntry, slots: seq<RomSlot>): (r: seq<string>)
    ensures |r| == |slots|
    ensures forall k :: 0 <= k < |r| ==> r[k] == RomPhrase(motionName, e, slots[k])
  {
    seq(|slots|, k requires 0 <= k < |slots| => RomPhrase(motionName, e, slots[k]))
  }

  /** `generateROMNarrative()`. */
  function RomNarrative(rom: Section<RomEntry>): string {
    SectionNarrative(rom, RomHeading, RomLead, RomItems)
  }

  /** The range-of-motion section is empty exactly when no slot of any
      motion holds a truthy value. */
  lemma RomNarrativeEmpty(rom: Section<RomEntry>)
    ensures RomNarrative(rom) == "" <==>
      forall i, j, s :: 0 <= i < |rom| && 0 <= j < |rom[i].1| ==> !Truthy(RomSlotValue(rom[i].1[j].1, s))
  {
    SectionEmpty(rom, RomHeading, RomLead, RomItems);
    forall i, j | 0 <= i < |rom| && 0 <= j < |rom[i].1|
      ensures RomItems(rom[i].1[j].0, rom[i].1[j].1) == [] <==> forall s :: !Truthy(RomSlotValue(rom[i].1[j].1, s))
    {
      var m := RomMentioned(rom[i].1[j].1);
      if m != [] { assert m[0] in m; }
    }
  }

  /** Every truthy slot is reported, with its side, the humanised motion
      and the value in degrees. */
  lemma RomNarrativeMentions(rom: Section<RomEntry>, i: nat, j: nat, s: RomSlot)
    requires i < |rom| && j < |rom[i].1|
    requires Truthy(RomSlotValue(rom[i].1[j].1, s))
    ensures Contains(RomNarrative(rom), RomPhrase(Humanize(rom[i].1[j].0), rom[i].1[j].1, s))
  {
    var motion := rom[i].1[j].0;
    var e := rom[i].1[j].1;
    var k := RomMentionedAt(e, s);
    var phrase := RomPhrase(Humanize(motion), e, s);
    assert RomItems(motion, e)[k] == phrase;
    SectionMentions(rom, RomHeading, RomLead, RomItems, i, j, phrase);
  }

  // ---------------------------------------------------------------------------
  // Strength (src/components/FullNarrativeSummary.tsx:323-387)
  // ---------------------------------------------------------------------------

  const StrengthHeading := "\n\n**Strength Testing:**\n\n"
  const StrengthLead := "Manual muscle testing demonstrated: "

  /** The narrative's `formatStrengthValue(value, testType = 'manual')`. It
      has no `'-'` case: it prints whatever it is given followed by the unit,
      which for a truthy value is exactly the table's cell text. */
  function NarrativeStrengthValue(v: Val, testType: string): (r: string)
    ensures Truthy(v) ==> r == StrengthCellText(v, testType)
    ensures |r| > |Display(v)| && r[..|Display(v)|] == Display(v)
  {
    Display(v) + UnitSuffix(testType)
  }

  function SideRank(s: Side): int {
    match s
    case Left => 0
    case Right => 1
    case Unilateral => 2
  }

  /** The slots of a movement the narrative lists. Two truthy sides are
      listed only when they differ; a single truthy side is listed on its
      own; the unilateral value is listed whenever it is truthy. */
  function StrengthMentioned(e: StrengthEntry): (r: seq<Side>)
    ensures Left in r <==> Truthy(e.left) && !(Truthy(e.right) && e.left == e.right)
    ensures Right in r <==> Truthy(e.right) && !(Truthy(e.left) && e.left == e.right)
    ensures Unilateral in r <==> Truthy(e.value)
    ensures forall i, j :: 0 <= i < j < |r| ==> SideRank(r[i]) < SideRank(r[j])
  {
    var sides :=
      if Truthy(e.left) && Truthy(e.right) then
        (if e.left != e.right then [Left, Right] else [])
      else
        (if Truthy(e.left) then [Left] else []) + (if Truthy(e.right) then [Right] else []);
    sides + (if Truthy(e.value) then [Unilateral] else [])
  }

  /** `left ${movementName}: ...`, `right ...` and the unilateral `${movementName}: ...`. */
  function StrengthPhrase(movementName: string, e: StrengthEntry, s: Side): string {
    (if s == Unilateral then "" else SideLabel(s) + " ") + movementName + ": " +
      NarrativeStrengthValue(StrengthSlotValue(e, s), e.testType)
  }

  function StrengthItems(movement: string, e: StrengthEntry): (r: seq<string>)
    ensures |r| == |StrengthMentioned(e)|
    ensures forall k :: 0 <= k < |r| ==> r[k] == StrengthPhrase(Humanize(movement), e, StrengthMentioned(e)[k])
  {
    var m := StrengthMentioned(e);
    seq(|m|, k requires 0 <= k < |m| => StrengthPhrase(Humanize(movement), e, m[k]))
  }

  /** `generateStrengthNarrative()`. */
  function StrengthNarrative(strength: Section<StrengthEntry>): string {
    SectionNarrative(strength, StrengthHeading, StrengthLead, StrengthItems)
  }

  /** A movement says nothing exactly when its unilateral value is falsy
      and its sides are either both falsy or equal. */
  predicate StrengthSilent(e: StrengthEntry) {
    !Truthy(e.value) && (Truthy(e.left) == Truthy(e.right)) && (Truthy(e.left) ==> e.left == e.right)
  }

  /** The strength section is empty exactly when every movement is silent;
      in particular a section of equal bilateral grades reads as nothing. */
  lemma StrengthNarrativeEmpty(strength: Section<StrengthEntry>)
    ensures StrengthNarrative(strength) == "" <==>
      forall i, j :: 0 <= i < |strength| && 0 <= j < |strength[i].1| ==> StrengthSilent(strength[i].1[j].1)
  {
    SectionEmpty(strength, StrengthHeading, StrengthLead, StrengthItems);
    forall i, j | 0 <= i < |strength| && 0 <= j < |strength[i].1|
      ensures StrengthItems(strength[i].1[j].0, strength[i].1[j].1) == [] <==> StrengthSilent(strength[i].1[j].1)
    {
      var m := StrengthMentioned(strength[i].1[j].1);
      if m != [] { assert m[0] in m; }
    }
  }

  /** Every listed side appears in the text with the formatted value. */
  lemma StrengthNarrativeMentions(strength: Section<StrengthEntry>, i: nat, j: nat, s: Side)
    requires i < |strength| && j < |strength[i].1|
    requires s in StrengthMentioned(strength[i].1[j].1)
    ensures Contains(StrengthNarrative(strength), StrengthPhrase(Humanize(strength[i].1[j].0), strength[i].1[j].1, s))
  {
    var e := strength[i].1[j].1;
    var m := StrengthMentioned(e);
    var k :| 0 <= k < |m| && m[k] == s;
    assert StrengthItems(strength[i].1[j].0, e)[k] == StrengthPhrase(Humanize(strength[i].1[j].0), e, s);
    SectionMentions(strength, StrengthHeading, StrengthLead, StrengthItems, i, j,
                    StrengthPhrase(Humanize(strength[i].1[j].0), e, s));
  }

  // ---------------------------------------------------------------------------
  // Special tests (src/components/FullNarrativeSummary.tsx:389-430)
  // ---------------------------------------------------------------------------

  const SpecialHeading := "\n\n**Special Tests:**\n\n"
  const SpecialLead := "Special testing revealed: "

  /** `left ${testName}: ${left}`, `right ...` and `${testName}: ${result}`
      for the truthy slots, in that order; any truthy result is listed, not
      only a positive one. */
  function SpecialResults(testName: string, e: SpecialTestEntry): (r: seq<string>)
    ensures |r| <= 3
    ensures |r| == 0 <==> !Truthy(e.left) && !Truthy(e.right) && !Truthy(e.result)
    ensures Truthy(e.left) ==> "left " + testName + ": " + Display(e.left) in r
    ensures Truthy(e.right) ==> "right " + testName + ": " + Display(e.right) in r
    ensures Truthy(e.result) ==> testName + ": " + Display(e.result) in r
    ensures |r| == (if Truthy(e.left) then 1 else 0) + (if Truthy(e.right) then 1 else 0) +
                   (if Truthy(e.result) then 1 else 0)
    ensures Truthy(e.left) ==> r[0] == "left " + testName + ": " + Display(e.left)
    ensures Truthy(e.right) ==> r[if Truthy(e.left) then 1 else 0] == "right " + testName + ": " + Display(e.right)
    ensures Truthy(e.result) ==> r[|r| - 1] == testName + ": " + Display(e.result)
  {
    (if Truthy(e.left) then ["left " + testName + ": " + Display(e.left)] else []) +
    (if Truthy(e.right) then ["right " + testName + ": " + Display(e.right)] else []) +
    (if Truthy(e.result) then [testName + ": " + Display(e.result)] else [])
  }

  /** The notes rule: non-blank notes go, in parentheses, after the last
      result, or form an entry `name: notes` of their own when there is no
      result; blank notes change nothing. */
  function WithNotes(results: seq<string>, testName: string, notes: string): (r: seq<string>)
    ensures IsBlank(notes) ==> r == results
    ensures !IsBlank(notes) && |results| == 0 ==> r == [testName + ": " + notes]
    ensures !IsBlank(notes) && |results| > 0 ==>
      |r| == |results| && r[..|r| - 1] == results[..|results| - 1] &&
      StartsWith(r[|r| - 1], results[|results| - 1]) &&
      r[|r| - 1][|results[|results| - 1]|..] == " (" + notes + ")"
  {
    if notes == "" || IsBlank(notes) then results
    else if |results| > 0 then results[..|results| - 1] + [results[|results| - 1] + " (" + notes + ")"]
    else results + [testName + ": " + notes]
  }

  function SpecialItems(testId: string, e: SpecialTestEntry): (r: seq<string>) {
    WithNotes(SpecialResults(Humanize(testId), e), Humanize(testId), e.notes)
  }

  /** Non-blank notes attach to the test's own result when it has one, and
      otherwise to the last side that has a value. */
  lemma SpecialNotesPlacement(testId: string, e: SpecialTestEntry)
    requires !IsBlank(e.notes)
    ensures var name := Humanize(testId);
      var r := SpecialItems(testId, e);
      (Truthy(e.result) ==> r[|r| - 1] == name + ": " + Display(e.result) + " (" + e.notes + ")") &&
      (!Truthy(e.result) && Truthy(e.right) ==>
        r[|r| - 1] == "right " + name + ": " + Display(e.right) + " (" + e.notes + ")") &&
      (!Truthy(e.result) && !Truthy(e.right) && Truthy(e.left) ==>
        r == ["left " + name + ": " + Display(e.left) + " (" + e.notes + ")"]) &&
      (!Truthy(e.result) && !Truthy(e.right) && !Truthy(e.left) ==> r == [name + ": " + e.notes])
  {
    var name := Humanize(testId);
    var results := SpecialResults(name, e);
    var r := SpecialItems(testId, e);
    if |results| > 0 {
      assert r[|r| - 1] == results[|results| - 1] + " (" + e.notes + ")";
    }
  }

  /** A test says nothing exactly when it has no truthy slot and blank notes. */
  predicate SpecialSilent(e: SpecialTestEntry) {
    !Truthy(e.left) && !Truthy(e.right) && !Truthy(e.result) && IsBlank(e.notes)
  }

  /** The special-test section is empty exactly when every test is silent. */
  lemma SpecialNarrativeEmpty(special: Section<SpecialTestEntry>)
    ensures SectionNarrative(special, SpecialHeading, SpecialLead, SpecialItems) == "" <==>
      forall i, j :: 0 <= i < |special| && 0 <= j < |special[i].1| ==> SpecialSilent(special[i].1[j].1)
  {
    SectionEmpty(special, SpecialHeading, SpecialLead, SpecialItems);
  }

  /** Non-blank notes always reach the text. */
  lemma SpecialNotesMentioned(special: Section<SpecialTestEntry>, i: nat, j: nat)
    requires i < |special| && j < |special[i].1|
    requires !IsBlank(special[i].1[j].1.notes)
    ensures Contains(SectionNarrative(special, SpecialHeading, SpecialLead, SpecialItems), special[i].1[j].1.notes)
  {
    var testId := special[i].1[j].0;
    var e := special[i].1[j].1;
    var results := SpecialResults(Humanize(testId), e);
    var r := SpecialItems(testId, e);
    var x := r[|r| - 1];
    assert x in r;
    SectionMentions(special, SpecialHeading, SpecialLead, SpecialItems, i, j, x);
    if |results| > 0 {
      assert x == results[|results| - 1] + " (" + e.notes + ")";
      ContainsWrapped(results[|results| - 1] + " (", e.notes, ")");
    } else {
      ContainsSuffix(Humanize(testId) + ": ", e.notes);
    }
    ContainsTrans(SectionNarrative(special, SpecialHeading, SpecialLead, SpecialItems), x, e.notes);
  }

  /** `generateSpecialTestsNarrative()`. */
  function SpecialNarrative(special: Section<SpecialTestEntry>): string {
    SectionNarrative(special, SpecialHeading, SpecialLead, SpecialItems)
  }

  // ---------------------------------------------------------------------------
  // The full narrative (src/components/FullNarrativeSummary.tsx:434-443)
  // ---------------------------------------------------------------------------

  /** The narrative's `getPatientName()`: the summary's rule without the
      `Unknown Patient` fallback. */
  function NarrativePatientName(d: Demographics): (r: string)
    ensures r == SummaryPatientName(Some(d))
    ensures r == "" <==> forall i :: 0 <= i < 5 ==> NameParts(d)[i] == ""
  {
    PatientNameParts(d);
    PatientName(d)
  }

  /** `generateFullNarrative()`: the intro, timeline and observations
      paragraphs (inputs here) followed by the three measured sections. */
  function FullNarrative(intro: string, timeline: string, observations: string,
                         rom: Section<RomEntry>, strength: Section<StrengthEntry>,
                         special: Section<SpecialTestEntry>): (r: string)
    ensures StartsWith(r, intro + timeline + observations)
  {
    var head := intro + timeline + observations;
    var tail := RomNarrative(rom) + StrengthNarrative(strength) + SpecialNarrative(special);
    assert (head + tail)[..|head|] == head;
    head + tail
  }

  /** With nothing measured, the narrative is just its first three
      paragraphs; any truthy measurement lengthens it. */
  lemma FullNarrativeWithoutFindings(intro: string, timeline: string, observations: string,
                                     rom: Section<RomEntry>, strength: Section<StrengthEntry>,
                                     special: Section<SpecialTestEntry>)
    ensures (forall i, j, s :: 0 <= i < |rom| && 0 <= j < |rom[i].1| ==> !Truthy(RomSlotValue(rom[i].1[j].1, s))) &&
            (forall i, j :: 0 <= i < |strength| && 0 <= j < |strength[i].1| ==> StrengthSilent(strength[i].1[j].1)) &&
            (forall i, j :: 0 <= i < |special| && 0 <= j < |special[i].1| ==> SpecialSilent(special[i].1[j].1))
            <==>
            FullNarrative(intro, timeline, observations, rom, strength, special) == intro + timeline + observations
  {
    RomNarrativeEmpty(rom);
    StrengthNarrativeEmpty(strength);
    SpecialNarrativeEmpty(special);
    var r := FullNarrative(intro, timeline, observations, rom, strength, special);
    assert |r| == |intro + timeline + observations| + |RomNarrative(rom)| + |StrengthNarrative(strength)| + |SpecialNarrative(special)|;
  }
}

=== FILE: ordering.dfy ===
/** String order and the stable sort the source gets from `Array.prototype.sort`.
    Dates are ISO strings, so comparing them as strings (code unit by code
    unit) is the order the source relies on. */
module Ordering {
  import opened Seqs

  /** `a < b` on JavaScript strings: lexicographic, a proper prefix first. */
  predicate LexLess(a: string, b: string) {
    if |a| == 0 then |b| > 0
    else if |b| == 0 then false
    else if a[0] != b[0] then a[0] < b[0]
    else LexLess(a[1..], b[1..])
  }

  /** `a <= b` on JavaScript strings. */
  predicate LexLe(a: string, b: string) {
    a == b || LexLess(a, b)
  }

  lemma {:induction false} LexLessIrreflexive(a: string)
    ensures !LexLess(a, a)
  {
    if |a| > 0 {
      LexLessIrreflexive(a[1..]);
    }
  }

  lemma {:induction false} LexLessAsymmetric(a: string, b: string)
    ensures LexLess(a, b) ==> !LexLess(b, a)
  {
    if |a| > 0 && |b| > 0 && a[0] == b[0] {
      LexLessAsymmetric(a[1..], b[1..]);
    }
  }

  lemma {:induction false} LexLessTransitive(a: string, b: string, c: string)
    requires LexLess(a, b) && LexLess(b, c)
    ensures LexLess(a, c)
  {
    if |a| > 0 && |b| > 0 && |c| > 0 && a[0] == b[0] && b[0] == c[0] {
      LexLessTransitive(a[1..], b[1..], c[1..]);
    }
  }

  lemma {:induction false} LexLessTotal(a: string, b: string)
    ensures a == b || LexLess(a, b) || LexLess(b, a)
  {
    if |a| > 0 && |b| > 0 && a[0] == b[0] {
      LexLessTotal(a[1..], b[1..]);
      if a[1..] == b[1..] {
        assert a == [a[0]] + a[1..] && b == [b[0]] + b[1..];
      }
    }
  }

  /** The comparator of a sort: ascending, or descending when `desc` holds. */
  predicate Precedes(a: string, b: string, desc: bool) {
    if desc then LexLess(b, a) else LexLess(a, b)
  }

  lemma PrecedesFacts(a: string, b: string, c: string, desc: bool)
    ensures !Precedes(a, a, desc)
    ensures Precedes(a, b, desc) ==> !Precedes(b, a, desc)
    ensures a != b ==> Precedes(a, b, desc) || Precedes(b, a, desc)
    ensures Precedes(a, b, desc) && Precedes(b, c, desc) ==> Precedes(a, c, desc)
  {
    LexLessIrreflexive(a);
    LexLessAsymmetric(a, b);
    LexLessTotal(a, b);
    if Precedes(a, b, desc) && Precedes(b, c, desc) {
      if desc { LexLessTransitive(c, b, a); } else { LexLessTransitive(a, b, c); }
    }
  }

  /** No element is preceded by a later one. */
  predicate SortedBy<T>(s: seq<T>, key: T -> string, desc: bool) {
    forall i, j :: 0 <= i < j < |s| ==> !Precedes(key(s[j]), key(s[i]), desc)
  }

  /** Every element strictly precedes the next ones: sorted, no equal keys. */
  predicate StrictlySortedBy<T>(s: seq<T>, key: T -> string, desc: bool) {
    forall i, j :: 0 <= i < j < |s| ==> Precedes(key(s[i]), key(s[j]), desc)
  }

  /** Places `x` in front of the first element it strictly precedes, so it
      lands after every element with an equal key. */
  function InsertBy<T>(x: T, s: seq<T>, key: T -> string, desc: bool): (r: seq<T>)
    requires SortedBy(s, key, desc)
    ensures SortedBy(r, key, desc)
    ensures multiset(r) == multiset(s) + multiset{x}
    ensures |r| == |s| + 1
  {
    if |s| == 0 then [x]
    else if Precedes(key(x), key(s[0]), desc) then
      InsertFront(x, s, key, desc);
      [x] + s
    else
      var rest := InsertBy(x, s[1..], key, desc);
      InsertBehind(x, s, rest, key, desc);
      assert s == [s[0]] + s[1..];
      [s[0]] + rest
  }

  /** An element that precedes the head of a sorted sequence may go first. */
  lemma InsertFront<T>(x: T, s: seq<T>, key: T -> string, desc: bool)
    requires SortedBy(s, key, desc) && |s| > 0 && Precedes(key(x), key(s[0]), desc)
    ensures SortedBy([x] + s, key, desc)
  {
    forall j | 0 <= j < |s| ensures !Precedes(key(s[j]), key(x), desc) {
      PrecedesFacts(key(x), key(s[0]), key(s[j]), desc);
      PrecedesFacts(key(s[j]), key(x), key(s[0]), desc);
    }
  }

  /** The head stays first when `x` went into the tail behind it. */
  lemma InsertBehind<T>(x: T, s: seq<T>, rest: seq<T>, key: T -> string, desc: bool)
    requires SortedBy(s, key, desc) && |s| > 0 && !Precedes(key(x), key(s[0]), desc)
    requires SortedBy(rest, key, desc) && multiset(rest) == multiset(s[1..]) + multiset{x}
    ensures SortedBy([s[0]] + rest, key, desc)
  {
    forall j | 0 <= j < |rest| ensures !Precedes(key(rest[j]), key(s[0]), desc) {
      assert rest[j] in multiset(rest);
      assert rest[j] == x || rest[j] in multiset(s[1..]);
      if rest[j] != x {
        var k :| 0 <= k < |s[1..]| && s[1..][k] == rest[j];
        assert s[k + 1] == rest[j];
      }
    }
  }

  /** The test "has key `k`", for picking out the elements a sort must
      keep in their original order relative to each other. */
  function HasKey<T>(key: T -> string, k: string): T -> bool {
    (x: T) => key(x) == k
  }

  /** Inserting behind every element with an equal key: among the elements
      of any one key, `x` comes last, as if it had been appended. */
  lemma {:induction false} InsertByStable<T(!new)>(x: T, s: seq<T>, key: T -> string, desc: bool, k: string)
    requires SortedBy(s, key, desc)
    ensures Filter(InsertBy(x, s, key, desc), HasKey(key, k)) ==
      Filter(s, HasKey(key, k)) + (if key(x) == k then [x] else [])
  {
    if |s| == 0 {
      FilterHead(x, [], HasKey(key, k));
      assert [x] + [] == [x];
    } else if Precedes(key(x), key(s[0]), desc) {
      InsertFrontStable(x, s, key, desc, k);
    } else {
      InsertByStable(x, s[1..], key, desc, k);
      InsertBehindStable(x, s, key, desc, k);
    }
  }

  /** An element going in front of a sorted sequence precedes all of it, so
      no element of the sequence shares its key. */
  lemma InsertFrontStable<T(!new)>(x: T, s: seq<T>, key: T -> string, desc: bool, k: string)
    requires SortedBy(s, key, desc) && |s| > 0 && Precedes(key(x), key(s[0]), desc)
    ensures Filter([x] + s, HasKey(key, k)) == Filter(s, HasKey(key, k)) + (if key(x) == k then [x] else [])
  {
    var same := HasKey(key, k);
    FilterHead(x, s, same);
    if key(x) == k {
      forall j | 0 <= j < |s| ensures !same(s[j]) {
        PrecedesFacts(key(x), key(s[0]), key(s[0]), desc);
      }
      FilterNone(s, same);
    }
  }

  /** An element going behind the head of a sorted sequence: the head stays
      in front of whatever the tail filters to. */
  lemma InsertBehindStable<T(!new)>(x: T, s: seq<T>, key: T -> string, desc: bool, k: string)
    requires SortedBy(s, key, desc) && |s| > 0 && !Precedes(key(x), key(s[0]), desc)
    requires Filter(InsertBy(x, s[1..], key, desc), HasKey(key, k)) ==
      Filter(s[1..], HasKey(key, k)) + (if key(x) == k then [x] else [])
    ensures Filter(InsertBy(x, s, key, desc), HasKey(key, k)) ==
      Filter(s, HasKey(key, k)) + (if key(x) == k then [x] else [])
  {
    var same, last := HasKey(key, k), if key(x) == k then [x] else [];
    var rest := InsertBy(x, s[1..], key, desc);
    calc {
      Filter(InsertBy(x, s, key, desc), same);
    == { InsertByBehind(x, s, key, desc); }
      Filter([s[0]] + rest, same);
    == { HeadTail(s); FilterBehindHead(s[0], rest, s[1..], last, same); }
      Filter([s[0]] + s[1..], same) + last;
    == { HeadTail(s); }
      Filter(s, same) + last;
    }
  }

  /** An element that does not precede the head goes into the tail. */
  lemma InsertByBehind<T>(x: T, s: seq<T>, key: T -> string, desc: bool)
    requires SortedBy(s, key, desc) && |s| > 0 && !Precedes(key(x), key(s[0]), desc)
    ensures InsertBy(x, s, key, desc) == [s[0]] + InsertBy(x, s[1..], key, desc)
  {
  }

  /** Stable sort of `s` by `key`: the sort the source performs with a
      comparator that orders two records by their keys. Elements with equal
      keys keep the order they had in `s`. */
  function SortBy<T(!new)>(s: seq<T>, key: T -> string, desc: bool): (r: seq<T>)
    ensures SortedBy(r, key, desc)
    ensures multiset(r) == multiset(s)
    ensures |r| == |s|
    ensures forall k :: Filter(r, HasKey(key, k)) == Filter(s, HasKey(key, k))
  {
    if |s| == 0 then []
    else
      var init := s[..|s| - 1];
      var x := s[|s| - 1];
      assert s == init + [x];
      var sorted := SortBy(init, key, desc);
      assert forall k :: Filter(InsertBy(x, sorted, key, desc), HasKey(key, k)) == Filter(s, HasKey(key, k)) by {
        forall k ensures Filter(InsertBy(x, sorted, key, desc), HasKey(key, k)) == Filter(s, HasKey(key, k)) {
          InsertByStable(x, sorted, key, desc, k);
          FilterConcat(init, [x], HasKey(key, k));
          FilterHead(x, [], HasKey(key, k));
          assert [x] + [] == [x];
        }
      }
      InsertBy(x, sorted, key, desc)
  }

  /** With no two equal keys, the sorted sequence is strictly ordered. */
  lemma SortedDistinctIsStrict<T>(s: seq<T>, key: T -> string, desc: bool)
    requires SortedBy(s, key, desc)
    requires forall i, j :: 0 <= i < j < |s| ==> key(s[i]) != key(s[j])
    ensures StrictlySortedBy(s, key, desc)
  {
    forall i, j | 0 <= i < j < |s| ensures Precedes(key(s[i]), key(s[j]), desc) {
      PrecedesFacts(key(s[i]), key(s[j]), key(s[j]), desc);
    }
  }

  /** The identity key, for sorting plain strings. */
  function Self(s: string): string { s }
}

=== FILE: patient_list.dfy ===
/** The search and permission filter of the patient list
    (src/components/permissions/PatientListWithPermissions.tsx:56-82), and
    what it does to the records `getPatientsWithPermissions` produces. */
module PatientList {
  import opened Wrappers
  import opened Values
  import opened Strings
  import opened JsObject
  import opened Seqs
  import opened DataAccess
  import opened Permissions

  /** `(patient?.[key] || '')` read as text. */
  function NameOf(p: PatientWithPermissions, key: string): string {
    TextOr(GetOr(p.fields, key, Absent))
  }

  /** Whether a search term is in force: `searchTerm && searchTerm.trim()`. */
  predicate Searching(searchTerm: string) {
    Trim(searchTerm) != ""
  }

  /** Whether a permission filter is in force: `permissionFilter && permissionFilter !== 'all'`. */
  predicate FilteringLevel(permissionFilter: string) {
    permissionFilter != "" && permissionFilter != "all"
  }

  /** The lower-cased, trimmed term occurs in the lower-cased first or last name. */
  predicate NameHit(p: PatientWithPermissions, term: string) {
    Contains(ToLower(NameOf(p, "firstName")), term) || Contains(ToLower(NameOf(p, "lastName")), term)
  }

  predicate Shown(p: PatientWithPermissions, searchTerm: string, permissionFilter: string) {
    (!Searching(searchTerm) || NameHit(p, LowerTrim(searchTerm))) &&
    (!FilteringLevel(permissionFilter) || LevelName(p.userPermission) == permissionFilter)
  }

  function Keep(searchTerm: string, permissionFilter: string): PatientWithPermissions -> bool {
    p => Shown(p, searchTerm, permissionFilter)
  }

  /** The `filteredPatients` memo; `None` stands for a value that is not an
      array. The two `filter` passes are applied as one. */
  function FilteredPatients(patients: Option<seq<PatientWithPermissions>>, searchTerm: string,
                            permissionFilter: string): (r: seq<PatientWithPermissions>)
    ensures patients.None? ==> r == []
    ensures Subsequence(r, patients.GetOr([]))
    ensures forall p :: p in r <==> p in patients.GetOr([]) && Shown(p, searchTerm, permissionFilter)
  {
    var list := patients.GetOr([]);
    FilterSubsequence(list, Keep(searchTerm, permissionFilter));
    Filter(list, Keep(searchTerm, permissionFilter))
  }

  /** With no filter in force every patient is kept, in order. */
  lemma {:induction false} NoFilterKeepsAll(patients: seq<PatientWithPermissions>, searchTerm: string, permissionFilter: string)
    requires !Searching(searchTerm) && !FilteringLevel(permissionFilter)
    ensures FilteredPatients(Some(patients), searchTerm, permissionFilter) == patients
  {
    FilterAll(patients, Keep(searchTerm, permissionFilter));
  }

  lemma {:induction false} FilterAll<T(!new)>(xs: seq<T>, keep: T -> bool)
    requires forall x :: x in xs ==> keep(x)
    ensures Filter(xs, keep) == xs
  {
    if |xs| > 0 {
      assert forall x :: x in xs[1..] ==> x in xs;
      FilterAll(xs[1..], keep);
      assert xs == [xs[0]] + xs[1..];
    }
  }

  /** A whitespace-only term filters nothing, exactly as an empty one. */
  lemma BlankTermIgnored(patients: Option<seq<PatientWithPermissions>>, searchTerm: string, permissionFilter: string)
    requires IsBlank(searchTerm)
    ensures FilteredPatients(patients, searchTerm, permissionFilter) == FilteredPatients(patients, "", permissionFilter)
  {
    TrimEmptyIffBlank(searchTerm);
    assert Trim("") == "";
    FilterSame(patients.GetOr([]), Keep(searchTerm, permissionFilter), Keep("", permissionFilter));
  }

  lemma {:induction false} FilterSame<T(!new)>(xs: seq<T>, a: T -> bool, b: T -> bool)
    requires forall x :: x in xs ==> a(x) == b(x)
    ensures Filter(xs, a) == Filter(xs, b)
  {
    if |xs| > 0 {
      assert forall x :: x in xs[1..] ==> x in xs;
      FilterSame(xs[1..], a, b);
    }
  }

  // ---------------------------------------------------------------------------
  // The list as it is fed: rows of the `patients` table spread as they are
  // ---------------------------------------------------------------------------

  /** The list filtered over the records `getPatientsWithPermissions` builds
      from the fetched rows. */
  function ListedAsWritten(profile: Profile, rows: seq<Row>, permissions: seq<PermissionRow>,
                           searchTerm: string, permissionFilter: string): seq<PatientWithPermissions> {
    FilteredPatients(Some(GetPatientsWithPermissions(Some(profile), Some(rows), Some(permissions))),
                     searchTerm, permissionFilter)
  }

  /** The rows of the `patients` table carry snake_case columns (`first_name`,
      `last_name`), and they are spread into the records as they are, while
      the filter reads `firstName` and `lastName`. So any search term that is
      not blank hides every patient. */
  lemma SearchHidesSnakeRows(profile: Profile, rows: seq<Row>, permissions: seq<PermissionRow>,
                             searchTerm: string, permissionFilter: string)
    requires forall i :: 0 <= i < |rows| ==> "firstName" !in Keys(rows[i]) && "lastName" !in Keys(rows[i])
    requires Searching(searchTerm)
    ensures ListedAsWritten(profile, rows, permissions, searchTerm, permissionFilter) == []
  {
    var list := GetPatientsWithPermissions(Some(profile), Some(rows), Some(permissions));
    var r := ListedAsWritten(profile, rows, permissions, searchTerm, permissionFilter);
    var term := LowerTrim(searchTerm);
    LowerTrimEmpty(searchTerm);
    forall p | p in list ensures !NameHit(p, term) {
      var i :| 0 <= i < |list| && list[i] == p;
      SnakeRowMisses(rows[i], permissions, profile, term);
    }
    NothingKept(r);
  }

  /** One spread snake_case row: both names read as empty, so no non-empty
      term occurs in them. */
  lemma SnakeRowMisses(row: Row, permissions: seq<PermissionRow>, profile: Profile, term: string)
    requires "firstName" !in Keys(row) && "lastName" !in Keys(row)
    requires term != ""
    ensures !NameHit(Annotate(row, row, permissions, profile), term)
  {
    GetSomeIffKey(row, "firstName");
    GetSomeIffKey(row, "lastName");
    EmptyContainsNothing(term);
  }

  lemma NothingKept<T>(r: seq<T>)
    ensures (forall x :: x !in r) ==> r == []
  {
    if |r| > 0 {
      assert r[0] in r;
    }
  }

  lemma EmptyContainsNothing(term: string)
    requires term != ""
    ensures !Contains(ToLower(""), term)
  {
    assert ToLower("") == "";
  }

  /** The same list when the rows are first mapped to the frontend's field
      names (`mapPatientFromDb`), which is what the filter and the list's
      rendering read. */
  function Listed(profile: Profile, rows: seq<Row>, permissions: seq<PermissionRow>,
                  searchTerm: string, permissionFilter: string): (r: seq<PatientWithPermissions>)
    ensures Subsequence(r, MappedPatients(profile, rows, permissions))
  {
    FilteredPatients(Some(MappedPatients(profile, rows, permissions)), searchTerm, permissionFilter)
  }

  function MappedPatients(profile: Profile, rows: seq<Row>, permissions: seq<PermissionRow>): (r: seq<PatientWithPermissions>)
    ensures |r| == |rows|
    ensures forall i :: 0 <= i < |rows| ==> r[i] == Annotate(MapPatientFromDb(rows[i]), rows[i], permissions, profile)
  {
    seq(|rows|, i requires 0 <= i < |rows| => Annotate(MapPatientFromDb(rows[i]), rows[i], permissions, profile))
  }

  /** The stored first name, `first_name`, is what the mapped record reads
      as `firstName`; likewise for the last name. */
  lemma MappedNames(row: Row)
    ensures GetOr(MapPatientFromDb(row), "firstName", Absent) == GetOr(row, "first_name", Absent)
    ensures GetOr(MapPatientFromDb(row), "lastName", Absent) == GetOr(row, "last_name", Absent)
  {
    var m := MapPatientFromDb(row);
    PatientKeysDistinct();
    assert DistinctKeys(m) by {
      forall a, b | 0 <= a < b < |m| ensures m[a].0 != m[b].0 {
        assert m[a].0 == PatientColumns[a].0 && m[b].0 == PatientColumns[b].0;
      }
    }
    GetDistinct(m, 1);
    GetDistinct(m, 2);
  }

  /** With mapped rows, a patient whose stored first or last name holds the
      term is listed, whenever the permission filter lets the patient through. */
  lemma SearchFindsMappedRows(profile: Profile, rows: seq<Row>, permissions: seq<PermissionRow>,
                              searchTerm: string, permissionFilter: string, i: nat)
    requires i < |rows|
    requires Contains(ToLower(TextOr(GetOr(rows[i], "first_name", Absent))), LowerTrim(searchTerm)) ||
             Contains(ToLower(TextOr(GetOr(rows[i], "last_name", Absent))), LowerTrim(searchTerm))
    requires !FilteringLevel(permissionFilter) ||
             LevelName(Annotate(rows[i], rows[i], permissions, profile).userPermission) == permissionFilter
    ensures MappedPatients(profile, rows, permissions)[i] in Listed(profile, rows, permissions, searchTerm, permissionFilter)
  {
    var p := MappedPatients(profile, rows, permissions)[i];
    MappedNames(rows[i]);
    assert NameHit(p, LowerTrim(searchTerm));
    assert p.userPermission == Annotate(rows[i], rows[i], permissions, profile).userPermission;
  }
}

=== FILE: permissions.dfy ===
/** The multi-user access rules of src/lib/permissionAccess.ts: which level
    the signed-in therapist holds on each clinic patient, and who may manage
    a patient's permissions. The fetched patient and permission rows and the
    current profile are inputs. */
module Permissions {
  import opened Wrappers
  import opened Values
  import opened JsObject
  import opened Seqs
  import opened DataAccess

  /** The signed-in user's profile. */
  datatype Profile = Profile(profileId: string, clinicId: string, isAdmin: bool)

  /** A row of `patient_permissions` (only active rows are fetched). */
  datatype PermissionRow = PermissionRow(patientId: Val, userId: Val, level: Val)

  /** The access level shown in the patient list. */
  datatype Level = Owner | Edit | View | NoAccess

  /** The level as the list stores it in `user_permission`. */
  function LevelName(level: Level): (r: string)
    ensures r in {"owner", "edit", "view", "none"}
  {
    match level
    case Owner => "owner"
    case Edit => "edit"
    case View => "view"
    case NoAccess => "none"
  }

  lemma LevelNameInjective(a: Level, b: Level)
    ensures LevelName(a) == LevelName(b) <==> a == b
  {
  }

  /** `permissions.find(p => p.user_id === profileId)`: the first grant to
      the user, if any. */
  function FirstGrant(permissions: seq<PermissionRow>, profileId: string): (r: Option<PermissionRow>)
    ensures r.None? <==> forall i :: 0 <= i < |permissions| ==> permissions[i].userId != Str(profileId)
    ensures r.Some? ==>
      exists i ::
        0 <= i < |permissions| && permissions[i] == r.value && r.value.userId == Str(profileId) &&
        forall j :: 0 <= j < i ==> permissions[j].userId != Str(profileId)
  {
    if |permissions| == 0 then None
    else if permissions[0].userId == Str(profileId) then Some(permissions[0])
    else
      var r := FirstGrant(permissions[1..], profileId);
      assert forall i :: 0 < i < |permissions| ==> permissions[i] == permissions[1..][i - 1];
      r
  }

  /** The level rule: the primary therapist and administrators own the
      patient whatever the grants say; otherwise a `full` or `edit` grant
      gives edit access, a `view` grant view access, anything else none. */
  function PermissionLevel(isPrimaryTherapist: bool, isAdmin: bool, grant: Option<PermissionRow>): (r: Level)
    ensures r == Owner <==> isPrimaryTherapist || isAdmin
    ensures r == Edit <==> !isPrimaryTherapist && !isAdmin && grant.Some? &&
                           (grant.value.level == Str("full") || grant.value.level == Str("edit"))
    ensures r == View <==> !isPrimaryTherapist && !isAdmin && grant.Some? && grant.value.level == Str("view")
  {
    if isPrimaryTherapist || isAdmin then Owner
    else if grant.None? then NoAccess
    else
      match grant.value.level
      case Str("full") => Edit
      case Str("edit") => Edit
      case Str("view") => View
      case _ => NoAccess
  }

  /** A patient as the list receives it: the fetched row spread into the
      record, plus the three computed fields. */
  datatype PatientWithPermissions = PatientWithPermissions(
    fields: Row,
    permissions: seq<PermissionRow>,
    userPermission: Level,
    isPrimaryTherapist: bool)

  function ForPatient(id: Val): PermissionRow -> bool {
    (p: PermissionRow) => p.patientId == id
  }

  /** The record built for one patient row, its row spread as `fields`. */
  function Annotate(fields: Row, row: Row, permissions: seq<PermissionRow>, profile: Profile): (r: PatientWithPermissions)
    ensures r.fields == fields
    ensures r.isPrimaryTherapist <==> GetOr(row, "primary_therapist_id", Absent) == Str(profile.profileId)
    ensures forall p :: p in r.permissions <==> p in permissions && p.patientId == GetOr(row, "id", Absent)
    ensures Subsequence(r.permissions, permissions)
    ensures r.userPermission == PermissionLevel(r.isPrimaryTherapist, profile.isAdmin, FirstGrant(r.permissions, profile.profileId))
  {
    var own := Filter(permissions, ForPatient(GetOr(row, "id", Absent)));
    FilterSubsequence(permissions, ForPatient(GetOr(row, "id", Absent)));
    var isPrimary := GetOr(row, "primary_therapist_id", Absent) == Str(profile.profileId);
    PatientWithPermissions(fields, own, PermissionLevel(isPrimary, profile.isAdmin, FirstGrant(own, profile.profileId)), isPrimary)
  }

  /** `getPatientsWithPermissions()` on the fetched rows: `None` stands for
      a missing profile or a missing result set. Every clinic patient gets
      one record, in the fetched order. */
  function GetPatientsWithPermissions(profile: Option<Profile>, patients: Option<seq<Row>>,
                                      permissions: Option<seq<PermissionRow>>): (r: seq<PatientWithPermissions>)
    ensures profile.None? || patients.None? ==> r == []
    ensures profile.Some? && patients.Some? ==>
      |r| == |patients.value| &&
      forall i :: 0 <= i < |r| ==> r[i] == Annotate(patients.value[i], patients.value[i], permissions.GetOr([]), profile.value)
  {
    if profile.None? || patients.None? then []
    else
      var rows := patients.value;
      seq(|rows|, i requires 0 <= i < |rows| => Annotate(rows[i], rows[i], permissions.GetOr([]), profile.value))
  }

  /** A grant never lifts anyone to owner: with no primary-therapist or
      administrator standing, the level is at most edit, whatever the
      patient's grants. */
  lemma GrantsNeverOwn(row: Row, permissions: seq<PermissionRow>, profile: Profile)
    requires !profile.isAdmin && GetOr(row, "primary_therapist_id", Absent) != Str(profile.profileId)
    ensures Annotate(row, row, permissions, profile).userPermission != Owner
  {
  }

  /** A grant to someone else, or to another patient, changes nothing for
      the signed-in user. */
  lemma OthersGrantsIgnored(row: Row, permissions: seq<PermissionRow>, extra: PermissionRow, profile: Profile)
    requires extra.userId != Str(profile.profileId) || extra.patientId != GetOr(row, "id", Absent)
    ensures Annotate(row, row, permissions + [extra], profile).userPermission ==
            Annotate(row, row, permissions, profile).userPermission
  {
    var id := GetOr(row, "id", Absent);
    FilterConcat(permissions, [extra], ForPatient(id));
    var own := Filter(permissions, ForPatient(id));
    var tail := Filter([extra], ForPatient(id));
    FirstGrantAppend(own, tail, profile.profileId);
  }

  lemma {:induction false} FirstGrantAppend(a: seq<PermissionRow>, b: seq<PermissionRow>, profileId: string)
    requires forall p :: p in b ==> p.userId != Str(profileId)
    ensures FirstGrant(a + b, profileId) == FirstGrant(a, profileId)
  {
    if |a| == 0 {
      assert a + b == b;
      assert forall i :: 0 <= i < |b| ==> b[i] in b;
    } else {
      assert (a + b)[1..] == a[1..] + b;
      FirstGrantAppend(a[1..], b, profileId);
    }
  }

  /** `canManagePatientPermissions(patientId)`: `primaryTherapist` is the
      fetched `primary_therapist_id`, `None` when the lookup fails (an
      unknown patient included), which the source turns into `false`. */
  function CanManagePatientPermissions(profile: Option<Profile>, primaryTherapist: Option<Val>): (r: bool)
    ensures profile.None? ==> !r
    ensures profile.Some? && profile.value.isAdmin ==> r
    ensures profile.Some? && !profile.value.isAdmin ==>
      (r <==> primaryTherapist.Some? && primaryTherapist.value == Str(profile.value.profileId))
  {
    if profile.None? then false
    else if profile.value.isAdmin then true
    else if primaryTherapist.None? then false
    else primaryTherapist.value == Str(profile.value.profileId)
  }

  /** Those who may manage a patient's permissions are exactly those the
      list shows as its owner. */
  lemma ManageIffOwner(row: Row, permissions: seq<PermissionRow>, profile: Profile)
    ensures CanManagePatientPermissions(Some(profile), Some(GetOr(row, "primary_therapist_id", Absent))) <==>
            Annotate(row, row, permissions, profile).userPermission == Owner
  {
  }
}

=== FILE: seqs.dfy ===
/** Generic facts about sequences used by the extractors and groupers:
    distinctness, first-seen de-duplication and flattening. */
module Seqs {

  predicate Distinct<T(==)>(s: seq<T>) {
    forall i, j :: 0 <= i < j < |s| ==> s[i] != s[j]
  }

  /** A distinct sequence holds every value at most once. */
  lemma {:induction false} DistinctCounts<T>(s: seq<T>)
    requires Distinct(s)
    ensures forall x :: multiset(s)[x] <= 1
  {
    if |s| > 0 {
      assert Distinct(s[1..]) by {
        forall i, j | 0 <= i < j < |s[1..]| ensures s[1..][i] != s[1..][j] {
          assert s[1..][i] == s[i + 1] && s[1..][j] == s[j + 1];
        }
      }
      DistinctCounts(s[1..]);
      assert s == [s[0]] + s[1..];
      assert s[0] !in s[1..] by {
        forall k | 0 <= k < |s[1..]| ensures s[1..][k] != s[0] {
          assert s[1..][k] == s[k + 1];
        }
      }
    }
  }

  /** A sequence holding every value at most once is distinct. */
  lemma CountsDistinct<T>(s: seq<T>)
    requires forall x :: multiset(s)[x] <= 1
    ensures Distinct(s)
  {
    forall i, j | 0 <= i < j < |s| ensures s[i] != s[j] {
      PairCount(s, i, j);
    }
  }

  lemma PairCount<T>(s: seq<T>, i: nat, j: nat)
    requires i < j < |s|
    ensures multiset(s)[s[i]] >= if s[i] == s[j] then 2 else 1
  {
    assert s == s[..i] + [s[i]] + s[i + 1..j] + [s[j]] + s[j + 1..];
  }

  /** Reordering keeps a sequence distinct. */
  lemma PermutationKeepsDistinct<T>(s: seq<T>, t: seq<T>)
    requires Distinct(s) && multiset(s) == multiset(t)
    ensures Distinct(t)
  {
    DistinctCounts(s);
    CountsDistinct(t);
  }

  /** `new Set(s)` read back in insertion order: each value once, where it
      first occurs. */
  function FirstSeen<T(==,!new)>(s: seq<T>): (r: seq<T>)
    ensures Distinct(r)
    ensures forall x :: x in r <==> x in s
  {
    if |s| == 0 then []
    else
      var init := FirstSeen(s[..|s| - 1]);
      var last := s[|s| - 1];
      assert s == s[..|s| - 1] + [last];
      if last in init then init else init + [last]
  }

  /** The first value inserted into a set is the first one read back. */
  lemma {:induction false} FirstSeenHead<T(!new)>(s: seq<T>)
    requires |s| > 0
    ensures |FirstSeen(s)| > 0 && FirstSeen(s)[0] == s[0]
  {
    if |s| > 1 {
      FirstSeenHead(s[..|s| - 1]);
    }
  }

  /** `xs.filter(keep)`: the elements `keep` accepts, in their order. */
  function Filter<T(!new)>(xs: seq<T>, keep: T -> bool): (r: seq<T>)
    ensures |r| <= |xs|
    ensures forall x :: x in r <==> x in xs && keep(x)
  {
    if |xs| == 0 then []
    else
      assert forall x :: x in xs <==> x == xs[0] || x in xs[1..] by {
        assert xs == [xs[0]] + xs[1..];
      }
      (if keep(xs[0]) then [xs[0]] else []) + Filter(xs[1..], keep)
  }

  /** Filtering a concatenation filters each half. */
  lemma {:induction false} FilterConcat<T(!new)>(a: seq<T>, b: seq<T>, keep: T -> bool)
    ensures Filter(a + b, keep) == Filter(a, keep) + Filter(b, keep)
  {
    if |a| > 0 {
      assert (a + b)[1..] == a[1..] + b;
      FilterConcat(a[1..], b, keep);
    } else {
      assert a + b == b;
    }
  }

  /** Filtering a list with a head in front: the head if it is kept, then
      the filtered rest. */
  lemma FilterHead<T(!new)>(h: T, t: seq<T>, keep: T -> bool)
    ensures Filter([h] + t, keep) == (if keep(h) then [h] else []) + Filter(t, keep)
  {
    assert ([h] + t)[1..] == t;
  }

  /** Two lists whose filterings differ by a common suffix still do so once
      the same head is put in front of each. */
  lemma FilterBehindHead<T(!new)>(h: T, a: seq<T>, b: seq<T>, tail: seq<T>, keep: T -> bool)
    requires Filter(a, keep) == Filter(b, keep) + tail
    ensures Filter([h] + a, keep) == Filter([h] + b, keep) + tail
  {
    FilterHead(h, a, keep);
    FilterHead(h, b, keep);
    AppendAssoc(if keep(h) then [h] else [], Filter(b, keep), tail);
  }

  /** A non-empty list is its head in front of its tail. */
  lemma HeadTail<T>(s: seq<T>)
    requires |s| > 0
    ensures s == [s[0]] + s[1..]
  {
  }

  /** Concatenation is associative. */
  lemma AppendAssoc<T>(a: seq<T>, b: seq<T>, c: seq<T>)
    ensures a + (b + c) == (a + b) + c
  {
  }

  /** Nothing is kept from a list none of whose elements pass. */
  lemma {:induction false} FilterNone<T(!new)>(xs: seq<T>, keep: T -> bool)
    requires forall i :: 0 <= i < |xs| ==> !keep(xs[i])
    ensures Filter(xs, keep) == []
  {
    if |xs| > 0 {
      FilterNone(xs[1..], keep);
    }
  }

  /** The parts one after the other: `parts.flat()`, or a loop that pushes
      every part's elements in turn. */
  function Flatten<T>(parts: seq<seq<T>>): seq<T> {
    if |parts| == 0 then [] else parts[0] + Flatten(parts[1..])
  }

  /** An element of the flattened list is an element of one of the parts,
      and every element of every part is kept. */
  lemma {:induction false} FlattenMembers<T>(parts: seq<seq<T>>, x: T)
    ensures x in Flatten(parts) <==> exists i :: 0 <= i < |parts| && x in parts[i]
  {
    if |parts| > 0 {
      FlattenMembers(parts[1..], x);
      if x in Flatten(parts[1..]) {
        var i :| 0 <= i < |parts[1..]| && x in parts[1..][i];
        assert parts[1..][i] == parts[i + 1];
      }
      if exists i :: 1 <= i < |parts| && x in parts[i] {
        var i :| 1 <= i < |parts| && x in parts[i];
        assert parts[1..][i - 1] == parts[i];
      }
    }
  }

  /** Filtering keeps the relative order: a list ranked strictly
      increasingly stays so once filtered. */
  lemma {:induction false} FilterRanked<T(!new)>(xs: seq<T>, keep: T -> bool, rank: T -> int)
    requires forall i, j :: 0 <= i < j < |xs| ==> rank(xs[i]) < rank(xs[j])
    ensures forall i, j :: 0 <= i < j < |Filter(xs, keep)| ==> rank(Filter(xs, keep)[i]) < rank(Filter(xs, keep)[j])
  {
    if |xs| > 0 {
      var rest := Filter(xs[1..], keep);
      FilterRanked(xs[1..], keep, rank);
      forall x | x in rest ensures rank(xs[0]) < rank(x) {
        var k :| 0 <= k < |xs[1..]| && xs[1..][k] == x;
        assert xs[k + 1] == x;
      }
      if keep(xs[0]) {
        assert Filter(xs, keep) == [xs[0]] + rest;
        RankedCons(xs[0], rest, rank);
      } else {
        assert Filter(xs, keep) == rest;
      }
    }
  }

  /** An element ranked below a ranked list stays ranked in front of it. */
  lemma RankedCons<T>(h: T, rest: seq<T>, rank: T -> int)
    requires forall i, j :: 0 <= i < j < |rest| ==> rank(rest[i]) < rank(rest[j])
    requires forall x :: x in rest ==> rank(h) < rank(x)
    ensures forall i, j :: 0 <= i < j < |[h] + rest| ==> rank(([h] + rest)[i]) < rank(([h] + rest)[j])
  {
    var r := [h] + rest;
    forall i, j | 0 <= i < j < |r| ensures rank(r[i]) < rank(r[j]) {
      assert r[j] == rest[j - 1] && r[j] in rest;
      if i > 0 {
        assert r[i] == rest[i - 1];
      }
    }
  }

  /** A position at which a member occurs. */
  lemma IndexOf<T>(xs: seq<T>, x: T) returns (k: nat)
    requires x in xs
    ensures k < |xs| && xs[k] == x
  {
    k :| 0 <= k < |xs| && xs[k] == x;
  }

  /** `a` is `b` with some elements left out and the rest in their order. */
  predicate Subsequence<T(==)>(a: seq<T>, b: seq<T>)
    decreases |b|
  {
    |a| == 0 ||
    (|b| > 0 && ((a[0] == b[0] && Subsequence(a[1..], b[1..])) || Subsequence(a, b[1..])))
  }

  /** A filtered list is a subsequence of the list. */
  lemma {:induction false} FilterSubsequence<T(!new)>(xs: seq<T>, keep: T -> bool)
    ensures Subsequence(Filter(xs, keep), xs)
  {
    if |xs| > 0 {
      FilterSubsequence(xs[1..], keep);
      var rest := Filter(xs[1..], keep);
      if keep(xs[0]) {
        assert Filter(xs, keep) == [xs[0]] + rest;
        assert ([xs[0]] + rest)[1..] == rest;
      } else {
        assert Filter(xs, keep) == rest;
      }
    }
  }
}

=== FILE: strings.dfy ===
/** String utilities shared by the summary, narrative and search code: ASCII
    case mapping, the camelCase humaniser, JavaScript whitespace trimming,
    substring search, joining/splitting and decimal rendering of integers. */
module Strings {

  // ---------------------------------------------------------------------------
  // Characters
  // ---------------------------------------------------------------------------

  /** The character class `[A-Z]` of a JavaScript regular expression. */
  predicate IsUpper(c: char) {
    'A' <= c <= 'Z'
  }

  predicate IsLower(c: char) {
    'a' <= c <= 'z'
  }

  /** The character class `\d` of a JavaScript regular expression. */
  predicate IsDigit(c: char) {
    '0' <= c <= '9'
  }

  /** `toLowerCase` on one character, for the ASCII letters. */
  function ToLowerChar(c: char): char {
    if IsUpper(c) then (c as int + 32) as char else c
  }

  function ToUpperChar(c: char): char {
    if IsLower(c) then (c as int - 32) as char else c
  }

  /** The WhiteSpace and LineTerminator code points that `String.prototype.trim`
      removes (section 12.2 and 12.3 of ECMA-262). */
  predicate IsJsWhitespace(c: char) {
    || c == '\t' || c == '\n' || c == '\U{000B}' || c == '\U{000C}' || c == '\r'
    || c == ' ' || c == '\U{00A0}' || c == '\U{1680}'
    || ('\U{2000}' <= c <= '\U{200A}')
    || c == '\U{2028}' || c == '\U{2029}' || c == '\U{202F}' || c == '\U{205F}'
    || c == '\U{3000}' || c == '\U{FEFF}'
  }

  // ---------------------------------------------------------------------------
  // Case mapping and the camelCase humaniser
  // ---------------------------------------------------------------------------

  /** `s.toLowerCase()` restricted to ASCII letters. */
  function ToLower(s: string): (r: string)
    ensures |r| == |s|
    ensures forall i :: 0 <= i < |s| ==> r[i] == ToLowerChar(s[i])
  {
    seq(|s|, i requires 0 <= i < |s| => ToLowerChar(s[i]))
  }

  /** `s.replace(/([A-Z])/g, ' $1').toLowerCase()`: a space before every
      capital letter, then everything in lower case. */
  function Humanize(s: string): string {
    if |s| == 0 then ""
    else (if IsUpper(s[0]) then [' ', ToLowerChar(s[0])] else [ToLowerChar(s[0])]) + Humanize(s[1..])
  }

  /** The number of capital letters in `s`. */
  function CountUpper(s: string): nat {
    if |s| == 0 then 0 else (if IsUpper(s[0]) then 1 else 0) + CountUpper(s[1..])
  }

  predicate NoUpper(s: string) {
    forall i :: 0 <= i < |s| ==> !IsUpper(s[i])
  }

  /** Reverse of the humaniser: a space followed by a lower-case letter becomes
      that letter in upper case. */
  function Camelize(s: string): string {
    if |s| == 0 then ""
    else if |s| >= 2 && s[0] == ' ' && IsLower(s[1]) then [ToUpperChar(s[1])] + Camelize(s[2..])
    else [s[0]] + Camelize(s[1..])
  }

  /** The humanised name has no capital letters and grows by exactly one space
      per capital letter of the identifier. */
  lemma {:induction false} HumanizeShape(s: string)
    ensures NoUpper(Humanize(s))
    ensures |Humanize(s)| == |s| + CountUpper(s)
  {
    if |s| > 0 {
      HumanizeShape(s[1..]);
      var head := if IsUpper(s[0]) then [' ', ToLowerChar(s[0])] else [ToLowerChar(s[0])];
      assert Humanize(s) == head + Humanize(s[1..]);
      assert NoUpper(head);
    }
  }

  /** A humanised name without spaces was already in lower case with no
      spaces: humanising left it unchanged. */
  lemma {:induction false} HumanizeFixed(s: string)
    requires ' ' !in Humanize(s)
    ensures Humanize(s) == s
  {
    if |s| > 0 {
      if IsUpper(s[0]) {
        assert false;
      } else {
        assert Humanize(s) == [s[0]] + Humanize(s[1..]);
        assert ' ' !in Humanize(s[1..]) by {
          forall i | 0 <= i < |Humanize(s[1..])| ensures Humanize(s[1..])[i] != ' ' {
            assert Humanize(s[1..])[i] == Humanize(s)[1 + i];
          }
        }
        HumanizeFixed(s[1..]);
        assert s == [s[0]] + s[1..];
      }
    }
  }

  lemma {:induction false} HumanizeAppend(a: string, b: string)
    ensures Humanize(a + b) == Humanize(a) + Humanize(b)
  {
    if |a| > 0 {
      assert (a + b)[1..] == a[1..] + b;
      HumanizeAppend(a[1..], b);
    } else {
      assert a + b == b;
    }
  }

  /** Text without capitals is left as it is. */
  lemma {:induction false} HumanizeLowercase(s: string)
    requires NoUpper(s)
    ensures Humanize(s) == s
  {
    if |s| > 0 {
      assert NoUpper(s[1..]) by {
        forall i | 0 <= i < |s[1..]| ensures !IsUpper(s[1..][i]) {
          assert s[1..][i] == s[i + 1];
        }
      }
      HumanizeLowercase(s[1..]);
      assert s == [s[0]] + s[1..];
    }
  }

  /** A two-word camelCase identifier becomes its two words. */
  lemma CamelPair(a: string, c: char, b: string)
    requires NoUpper(a) && NoUpper(b) && IsUpper(c)
    ensures Humanize(a + [c] + b) == a + [' ', ToLowerChar(c)] + b
  {
    HumanizeAppend(a + [c], b);
    HumanizeAppend(a, [c]);
    HumanizeLowercase(a);
    HumanizeLowercase(b);
    assert Humanize([c]) == [' ', ToLowerChar(c)] + Humanize([]);
  }

  /** Humanising loses nothing for identifiers without spaces: the camelCase
      identifier can be recovered from the displayed name. */
  lemma {:induction false} CamelizeHumanize(s: string)
    requires ' ' !in s
    ensures Camelize(Humanize(s)) == s
  {
    if |s| > 0 {
      assert ' ' !in s[1..] by {
        forall i | 0 <= i < |s[1..]| ensures s[1..][i] != ' ' {
          assert s[1..][i] == s[i + 1];
        }
      }
      CamelizeHumanize(s[1..]);
      var rest := Humanize(s[1..]);
      if IsUpper(s[0]) {
        assert Humanize(s) == [' ', ToLowerChar(s[0])] + rest;
        assert Humanize(s)[2..] == rest;
      } else {
        assert Humanize(s) == [s[0]] + rest;
        assert Humanize(s)[1..] == rest;
      }
    }
  }

  // ---------------------------------------------------------------------------
  // Trimming
  // ---------------------------------------------------------------------------

  function TrimStart(s: string): (r: string)
    ensures |r| <= |s| && r == s[|s| - |r|..]
    ensures |r| > 0 ==> !IsJsWhitespace(r[0])
  {
    if |s| > 0 && IsJsWhitespace(s[0]) then TrimStart(s[1..]) else s
  }

  function TrimEnd(s: string): (r: string)
    ensures |r| <= |s| && r == s[..|r|]
    ensures |r| > 0 ==> !IsJsWhitespace(r[|r| - 1])
  {
    if |s| > 0 && IsJsWhitespace(s[|s| - 1]) then TrimEnd(s[..|s| - 1]) else s
  }

  /** `s.trim()`. */
  function Trim(s: string): string {
    TrimEnd(TrimStart(s))
  }

  /** `s.toLowerCase().trim()`. */
  function LowerTrim(s: string): string {
    Trim(ToLower(s))
  }

  /** Lower-casing leaves whitespace alone, so it keeps a string blank or not. */
  lemma LowerTrimEmpty(s: string)
    ensures LowerTrim(s) == "" <==> Trim(s) == ""
  {
    TrimEmptyIffBlank(s);
    TrimEmptyIffBlank(ToLower(s));
    forall i | 0 <= i < |s| ensures IsJsWhitespace(ToLower(s)[i]) <==> IsJsWhitespace(s[i]) {
      LowerKeepsWhitespace(s[i]);
    }
  }

  lemma LowerKeepsWhitespace(c: char)
    ensures IsJsWhitespace(ToLowerChar(c)) <==> IsJsWhitespace(c)
  {
    if IsUpper(c) {
      assert 'a' <= ToLowerChar(c) <= 'z';
    }
  }

  /** True when `s` is blank once trimmed (`s.trim() === ''`). */
  predicate IsBlank(s: string) {
    forall i :: 0 <= i < |s| ==> IsJsWhitespace(s[i])
  }

  /** Trimming yields the empty string exactly for blank input. */
  lemma {:induction false} TrimEmptyIffBlank(s: string)
    ensures Trim(s) == "" <==> IsBlank(s)
  {
    TrimStartBlank(s);
    var t := TrimStart(s);
    if t != "" {
      assert !IsJsWhitespace(t[0]);
      assert TrimEnd(t) != "" by {
        TrimEndKeepsNonBlank(t);
      }
    }
  }

  lemma {:induction false} TrimStartBlank(s: string)
    ensures TrimStart(s) == "" <==> IsBlank(s)
  {
    if |s| > 0 && IsJsWhitespace(s[0]) {
      TrimStartBlank(s[1..]);
      if IsBlank(s[1..]) {
        forall i | 0 <= i < |s| ensures IsJsWhitespace(s[i]) {
          if i > 0 { assert s[i] == s[1..][i - 1]; }
        }
      }
      if IsBlank(s) {
        forall i | 0 <= i < |s[1..]| ensures IsJsWhitespace(s[1..][i]) {
          assert s[1..][i] == s[i + 1];
        }
      }
    }
  }

  lemma {:induction false} TrimEndKeepsNonBlank(t: string)
    requires |t| > 0 && !IsJsWhitespace(t[0])
    ensures TrimEnd(t) != ""
    decreases |t|
  {
    if IsJsWhitespace(t[|t| - 1]) {
      assert |t| > 1;
      assert t[..|t| - 1][0] == t[0];
      TrimEndKeepsNonBlank(t[..|t| - 1]);
    }
  }

  // ---------------------------------------------------------------------------
  // Substring search
  // ---------------------------------------------------------------------------

  predicate StartsWith(s: string, prefix: string) {
    |prefix| <= |s| && s[..|prefix|] == prefix
  }

  /** `s.includes(sub)`. */
  predicate Contains(s: string, sub: string) {
    exists i | 0 <= i <= |s| :: StartsWith(s[i..], sub)
  }

  lemma ContainsSelf(s: string)
    ensures Contains(s, s)
  {
    assert s[0..] == s;
    assert StartsWith(s[0..], s);
  }

  lemma ContainsSuffix(a: string, b: string)
    ensures Contains(a + b, b)
  {
    assert (a + b)[|a|..] == b;
    assert StartsWith((a + b)[|a|..], b);
  }

  /** Every character of a contained string occurs in the container; used
      to show that a string does not contain another. */
  lemma ContainsChar(s: string, sub: string, k: nat)
    requires Contains(s, sub) && k < |sub|
    ensures sub[k] in s
  {
    var i :| 0 <= i <= |s| && StartsWith(s[i..], sub);
    assert s[i..][k] == sub[k];
    assert s[i + k] == sub[k];
  }

  lemma ContainsExtend(a: string, b: string, x: string)
    requires Contains(a, x)
    ensures Contains(a + b, x)
  {
    var i :| 0 <= i <= |a| && StartsWith(a[i..], x);
    assert (a + b)[i..][..|x|] == a[i..][..|x|];
    assert StartsWith((a + b)[i..], x);
  }

  lemma ContainsPrepend(a: string, b: string, x: string)
    requires Contains(b, x)
    ensures Contains(a + b, x)
  {
    var i :| 0 <= i <= |b| && StartsWith(b[i..], x);
    assert (a + b)[|a| + i..] == b[i..];
  }

  /** Containment is transitive. */
  lemma ContainsTrans(a: string, b: string, c: string)
    requires Contains(a, b) && Contains(b, c)
    ensures Contains(a, c)
  {
    var i :| 0 <= i <= |a| && StartsWith(a[i..], b);
    var j :| 0 <= j <= |b| && StartsWith(b[j..], c);
    assert i + j + |c| <= |a|;
    forall k | 0 <= k < |c| ensures a[i + j + k] == c[k] {
      assert b[j..][..|c|][k] == c[k];
      assert a[i..][..|b|][j + k] == b[j + k];
    }
    assert StartsWith(a[i + j..], c);
  }

  /** The text wrapped in a prefix and a suffix contains it. */
  lemma ContainsWrapped(a: string, x: string, b: string)
    ensures Contains(a + x + b, x)
  {
    ContainsSelf(x);
    ContainsPrepend(a, x, x);
    ContainsExtend(a + x, b, x);
  }

  // ---------------------------------------------------------------------------
  // Joining and splitting
  // ---------------------------------------------------------------------------

  /** `parts.join(sep)`. */
  function Join(parts: seq<string>, sep: string): string {
    if |parts| == 0 then ""
    else if |parts| == 1 then parts[0]
    else parts[0] + sep + Join(parts[1..], sep)
  }

  /** Every part appears in the joined text. */
  lemma {:induction false} JoinContains(parts: seq<string>, sep: string, x: string)
    requires x in parts
    ensures Contains(Join(parts, sep), x)
  {
    if |parts| == 1 {
      ContainsSelf(x);
    } else if parts[0] == x {
      ContainsSelf(x);
      ContainsExtend(x, sep + Join(parts[1..], sep), x);
      assert Join(parts, sep) == x + (sep + Join(parts[1..], sep));
    } else {
      assert x in parts[1..];
      JoinContains(parts[1..], sep, x);
      ContainsPrepend(parts[0] + sep, Join(parts[1..], sep), x);
    }
  }

  /** A join of parts that are all non-empty is empty only when there are
      no parts. */
  lemma JoinEmpty(parts: seq<string>, sep: string)
    requires forall p :: p in parts ==> p != ""
    ensures Join(parts, sep) == "" <==> |parts| == 0
  {
    if |parts| > 0 {
      assert parts[0] in parts;
      if |parts| > 1 {
        assert Join(parts, sep) == parts[0] + sep + Join(parts[1..], sep);
      }
    }
  }

  /** `parts.filter(Boolean)` on strings: the non-empty ones, in order. */
  function NonEmpty(parts: seq<string>): (r: seq<string>)
    ensures forall p :: p in r ==> p != "" && p in parts
    ensures forall p :: p in parts && p != "" ==> p in r
  {
    if |parts| == 0 then []
    else (if parts[0] != "" then [parts[0]] else []) + NonEmpty(parts[1..])
  }

  /** `parts.filter(Boolean).join(sep)`. */
  function JoinTruthy(parts: seq<string>, sep: string): string {
    Join(NonEmpty(parts), sep)
  }

  /** A join of non-empty parts is empty exactly when there are no parts
      left: `[...].filter(Boolean).join(sep)` is `''` iff every part is. */
  lemma JoinTruthyEmpty(parts: seq<string>, sep: string)
    ensures JoinTruthy(parts, sep) == "" <==> forall i :: 0 <= i < |parts| ==> parts[i] == ""
  {
    var kept := NonEmpty(parts);
    if |kept| > 0 {
      assert kept[0] in kept;
      if |kept| > 1 {
        assert Join(kept, sep) == kept[0] + sep + Join(kept[1..], sep);
      }
    } else {
      forall i | 0 <= i < |parts| ensures parts[i] == "" {
        assert parts[i] in parts;
      }
    }
  }

  /** `s.split(c)`: the pieces between occurrences of `c`. */
  function Split(s: string, c: char): (r: seq<string>)
    ensures |r| > 0
  {
    if |s| == 0 then [""]
    else
      var rest := Split(s[1..], c);
      if s[0] == c then [""] + rest else [[s[0]] + rest[0]] + rest[1..]
  }

  lemma {:induction false} SplitPrefix(a: string, t: string, c: char)
    requires c !in a
    ensures Split(a + t, c) == [a + Split(t, c)[0]] + Split(t, c)[1..]
  {
    if |a| > 0 {
      assert c !in a[1..] by {
        forall i | 0 <= i < |a[1..]| ensures a[1..][i] != c {
          assert a[1..][i] == a[i + 1];
        }
      }
      assert (a + t)[1..] == a[1..] + t;
      SplitPrefix(a[1..], t, c);
      assert [a[0]] + (a[1..] + Split(t, c)[0]) == a + Split(t, c)[0];
    } else {
      assert a + t == t;
      var r := Split(t, c);
      assert r == [r[0]] + r[1..];
      assert a + r[0] == r[0];
    }
  }

  /** Splitting a joined list on the separator gives the list back, provided
      the pieces do not contain the separator. */
  lemma {:induction false} SplitJoin(parts: seq<string>, c: char)
    requires |parts| > 0
    requires forall p :: p in parts ==> c !in p
    ensures Split(Join(parts, [c]), c) == parts
  {
    if |parts| == 1 {
      SplitPrefix(parts[0], "", c);
      assert parts[0] + "" == parts[0];
    } else {
      var tail := Join(parts[1..], [c]);
      SplitJoin(parts[1..], c);
      assert Join(parts, [c]) == parts[0] + ([c] + tail);
      SplitPrefix(parts[0], [c] + tail, c);
      assert ([c] + tail)[1..] == tail;
      assert Split([c] + tail, c) == [""] + parts[1..];
      assert parts[0] + "" == parts[0];
    }
  }

  /** The joined non-empty parts split back into exactly those parts. */
  lemma JoinTruthySplits(parts: seq<string>, c: char)
    requires forall p :: p in parts ==> c !in p
    requires NonEmpty(parts) != []
    ensures Split(JoinTruthy(parts, [c]), c) == NonEmpty(parts)
  {
    SplitJoin(NonEmpty(parts), c);
  }

  /** The parts with `t` put in front of every one but the first. */
  function Indented(parts: seq<string>, t: string): (r: seq<string>)
    ensures |r| == |parts|
    ensures |parts| > 0 ==> r[0] == parts[0]
    ensures forall k :: 0 < k < |parts| ==> r[k] == t + parts[k]
  {
    seq(|parts|, k requires 0 <= k < |parts| => if k == 0 then parts[k] else t + parts[k])
  }

  /** Text in front of a join lands in front of its first part. */
  lemma JoinHead(t: string, w: seq<string>, sep: string)
    requires |w| > 0
    ensures t + Join(w, sep) == Join([t + w[0]] + w[1..], sep)
  {
    var u := [t + w[0]] + w[1..];
    if |w| > 1 {
      assert u[1..] == w[1..];
    }
  }

  /** Joining on a separator `c` followed by `t` is joining on `c` alone the
      parts with `t` in front of all but the first. */
  lemma {:induction false} JoinWideSep(parts: seq<string>, c: char, t: string)
    ensures Join(parts, [c] + t) == Join(Indented(parts, t), [c])
  {
    if |parts| == 1 {
      assert Indented(parts, t) == parts;
    } else if |parts| > 1 {
      var q := parts[1..];
      JoinWideSep(q, c, t);
      var w := Indented(q, t);
      var v := Indented(parts, t);
      assert v[1..] == [t + w[0]] + w[1..];
      JoinHead(t, w, [c]);
      assert Join(parts, [c] + t) == parts[0] + [c] + (t + Join(w, [c]));
    }
  }

  /** The joined non-empty parts, on a separator `c` followed by `t`, split
      at `c` into those parts, each after the first with `t` in front. */
  lemma JoinTruthyWideSplits(parts: seq<string>, c: char, t: string)
    requires forall p :: p in parts ==> c !in p
    requires c !in t
    requires NonEmpty(parts) != []
    ensures Split(JoinTruthy(parts, [c] + t), c) == Indented(NonEmpty(parts), t)
  {
    var kept := NonEmpty(parts);
    var v := Indented(kept, t);
    JoinWideSep(kept, c, t);
    forall p | p in v ensures c !in p {
      var k :| 0 <= k < |v| && v[k] == p;
      assert kept[k] in kept;
      if k > 0 {
        assert p == t + kept[k];
      }
    }
    SplitJoin(v, c);
  }

  // ---------------------------------------------------------------------------
  // Decimal numbers
  // ---------------------------------------------------------------------------

  function DigitChar(d: nat): char
    requires d < 10
  {
    ('0' as int + d) as char
  }

  function DigitValue(c: char): nat
    requires IsDigit(c)
  {
    c as int - '0' as int
  }

  predicate AllDigits(s: string) {
    forall i :: 0 <= i < |s| ==> IsDigit(s[i])
  }

  /** The decimal value of a string of ASCII digits. */
  function ParseDigits(s: string): nat
    requires AllDigits(s)
  {
    if |s| == 0 then 0 else 10 * ParseDigits(s[..|s| - 1]) + DigitValue(s[|s| - 1])
  }

  /** The decimal rendering of a natural number, as `String(n)` prints it. */
  function NatToString(n: nat): (r: string)
    ensures |r| > 0 && AllDigits(r)
  {
    if n < 10 then [DigitChar(n)] else NatToString(n / 10) + [DigitChar(n % 10)]
  }

  /** The decimal rendering of an integer, with a leading minus sign when negative. */
  function IntToString(n: int): string {
    if n < 0 then "-" + NatToString(-n) else NatToString(n)
  }

  /** Reading the printed digits back gives the number. */
  lemma {:induction false} ParseNatToString(n: nat)
    ensures ParseDigits(NatToString(n)) == n
  {
    if n >= 10 {
      ParseNatToString(n / 10);
      var s := NatToString(n);
      assert s[..|s| - 1] == NatToString(n / 10);
    }
  }

  /** `value.replace(/[^\d]/g, '')`: the digits of `s`, in order. */
  function DigitsOf(s: string): (r: string)
    ensures AllDigits(r) && |r| <= |s|
  {
    if |s| == 0 then ""
    else (if IsDigit(s[0]) then [s[0]] else []) + DigitsOf(s[1..])
  }

  lemma {:induction false} DigitsOfAppend(a: string, b: string)
    ensures DigitsOf(a + b) == DigitsOf(a) + DigitsOf(b)
  {
    if |a| > 0 {
      assert (a + b)[1..] == a[1..] + b;
      DigitsOfAppend(a[1..], b);
    } else {
      assert a + b == b;
    }
  }

  lemma {:induction false} DigitsOfDigits(s: string)
    requires AllDigits(s)
    ensures DigitsOf(s) == s
  {
    if |s| > 0 {
      DigitsOfDigits(s[1..]);
    }
  }
}

=== FILE: summary.dfy ===
/** The smaller pieces of the evaluation summary around the tables: which
    sections are shown (src/components/EvaluationSummary.tsx:809-819), the
    patient and employer headers (216-221, 236-246), the visit count
    (415-417) and body-part names (337-357, and the same table in
    src/components/FullNarrativeSummary.tsx:38-58). */
module Summary {
  import opened Wrappers
  import opened Values
  import opened JsObject
  import opened Strings
  import opened Catalogue

  // ---------------------------------------------------------------------------
  // Section inclusion
  // ---------------------------------------------------------------------------

  /** What the inclusion rule reads about the evaluation besides the saved
      flags: how many findings each table has, and the other sections. */
  datatype InclusionInputs = InclusionInputs(
    romFindings: nat, specialTestFindings: nat, strengthFindings: nat,
    problems: Option<nat>,          // `problems.length`, `None` when absent or not a list
    timeline: Option<nat>,          // `timeline.length` when it is an array
    observationKeys: nat,           // `Object.keys(observations).length`
    functionalTestingKeys: nat)

  /** The eight flags the rule assigns. */
  const RuleKeys: seq<string> := ["rangeOfMotion", "specialTests", "strengthTesting", "problems",
                                  "timeline", "observations", "functionalTesting", "narrative"]

  /** `safeWatch(path, fallback)` (src/components/EvaluationSummary.tsx:56-67):
      the form's value at `path`, or `fallback` when the form holds
      `undefined` or `null` there. */
  function SafeWatch<V>(data: Option<V>, fallback: V): (r: V)
    ensures data.Some? ==> r == data.value
    ensures data.None? ==> r == fallback
  {
    if data.Some? then data.value else fallback
  }

  /** The flags the summary falls back to when the form has no
      `summaryInclusion` (src/components/EvaluationSummary.tsx:101-113). */
  const DefaultInclusion: Obj<Val> := [
    ("demographics", Bool(true)), ("employer", Bool(false)), ("emergencyContact", Bool(false)),
    ("observations", Bool(true)), ("problems", Bool(true)), ("timeline", Bool(true)),
    ("rangeOfMotion", Bool(true)), ("specialTests", Bool(true)), ("strengthTesting", Bool(true)),
    ("functionalTesting", Bool(true)), ("narrative", Bool(false))]

  /** `summaryInclusion?.[key]` on the watched flags: `undefined` for a key
      they do not hold. The flags themselves are never `undefined`, since
      the watch replaces missing ones by `DefaultInclusion`. */
  function Flag(saved: Obj<Val>, key: string): Val {
    GetOr(saved, key, Absent)
  }

  /** `{...summaryInclusion, rangeOfMotion: ..., ..., narrative: ...}`: the
      saved flags with the eight assigned ones overriding them. */
  datatype Inclusion = Inclusion(
    saved: Obj<Val>,
    rangeOfMotion: bool, specialTests: bool, strengthTesting: bool, problems: bool,
    timeline: bool, observations: bool, functionalTesting: bool, narrative: Val)

  /** Whether the section `key` is rendered: the truthiness of its flag. */
  predicate Shown(incl: Inclusion, key: string) {
    match key
    case "rangeOfMotion" => incl.rangeOfMotion
    case "specialTests" => incl.specialTests
    case "strengthTesting" => incl.strengthTesting
    case "problems" => incl.problems
    case "timeline" => incl.timeline
    case "observations" => incl.observations
    case "functionalTesting" => incl.functionalTesting
    case "narrative" => Truthy(incl.narrative)
    case _ => Truthy(Flag(incl.saved, key))
  }

  /** The smart inclusion rule: a saved flag or the presence of findings or
      content shows a section; the timeline is shown only when it has events
      and its flag is not explicitly `false`. */
  function SmartSummaryInclusion(saved: Obj<Val>, inputs: InclusionInputs): (r: Inclusion)
    ensures Shown(r, "rangeOfMotion") <==> Truthy(Flag(saved, "rangeOfMotion")) || inputs.romFindings > 0
    ensures Shown(r, "specialTests") <==> Truthy(Flag(saved, "specialTests")) || inputs.specialTestFindings > 0
    ensures Shown(r, "strengthTesting") <==> Truthy(Flag(saved, "strengthTesting")) || inputs.strengthFindings > 0
    ensures Shown(r, "problems") <==> Truthy(Flag(saved, "problems")) || (inputs.problems.Some? && inputs.problems.value > 0)
    ensures Shown(r, "timeline") <==> Flag(saved, "timeline") != Bool(false) && inputs.timeline.Some? && inputs.timeline.value > 0
    ensures Shown(r, "observations") <==> Truthy(Flag(saved, "observations")) || inputs.observationKeys > 0
    ensures Shown(r, "functionalTesting") <==> Truthy(Flag(saved, "functionalTesting")) || inputs.functionalTestingKeys > 0
    ensures Shown(r, "narrative") <==> Truthy(Flag(saved, "narrative"))
  {
    var r := Inclusion(
      saved,
      Truthy(Flag(saved, "rangeOfMotion")) || inputs.romFindings > 0,
      Truthy(Flag(saved, "specialTests")) || inputs.specialTestFindings > 0,
      Truthy(Flag(saved, "strengthTesting")) || inputs.strengthFindings > 0,
      Truthy(Flag(saved, "problems")) || (inputs.problems.Some? && inputs.problems.value > 0),
      Flag(saved, "timeline") != Bool(false) && inputs.timeline.Some? && inputs.timeline.value > 0,
      Truthy(Flag(saved, "observations")) || inputs.observationKeys > 0,
      Truthy(Flag(saved, "functionalTesting")) || inputs.functionalTestingKeys > 0,
      Flag(saved, "narrative"));
    ShownAssigned(r);
    r
  }

  /** The eight assigned flags read their own fields. */
  lemma ShownAssigned(incl: Inclusion)
    ensures Shown(incl, "rangeOfMotion") == incl.rangeOfMotion
    ensures Shown(incl, "specialTests") == incl.specialTests
    ensures Shown(incl, "strengthTesting") == incl.strengthTesting
    ensures Shown(incl, "problems") == incl.problems
    ensures Shown(incl, "timeline") == incl.timeline
    ensures Shown(incl, "observations") == incl.observations
    ensures Shown(incl, "functionalTesting") == incl.functionalTesting
    ensures Shown(incl, "narrative") == Truthy(incl.narrative)
  {
  }

  /** Every flag the rule does not assign (`demographics`, `employer`,
      `emergencyContact`, ...) is read exactly as saved. */
  lemma InclusionKeepsOtherFlags(saved: Obj<Val>, inputs: InclusionInputs, k: string)
    requires k !in RuleKeys
    ensures Shown(SmartSummaryInclusion(saved, inputs), k) <==> Truthy(Flag(saved, k))
  {
    assert k != RuleKeys[0] && k != RuleKeys[1] && k != RuleKeys[2] && k != RuleKeys[3];
    assert k != RuleKeys[4] && k != RuleKeys[5] && k != RuleKeys[6] && k != RuleKeys[7];
  }

  /** What each default flag reads. */
  lemma DefaultFlags()
    ensures Flag(DefaultInclusion, "demographics") == Bool(true)
    ensures Flag(DefaultInclusion, "employer") == Bool(false)
    ensures Flag(DefaultInclusion, "emergencyContact") == Bool(false)
    ensures Flag(DefaultInclusion, "observations") == Bool(true)
    ensures Flag(DefaultInclusion, "problems") == Bool(true)
    ensures Flag(DefaultInclusion, "timeline") == Bool(true)
    ensures Flag(DefaultInclusion, "rangeOfMotion") == Bool(true)
    ensures Flag(DefaultInclusion, "specialTests") == Bool(true)
    ensures Flag(DefaultInclusion, "strengthTesting") == Bool(true)
    ensures Flag(DefaultInclusion, "functionalTesting") == Bool(true)
    ensures Flag(DefaultInclusion, "narrative") == Bool(false)
  {
    var m := DefaultInclusion;
    DefaultDistinct();
    GetDistinct(m, 0); GetDistinct(m, 1); GetDistinct(m, 2); GetDistinct(m, 3);
    GetDistinct(m, 4); GetDistinct(m, 5); GetDistinct(m, 6); GetDistinct(m, 7);
    GetDistinct(m, 8); GetDistinct(m, 9); GetDistinct(m, 10);
  }

  lemma DefaultDistinct()
    ensures DistinctKeys(DefaultInclusion)
  {
  }

  /** Without saved flags the defaults apply: every section but the
      employer, the emergency contact and the narrative is shown, and the
      timeline still needs events. */
  lemma MissingInclusionDefaults(inputs: InclusionInputs)
    ensures var r := SmartSummaryInclusion(SafeWatch(None, DefaultInclusion), inputs);
      Shown(r, "rangeOfMotion") && Shown(r, "specialTests") && Shown(r, "strengthTesting") &&
      Shown(r, "problems") && Shown(r, "observations") && Shown(r, "functionalTesting") &&
      Shown(r, "demographics") && !Shown(r, "employer") && !Shown(r, "emergencyContact") &&
      !Shown(r, "narrative") &&
      (Shown(r, "timeline") <==> inputs.timeline.Some? && inputs.timeline.value > 0)
  {
    DefaultFlags();
    DefaultsShown(DefaultInclusion, inputs);
  }

  /** The rule on any flags that read as the defaults do. */
  lemma DefaultsShown(saved: Obj<Val>, inputs: InclusionInputs)
    requires Flag(saved, "demographics") == Bool(true)
    requires Flag(saved, "employer") == Bool(false) && Flag(saved, "emergencyContact") == Bool(false)
    requires Flag(saved, "observations") == Bool(true) && Flag(saved, "problems") == Bool(true)
    requires Flag(saved, "timeline") == Bool(true) && Flag(saved, "rangeOfMotion") == Bool(true)
    requires Flag(saved, "specialTests") == Bool(true) && Flag(saved, "strengthTesting") == Bool(true)
    requires Flag(saved, "functionalTesting") == Bool(true) && Flag(saved, "narrative") == Bool(false)
    ensures var r := SmartSummaryInclusion(saved, inputs);
      Shown(r, "rangeOfMotion") && Shown(r, "specialTests") && Shown(r, "strengthTesting") &&
      Shown(r, "problems") && Shown(r, "observations") && Shown(r, "functionalTesting") &&
      Shown(r, "demographics") && !Shown(r, "employer") && !Shown(r, "emergencyContact") &&
      !Shown(r, "narrative") &&
      (Shown(r, "timeline") <==> inputs.timeline.Some? && inputs.timeline.value > 0)
  {
    InclusionKeepsOtherFlags(saved, inputs, "demographics");
    InclusionKeepsOtherFlags(saved, inputs, "employer");
    InclusionKeepsOtherFlags(saved, inputs, "emergencyContact");
  }

  /** A table with findings is always shown, whatever was saved; the
      timeline is the exception to "a saved `true` forces a section": with
      no timeline events it is hidden even when its flag is set. */
  lemma InclusionFacts(saved: Obj<Val>, inputs: InclusionInputs)
    ensures var r := SmartSummaryInclusion(saved, inputs);
      (inputs.romFindings > 0 ==> Shown(r, "rangeOfMotion")) &&
      (inputs.specialTestFindings > 0 ==> Shown(r, "specialTests")) &&
      (inputs.strengthFindings > 0 ==> Shown(r, "strengthTesting")) &&
      (Truthy(Flag(saved, "problems")) ==> Shown(r, "problems")) &&
      (inputs.timeline.None? || inputs.timeline.value == 0 ==> !Shown(r, "timeline")) &&
      (Flag(saved, "timeline") == Bool(false) ==> !Shown(r, "timeline"))
  {
  }

  // ---------------------------------------------------------------------------
  // Headers
  // ---------------------------------------------------------------------------

  /** The name fields of the demographics; `''` stands for a missing field. */
  datatype Demographics = Demographics(
    prefix: string, prefixOther: string, firstName: string, middleName: string,
    lastName: string, suffix: string, suffixOther: string)

  /** `prefix === 'Other' ? prefixOther : prefix`. */
  function OrOther(choice: string, other: string): (r: string)
    ensures choice == "Other" ==> r == other
    ensures choice != "Other" ==> r == choice
  {
    if choice == "Other" then other else choice
  }

  /** The five parts of the name, the title and suffix resolved. */
  function NameParts(d: Demographics): (r: seq<string>)
    ensures |r| == 5 && r[1] == d.firstName && r[2] == d.middleName && r[3] == d.lastName
    ensures r[0] == OrOther(d.prefix, d.prefixOther) && r[4] == OrOther(d.suffix, d.suffixOther)
  {
    [OrOther(d.prefix, d.prefixOther), d.firstName, d.middleName, d.lastName, OrOther(d.suffix, d.suffixOther)]
  }

  /** `[...].filter(Boolean).join(' ')`: the body shared by both
      `getPatientName` helpers. */
  function PatientName(d: Demographics): string {
    JoinTruthy(NameParts(d), " ")
  }

  /** The summary's `getPatientName` as a function of its local value. The
      `Unknown Patient` branch cannot be reached from the component, whose
      watched demographics fall back to `{}` (`WatchedPatientName`). */
  function SummaryPatientName(d: Option<Demographics>): (r: string)
    ensures d.None? ==> r == "Unknown Patient"
    ensures d.Some? ==> r == PatientName(d.value)
  {
    if d.None? then "Unknown Patient" else PatientName(d.value)
  }

  /** The `{}` the watch substitutes for missing demographics: every name
      field missing. */
  const EmptyDemographics := Demographics("", "", "", "", "", "", "")

  /** The name the summary renders: from the form's demographics when it has
      them, and `''` when it has none. */
  lemma WatchedPatientName(d: Option<Demographics>)
    ensures SummaryPatientName(Some(SafeWatch(d, EmptyDemographics))) ==
      (if d.Some? then PatientName(d.value) else "")
  {
    JoinTruthyEmpty(NameParts(EmptyDemographics), " ");
  }

  /** The name is the non-empty parts separated by single spaces: splitting
      it on spaces gives those parts back, in order, whenever no part holds
      a space itself; and it is empty exactly when every part is. */
  lemma PatientNameParts(d: Demographics)
    ensures PatientName(d) == "" <==> forall i :: 0 <= i < 5 ==> NameParts(d)[i] == ""
    ensures (forall p :: p in NameParts(d) ==> ' ' !in p) && NonEmpty(NameParts(d)) != [] ==>
      Split(PatientName(d), ' ') == NonEmpty(NameParts(d))
  {
    JoinTruthyEmpty(NameParts(d), " ");
    if (forall p :: p in NameParts(d) ==> ' ' !in p) && NonEmpty(NameParts(d)) != [] {
      JoinTruthySplits(NameParts(d), ' ');
    }
  }

  /** The employer fields; `''` stands for a missing field. */
  datatype Employer = Employer(name: string, streetAddress: string, city: string, state: string, zipCode: string, phone: string)

  datatype EmployerInfo = EmployerInfo(name: string, address: string, phone: string)

  /** The address parts, in the order they are written. */
  function AddressParts(e: Employer): (r: seq<string>)
    ensures |r| == 4
  {
    [e.streetAddress, e.city, e.state, e.zipCode]
  }

  /** `getEmployerInfo()`: the address is the non-empty parts joined by `', '`. */
  function GetEmployerInfo(e: Option<Employer>): (r: EmployerInfo)
    ensures e.None? ==> r == EmployerInfo("", "", "")
    ensures e.Some? ==> r.name == e.value.name && r.phone == e.value.phone
    ensures e.Some? ==> r.address == JoinTruthy(AddressParts(e.value), ", ")
    ensures e.Some? ==> (r.address == "" <==>
      e.value.streetAddress == "" && e.value.city == "" && e.value.state == "" && e.value.zipCode == "")
  {
    if e.None? then EmployerInfo("", "", "")
    else
      var parts := AddressParts(e.value);
      JoinTruthyEmpty(parts, ", ");
      assert parts[0] == e.value.streetAddress && parts[1] == e.value.city;
      assert parts[2] == e.value.state && parts[3] == e.value.zipCode;
      EmployerInfo(e.value.name, JoinTruthy(parts, ", "), e.value.phone)
  }

  /** The address splits back at its commas into its non-empty parts, each
      after the first behind the space of `', '`, whenever no part holds a
      comma itself. */
  lemma EmployerAddressParts(e: Employer)
    requires forall p :: p in AddressParts(e) ==> ',' !in p
    requires NonEmpty(AddressParts(e)) != []
    ensures Split(GetEmployerInfo(Some(e)).address, ',') == Indented(NonEmpty(AddressParts(e)), " ")
  {
    assert ", " == [','] + " ";
    JoinTruthyWideSplits(AddressParts(e), ',', " ");
  }

  /** `Math.max(1, historicalData.length)`. */
  function VisitsSinceInitial(historyLength: nat): (r: nat)
    ensures r >= 1 && r >= historyLength
    ensures r == 1 || r == historyLength
  {
    if historyLength < 1 then 1 else historyLength
  }

  // ---------------------------------------------------------------------------
  // Body-part names
  // ---------------------------------------------------------------------------

  /** `bodyPartMap`: readable names of the body-part ids. */
  const BodyPartNames: Obj<string> := [
    ("cervicalSpine", "cervical spine"), ("thoracicSpine", "thoracic spine"), ("lumbarSpine", "lumbar spine"),
    ("shoulder", "shoulder"), ("upperArm", "upper arm"), ("elbow", "elbow"), ("forearm", "forearm"),
    ("wrist", "wrist"), ("hip", "hip"), ("thigh", "thigh"), ("knee", "knee"), ("shin", "shin"),
    ("ankle", "ankle"), ("foot", "foot"), ("hand", "hand"), ("neck", "neck")
  ]

  /** `getBodyPartName(id)`: the table's name, else the humanised id. */
  function GetBodyPartName(id: string): string {
    match Get(BodyPartNames, id)
    case Some(name) => if name != "" then name else Humanize(id)
    case None => Humanize(id)
  }

  /** A camelCase id of two words is humanised to the two words. */
  lemma TwoWords(id: string, first: string, capital: char, rest: string, name: string)
    requires NoUpper(first) && NoUpper(rest) && IsUpper(capital)
    requires id == first + [capital] + rest
    requires name == first + [' ', ToLowerChar(capital)] + rest
    ensures Humanize(id) == name
  {
    CamelPair(first, capital, rest);
  }

  const PlainIds: seq<string> := ["shoulder", "elbow", "forearm", "wrist", "hip", "thigh", "knee", "shin", "ankle", "foot", "hand", "neck"]

  /** The entries of the table: four two-word ids and the one-word ids
      that are their own names. */
  predicate IsEntryShape(id: string, name: string) {
    (id == "cervicalSpine" && name == "cervical spine") ||
    (id == "thoracicSpine" && name == "thoracic spine") ||
    (id == "lumbarSpine" && name == "lumbar spine") ||
    (id == "upperArm" && name == "upper arm") ||
    (id == name && id in PlainIds)
  }

  lemma EntryShape(id: string, name: string)
    requires (id, name) in BodyPartNames
    ensures IsEntryShape(id, name)
  {
  }

  /** The one-word ids have no capitals. */
  lemma PlainHumanized(id: string)
    requires id in PlainIds
    ensures Humanize(id) == id
  {
    HumanizeLowercase(id);
  }

  /** Every entry of the table is its humanised id. */
  lemma EntryHumanized(id: string, name: string)
    requires IsEntryShape(id, name)
    ensures name == Humanize(id)
  {
    if id == name && id in PlainIds { PlainHumanized(id); }
    else if id == "cervicalSpine" && name == "cervical spine" { HumanizeCervical(); }
    else if id == "thoracicSpine" && name == "thoracic spine" { HumanizeThoracic(); }
    else if id == "lumbarSpine" && name == "lumbar spine" { HumanizeLumbar(); }
    else { HumanizeUpperArm(); }
  }

  lemma HumanizeCervical()
    ensures Humanize("cervicalSpine") == "cervical spine"
  {
    assert "cervicalSpine" == "cervical" + ['S'] + "pine";
    assert "cervical spine" == "cervical" + [' ', ToLowerChar('S')] + "pine";
    TwoWords("cervicalSpine", "cervical", 'S', "pine", "cervical spine");
  }

  lemma HumanizeThoracic()
    ensures Humanize("thoracicSpine") == "thoracic spine"
  {
    assert "thoracicSpine" == "thoracic" + ['S'] + "pine";
    assert "thoracic spine" == "thoracic" + [' ', ToLowerChar('S')] + "pine";
    TwoWords("thoracicSpine", "thoracic", 'S', "pine", "thoracic spine");
  }

  lemma HumanizeLumbar()
    ensures Humanize("lumbarSpine") == "lumbar spine"
  {
    assert "lumbarSpine" == "lumbar" + ['S'] + "pine";
    assert "lumbar spine" == "lumbar" + [' ', ToLowerChar('S')] + "pine";
    TwoWords("lumbarSpine", "lumbar", 'S', "pine", "lumbar spine");
  }

  lemma HumanizeUpperArm()
    ensures Humanize("upperArm") == "upper arm"
  {
    assert "upperArm" == "upper" + ['A'] + "rm";
    assert "upper arm" == "upper" + [' ', ToLowerChar('A')] + "rm";
    TwoWords("upperArm", "upper", 'A', "rm", "upper arm");
  }

  /** The lookup never changes the result: `getBodyPartName` is the
      humaniser, for ids in the table and for every other id. */
  lemma BodyPartNameIsHumanize(id: string)
    ensures GetBodyPartName(id) == Humanize(id)
  {
    if Get(BodyPartNames, id).Some? {
      var name := Get(BodyPartNames, id).value;
      GetIsEntry(BodyPartNames, id, name);
      EntryShape(id, name);
      EntryHumanized(id, name);
    }
  }
}

=== FILE: utils.dfy ===
/** The string and date helpers of src/lib/utils.ts: phone formatting, age
    and age range, and class-name joining. */
module Utils {
  import opened Wrappers
  import opened Strings

  // ---------------------------------------------------------------------------
  // formatPhoneNumber (src/lib/utils.ts:22-32)
  // ---------------------------------------------------------------------------

  function Min(a: int, b: int): int {
    if a <= b then a else b
  }

  /** `formatPhoneNumber(value)`: an empty input is returned as is; otherwise
      the digits are kept and grouped as `(ddd) ddd-dddd`, as far as there
      are digits, and digits past the tenth are dropped. */
  function FormatPhoneNumber(value: string): (r: string)
    ensures value == "" ==> r == ""
    ensures value != "" && |DigitsOf(value)| < 4 ==> r == DigitsOf(value)
  {
    if value == "" then value
    else
      var d := DigitsOf(value);
      if |d| < 4 then d
      else if |d| < 7 then "(" + d[..3] + ") " + d[3..]
      else "(" + d[..3] + ") " + d[3..6] + "-" + d[6..Min(10, |d|)]
  }

  /** The shape the form's validation accepts: `^\(\d{3}\)\s\d{3}-\d{4}$`
      (src/lib/validation.ts:3), with a plain space for `\s`. */
  predicate PhonePattern(s: string) {
    |s| == 14 && s[0] == '(' && s[4] == ')' && s[5] == ' ' && s[9] == '-' &&
    AllDigits(s[1..4]) && AllDigits(s[6..9]) && AllDigits(s[10..14])
  }

  lemma DigitsThenDigits(s: string, a: string)
    requires AllDigits(a)
    ensures DigitsOf(s + a) == DigitsOf(s) + a
  {
    DigitsOfAppend(s, a);
    DigitsOfDigits(a);
  }

  lemma DigitsThenPunctuation(s: string, p: string)
    requires p in {"(", ") ", "-"}
    ensures DigitsOf(s + p) == DigitsOf(s)
  {
    DigitsOfAppend(s, p);
    assert DigitsOf(p) == "";
  }

  /** The digits of `(ddd) rest` are the digits put in. */
  lemma DigitsOfShortGroups(a: string, b: string)
    requires AllDigits(a) && AllDigits(b)
    ensures DigitsOf("(" + a + ") " + b) == a + b
  {
    var s1 := "(" + a;
    var s2 := s1 + ") ";
    DigitsThenPunctuation("", "(");
    assert "" + "(" == "(";
    DigitsThenDigits("(", a);
    assert DigitsOf(s1) == a;
    DigitsThenPunctuation(s1, ") ");
    DigitsThenDigits(s2, b);
  }

  /** The digits of `(ddd) ddd-dddd` are the digits put in. */
  lemma DigitsOfLongGroups(a: string, b: string, c: string)
    requires AllDigits(a) && AllDigits(b) && AllDigits(c)
    ensures DigitsOf("(" + a + ") " + b + "-" + c) == a + b + c
  {
    var s3 := "(" + a + ") " + b;
    DigitsOfShortGroups(a, b);
    DigitsThenPunctuation(s3, "-");
    DigitsThenDigits(s3 + "-", c);
  }

  lemma AllDigitsSlice(d: string, i: nat, j: nat)
    requires AllDigits(d) && i <= j <= |d|
    ensures AllDigits(d[i..j])
  {
    forall k | 0 <= k < j - i ensures IsDigit(d[i..j][k]) {
      assert d[i..j][k] == d[i + k];
    }
  }

  /** Formatting keeps exactly the first ten digits of the input, in order. */
  lemma {:induction false} FormatKeepsDigits(value: string)
    ensures DigitsOf(FormatPhoneNumber(value)) == DigitsOf(value)[..Min(10, |DigitsOf(value)|)]
  {
    var d := DigitsOf(value);
    if value == "" {
      assert DigitsOf(value) == "";
    } else if |d| < 4 {
      DigitsOfDigits(d);
    } else if |d| < 7 {
      AllDigitsSlice(d, 0, 3);
      AllDigitsSlice(d, 3, |d|);
      DigitsOfShortGroups(d[..3], d[3..]);
      assert d[..3] + d[3..] == d;
    } else {
      var n := Min(10, |d|);
      AllDigitsSlice(d, 0, 3);
      AllDigitsSlice(d, 3, 6);
      AllDigitsSlice(d, 6, n);
      DigitsOfLongGroups(d[..3], d[3..6], d[6..n]);
      assert d[..3] + d[3..6] + d[6..n] == d[..n];
    }
  }

  /** From four digits on, the text opens with the area code in parentheses
      and a space; up to six digits the rest follows as it is, from seven on
      the exchange, a dash and at most four more digits follow. */
  lemma FormatGroups(value: string)
    requires |DigitsOf(value)| >= 4
    ensures var d := DigitsOf(value); var r := FormatPhoneNumber(value);
      |r| >= 6 && r[0] == '(' && r[1..4] == d[..3] && r[4..6] == ") " &&
      (|d| <= 6 ==> r[6..] == d[3..]) &&
      (|d| >= 7 ==> |r| >= 10 && r[6..9] == d[3..6] && r[9] == '-' && r[10..] == d[6..Min(10, |d|)])
  {
    var d := DigitsOf(value);
    var r := FormatPhoneNumber(value);
    var head := "(" + d[..3] + ") ";
    assert |head| == 6 && head[0] == '(' && head[1..4] == d[..3] && head[4..6] == ") ";
    if |d| < 7 {
      assert r == head + d[3..];
    } else {
      var n := Min(10, |d|);
      assert r == head + d[3..6] + "-" + d[6..n];
      assert r[..6] == head && r[6..9] == d[3..6] && r[9] == '-' && r[10..] == d[6..n];
    }
  }

  /** Ten or more digits always come out in the validated phone shape. */
  lemma FormatMatchesPattern(value: string)
    requires |DigitsOf(value)| >= 10
    ensures PhonePattern(FormatPhoneNumber(value))
  {
    var d := DigitsOf(value);
    var r := FormatPhoneNumber(value);
    assert r == "(" + d[..3] + ") " + d[3..6] + "-" + d[6..10];
    assert r[1..4] == d[..3] && r[6..9] == d[3..6] && r[10..14] == d[6..10];
    AllDigitsSlice(d, 0, 3);
    AllDigitsSlice(d, 3, 6);
    AllDigitsSlice(d, 6, 10);
  }

  /** Formatting an already formatted number changes nothing. */
  lemma FormatIdempotent(value: string)
    ensures FormatPhoneNumber(FormatPhoneNumber(value)) == FormatPhoneNumber(value)
  {
    var d := DigitsOf(value);
    var r := FormatPhoneNumber(value);
    if value != "" {
      if |d| < 4 {
        DigitsOfDigits(d);
      } else {
        FormatKeepsDigits(value);
        assert r[0] == '(';
        if |d| < 7 {
          assert DigitsOf(r) == d;
        } else {
          RegroupSame(d, DigitsOf(r));
        }
      }
    }
  }

  /** Re-grouping the first ten digits of a long number gives the same text. */
  lemma RegroupSame(d: string, d': string)
    requires |d| >= 7 && d' == d[..Min(10, |d|)]
    ensures "(" + d'[..3] + ") " + d'[3..6] + "-" + d'[6..Min(10, |d'|)] ==
            "(" + d[..3] + ") " + d[3..6] + "-" + d[6..Min(10, |d|)]
  {
    var n := Min(10, |d|);
    assert |d'| == n && Min(10, |d'|) == n;
    assert d'[..3] == d[..3] && d'[3..6] == d[3..6] && d'[6..n] == d[6..n];
  }

  // ---------------------------------------------------------------------------
  // calculateAge and getAgeRange (src/lib/utils.ts:1-20)
  // ---------------------------------------------------------------------------

  /** A calendar date as `getFullYear()`, `getMonth()` and `getDate()` read it. */
  datatype Date = Date(year: int, month: int, day: int)

  /** Calendar order of dates. */
  predicate DateLe(a: Date, b: Date) {
    a.year < b.year ||
    (a.year == b.year && (a.month < b.month || (a.month == b.month && a.day <= b.day)))
  }

  /** `calculateAge(birthDate)` with today's date passed in; `None` stands
      for an empty birth date. The age is the number of birthdays reached:
      the `age`-th falls on or before today, the next one after it. */
  function CalculateAge(birth: Option<Date>, today: Date): (age: int)
    ensures birth.None? ==> age == 0
    ensures birth.Some? ==>
      DateLe(Birthday(birth.value, age), today) && !DateLe(Birthday(birth.value, age + 1), today)
  {
    if birth.None? then 0
    else
      var b := birth.value;
      var age := today.year - b.year;
      var monthDiff := today.month - b.month;
      if monthDiff < 0 || (monthDiff == 0 && today.day < b.day) then age - 1 else age
  }

  /** The date on which someone born on `b` turns `n`. */
  function Birthday(b: Date, n: int): Date {
    Date(b.year + n, b.month, b.day)
  }

  /** A later "today" never gives a smaller age. */
  lemma AgeMonotone(b: Date, t1: Date, t2: Date)
    requires DateLe(t1, t2)
    ensures CalculateAge(Some(b), t1) <= CalculateAge(Some(b), t2)
  {
  }

  /** `getAgeRange(age)`. */
  function GetAgeRange(age: int): (r: string)
    ensures r in {"child", "young", "middle", "elderly"}
  {
    if age < 18 then "child"
    else if age < 40 then "young"
    else if age < 60 then "middle"
    else "elderly"
  }

  /** The position of a range, youngest first. */
  function RangeRank(r: string): int {
    match r
    case "child" => 0
    case "young" => 1
    case "middle" => 2
    case _ => 3
  }

  /** The ranges partition the ages at 18, 40 and 60, in increasing order. */
  lemma AgeRangeBands(age: int)
    ensures GetAgeRange(age) == "child" <==> age < 18
    ensures GetAgeRange(age) == "young" <==> 18 <= age < 40
    ensures GetAgeRange(age) == "middle" <==> 40 <= age < 60
    ensures GetAgeRange(age) == "elderly" <==> 60 <= age
  {
  }

  lemma AgeRangeMonotone(a: int, b: int)
    requires a <= b
    ensures RangeRank(GetAgeRange(a)) <= RangeRank(GetAgeRange(b))
  {
  }

  // ---------------------------------------------------------------------------
  // cn (src/lib/utils.ts:38-40)
  // ---------------------------------------------------------------------------

  /** `cn(...classes)`; `undefined`, `null` and `false` are given as `''`. */
  function Cn(classes: seq<string>): (r: string)
    ensures r == "" <==> forall i :: 0 <= i < |classes| ==> classes[i] == ""
    ensures (forall c :: c in classes ==> ' ' !in c) && NonEmpty(classes) != [] ==>
      Split(r, ' ') == NonEmpty(classes)
  {
    JoinTruthyEmpty(classes, " ");
    ClassesSplit(classes);
    JoinTruthy(classes, " ")
  }

  lemma ClassesSplit(classes: seq<string>)
    ensures (forall c :: c in classes ==> ' ' !in c) && NonEmpty(classes) != [] ==>
      Split(JoinTruthy(classes, " "), ' ') == NonEmpty(classes)
  {
    if (forall c :: c in classes ==> ' ' !in c) && NonEmpty(classes) != [] {
      JoinTruthySplits(classes, ' ');
    }
  }
}

=== FILE: values.dfy ===
/** The dynamically typed leaf values that the form, the stores and the
    summary code pass around, with the JavaScript rules the source relies on:
    truthiness, `v || fallback`, `v > 0` and template-literal printing. */
module Values {
  import Strings

  /** A JSON leaf: `undefined`/`null`, a boolean, a number (integers only) or a string. */
  datatype Val = Absent | Bool(b: bool) | Num(n: int) | Str(s: string)

  /** JavaScript truthiness. */
  predicate Truthy(v: Val) {
    match v
    case Absent => false
    case Bool(b) => b
    case Num(n) => n != 0
    case Str(s) => s != ""
  }

  /** `v || fallback`. */
  function Or(v: Val, fallback: Val): Val {
    if Truthy(v) then v else fallback
  }

  /** `v > 0`. A string is compared through its numeric conversion, which is
      modelled for strings of decimal digits; any other string converts to NaN. */
  predicate GreaterThanZero(v: Val) {
    match v
    case Absent => false
    case Bool(b) => b
    case Num(n) => n > 0
    case Str(s) => s != "" && Strings.AllDigits(s) && Strings.ParseDigits(s) > 0
  }

  /** `${v}` inside a template literal. */
  function Display(v: Val): string {
    match v
    case Absent => "undefined"
    case Bool(b) => if b then "true" else "false"
    case Num(n) => Strings.IntToString(n)
    case Str(s) => s
  }

  /** `v || ''` read as text: the printed value when truthy, otherwise empty. */
  function TextOr(v: Val): string {
    if Truthy(v) then Display(v) else ""
  }
}

=== FILE: walk.dfy ===
/** The traversal shape shared by the three extractors: `Object.entries`
    over body parts, then over the keys of each body part, then over a
    fixed list of slots, concatenating what each step produces. */
module Walk {
  import opened JsObject
  import opened Seqs

  /** The slots of `slots` that `keep` accepts, each turned into a result
      by `make`, in slot order. */
  function Pick<S(!new), F(!new)>(slots: seq<S>, keep: S -> bool, make: S -> F): (r: seq<F>)
    ensures |r| <= |slots|
    ensures forall x :: x in r <==> exists s :: s in slots && keep(s) && x == make(s)
  {
    if |slots| == 0 then []
    else
      var rest := Pick(slots[1..], keep, make);
      assert forall s :: s in slots <==> s == slots[0] || s in slots[1..] by {
        assert slots == [slots[0]] + slots[1..];
      }
      (if keep(slots[0]) then [make(slots[0])] else []) + rest
  }

  /** Picking with a test that agrees everywhere with `accept` gives exactly
      the results of the slots `accept` accepts. */
  lemma PickExactly<S(!new), F(!new)>(slots: seq<S>, keep: S -> bool, accept: S -> bool, make: S -> F)
    requires forall s :: keep(s) == accept(s)
    ensures forall x :: x in Pick(slots, keep, make) <==> exists s :: s in slots && accept(s) && x == make(s)
  {
  }

  /** `Object.entries(entries).forEach(([key, entry]) => ...)` inside one
      body part. */
  function WalkEntries<E(!new), F(!new)>(bodyPart: string, entries: Obj<E>, step: (string, string, E) -> seq<F>): (r: seq<F>)
    ensures forall x :: x in r <==>
      exists j :: 0 <= j < |entries| && x in step(bodyPart, entries[j].0, entries[j].1)
  {
    if |entries| == 0 then []
    else
      var rest := WalkEntries(bodyPart, entries[1..], step);
      assert forall x :: x in rest <==>
        exists j :: 1 <= j < |entries| && x in step(bodyPart, entries[j].0, entries[j].1) by {
        forall x | x in rest ensures exists j :: 1 <= j < |entries| && x in step(bodyPart, entries[j].0, entries[j].1) {
          var j :| 0 <= j < |entries[1..]| && x in step(bodyPart, entries[1..][j].0, entries[1..][j].1);
          assert entries[1..][j] == entries[j + 1];
        }
        forall x, j | 1 <= j < |entries| && x in step(bodyPart, entries[j].0, entries[j].1) ensures x in rest {
          assert entries[1..][j - 1] == entries[j];
        }
      }
      step(bodyPart, entries[0].0, entries[0].1) + rest
  }

  /** `Object.entries(section).forEach(([bodyPart, entries]) => ...)`. */
  function WalkSection<E(!new), F(!new)>(section: Obj<Obj<E>>, step: (string, string, E) -> seq<F>): (r: seq<F>)
    ensures forall x :: x in r <==>
      exists i :: 0 <= i < |section| && x in WalkEntries(section[i].0, section[i].1, step)
  {
    if |section| == 0 then []
    else
      var rest := WalkSection(section[1..], step);
      assert forall x :: x in rest <==>
        exists i :: 1 <= i < |section| && x in WalkEntries(section[i].0, section[i].1, step) by {
        forall x | x in rest ensures exists i :: 1 <= i < |section| && x in WalkEntries(section[i].0, section[i].1, step) {
          var i :| 0 <= i < |section[1..]| && x in WalkEntries(section[1..][i].0, section[1..][i].1, step);
          assert section[1..][i] == section[i + 1];
        }
        forall x, i | 1 <= i < |section| && x in WalkEntries(section[i].0, section[i].1, step) ensures x in rest {
          assert section[1..][i - 1] == section[i];
        }
      }
      WalkEntries(section[0].0, section[0].1, step) + rest
  }

  /** What each key of a body part produces, in key order. */
  function EntryParts<E, F>(bodyPart: string, entries: Obj<E>, step: (string, string, E) -> seq<F>): (r: seq<seq<F>>)
    ensures |r| == |entries|
    ensures forall j :: 0 <= j < |entries| ==> r[j] == step(bodyPart, entries[j].0, entries[j].1)
  {
    seq(|entries|, j requires 0 <= j < |entries| => step(bodyPart, entries[j].0, entries[j].1))
  }

  /** What each body part produces, in body-part order, each the
      concatenation of its keys' results. */
  function SectionParts<E(!new), F(!new)>(section: Obj<Obj<E>>, step: (string, string, E) -> seq<F>): (r: seq<seq<F>>)
    ensures |r| == |section|
    ensures forall i :: 0 <= i < |section| ==> r[i] == Flatten(EntryParts(section[i].0, section[i].1, step))
  {
    seq(|section|, i requires 0 <= i < |section| => Flatten(EntryParts(section[i].0, section[i].1, step)))
  }

  /** The walk of one body part is its keys' results concatenated in key
      order, each as often as it is produced. */
  lemma {:induction false} WalkEntriesOrder<E(!new), F(!new)>(bodyPart: string, entries: Obj<E>, step: (string, string, E) -> seq<F>)
    ensures WalkEntries(bodyPart, entries, step) == Flatten(EntryParts(bodyPart, entries, step))
  {
    if |entries| > 0 {
      WalkEntriesOrder(bodyPart, entries[1..], step);
      assert EntryParts(bodyPart, entries, step)[1..] == EntryParts(bodyPart, entries[1..], step);
    }
  }

  /** The walk of a section is its body parts' walks concatenated in
      body-part order. */
  lemma {:induction false} WalkSectionOrder<E(!new), F(!new)>(section: Obj<Obj<E>>, step: (string, string, E) -> seq<F>)
    ensures WalkSection(section, step) == Flatten(SectionParts(section, step))
  {
    if |section| > 0 {
      WalkSectionOrder(section[1..], step);
      WalkEntriesOrder(section[0].0, section[0].1, step);
      assert SectionParts(section, step)[1..] == SectionParts(section[1..], step);
    }
  }
}

=== FILE: wrappers.dfy ===
/** Failure-compatible wrappers used across the model: an optional value and a
    success-or-error result. */
module Wrappers {

  /** A value that may be missing (`undefined` in the source). */
  datatype Option<+T> = None | Some(value: T) {

    /** The carried value, or `default` when there is none. */
    function GetOr(default: T): T {
      match this
      case Some(v) => v
      case None => default
    }
  }

  /** The outcome of an operation that can throw in the source. */
  datatype Result<+T, +E> = Success(value: T) | Failure(error: E)
}
